=== FILE: README.md ===
# Baseball career stats: converter and web page

This project models the two programs behind the career-stats table of a personal
web site. It states their behaviour in Dafny and proves properties about them.

- **The converter** (`tools/process_stats.py`) reads a Baseball-Reference export.
  - It drops blank years, Baseball-Reference's own "N Teams" totals and unknown levels.
  - It maps each level code to a level name, a category and an organisation.
  - It writes a CSV file with three sections:
    - for every year in sorted order and every category, an aggregate row labelled "N team(s)", followed by that group's team rows;
    - one "<Category> Career" row per category;
    - the Minors level totals, which carry an empty `Season`.
- **The page** (`script.js`) parses that CSV with its own `parseCSV` and classifies the rows.
  - Career rows are found by their `Season` label.
  - Season-aggregate rows need a four-digit `Season` and a `Team` matching `/\d+\s*teams?$/i`.
  - The levels played in each season and category are collected for display.
  - The page then shows highlight cards, a year range on each category button, body rows and footer totals.
  - A category selector shows exactly one category at a time.
- **List orderings.** The two comparators behind the site's project list and dated lists are modelled too.

The modules, one file each:

| file | module | what it holds |
|---|---|---|
| `wrappers.dfy` | `Wrappers` | `Option` and `Result` |
| `text.dfy` | `Text` | whitespace as each language defines it; `trim`/`strip`, `split`, `in`; decimal printing and Python's `int()` |
| `csv.dfy` | `Csv` | `parseCSV` |
| `seqs.dfy` | `Seqs` | the first-seen de-duplication the page uses |
| `site_rows.dfy` | `SiteRows` | the page's row classification |
| `site_view.dfy` | `SiteView` | highlights, year ranges, table cells, badges and footer |
| `category_filter.dfy` | `CategoryFilter` | the category selector, as a pure function from the chosen category to a view |
| `producer.dfy` | `Producer` | the converter's per-row operations |
| `process.dfy` | `Process` | the converter's grouping and ordering |
| `pipeline.dfy` | `Pipeline` | properties that connect the file the converter writes to what the page shows |
| `ordering.dfy` | `Ordering` | the two list comparators and a sort that uses them |

Innings are modelled exactly, as a count of outs (thirds of an inning). The
converter itself uses floating point with a 0.01 tolerance.

Where the code's behaviour is easy to misread, the model follows the code:

- **Unknown levels.** A level missing from the level-to-category table files its badge under the level name itself: `levelToCategory[row.Level] || row.Level`.
- **Org badge.** The badge is also omitted for an empty `Org`, because the empty string is falsy in JavaScript.
- **The W-L highlight** is `W + "-" + L` with no dash default. A missing `W` shows as `undefined`.
- **Footer cells** apply `|| "-"` before the saves rule. So a missing or empty SV in a career row also shows as "0".
- **Body cells.** A missing SV in a body row stays `undefined` and shows as nothing.
- **Aggregate rows** carry the category name in `Level`, not a level code. That category decides which rows a selection shows.

## Model

| member | source | states |
|---|---|---|
| Text.Trim | script.js:155 | `trim()` removes exactly the leading and trailing whitespace. What is left neither starts nor ends with whitespace. |
| Text.Split | script.js:155-160 | `split` always gives at least one piece, and no piece holds the separator. Joining the pieces with the separator gives back the input. |
| Text.SplitJoin | script.js:155-160 | Splitting a join of separator-free pieces gives those pieces back. |
| Text.Contains | tools/process_stats.py:188 | Python's `sub in s` is true exactly when `sub` occurs at some index of `s`. |
| Text.PyIntSkipsNextLine | tools/process_stats.py:136-141 | Python's `int()` skips U+0085 around a number, as it does every Unicode space. |
| Text.PyIntStopsAtSeparator | tools/process_stats.py:136-141 | Python's `int()` rejects U+001C before a number, although `str.strip()` treats it as whitespace. |
| Text.PyIntOfIntToString | tools/process_stats.py:136-141 | Python's `int()` reads every printed integer back unchanged, negative numbers included. |
| Csv.ZipRow | script.js:161-164 | Each header name maps to the field at its last occurrence. A name whose field is missing on a short line is absent. No other name appears. |
| Csv.ParseCsv | script.js:154-168 | There is one row per line after the header of the trimmed text. Row i is the header zipped with the comma-separated fields of line i+1. |
| Csv.ParseRenderedCsv | script.js:154-168 | Text written the way `csv.DictWriter` writes unquoted fields, each line ending in "\r\n", parses into one row per record. Every header but the last maps to its own field. The last header is read as itself plus "\r", and it maps to the record's last field, which keeps a "\r" on every line but the final one. |
| Seqs.Dedup | script.js:424-430 | The `includes`/`push` list holds every element once, in first-seen order. |
| Seqs.DedupSnoc | script.js:428-430 | A new element is pushed only when it is not already in the list. |
| SiteRows.TeamCountIsRegex | script.js:375 | The computed team-count test holds exactly when `/\d+\s*teams?$/i` matches: digits, JavaScript whitespace, then "team" or "teams" in any case, ending the string. |
| SiteRows.SeasonAggregateShape | script.js:374-376 | A season-aggregate row has a present four-digit `Season` and a present `Team` matching the regex. An `undefined` field never qualifies. |
| SiteRows.SeasonRows | script.js:374-376 | The filter keeps exactly the season-aggregate rows and never adds rows. |
| SiteRows.SeasonRowsAppend | script.js:374-376 | The filter keeps input order: it distributes over concatenation. |
| SiteRows.FirstWithSeason | script.js:367-370 | `find` returns the first row whose `Season` equals the label, or nothing when no row has it. |
| SiteRows.CareerRow | script.js:366-371 | A category has a career row iff some row is labelled "<Category> Career". The row found is the first so labelled. |
| SiteRows.SeasonCategoryLevels | script.js:418-432 | Every list in `seasonCategoryLevels` is non-empty and free of repeats. |
| SiteRows.SeasonCategoryLevelsSpec | script.js:418-432 | A key is present iff some four-digit, non-aggregate row files its level under `Season-category`. Its list is those rows' levels, de-duplicated in first-seen order. |
| SiteRows.RowWithoutLevelIgnored | script.js:421 | A row that fails the year-and-no-team-count test never affects the map. Removing it anywhere gives the same map. |
| SiteRows.AggregateRowIgnored | script.js:420-421 | In particular, a season-aggregate row never affects the map. |
| SiteView.HighlightValues | script.js:537-547 | Without a career row all six values are "-". Otherwise ERA/G/IP/SO/WHIP come from the first career row, with "-" for missing or empty fields, and W-L is `W-L`. No value is empty. |
| SiteView.YearsOf | script.js:493-501 | `categoryYears[c]` holds exactly the years of the season rows whose `Level` is c. |
| SiteView.YearRange | script.js:503-511 | The range text is empty iff there are no years. |
| SiteView.YearRangeOfBounds | script.js:503-511 | The range depends only on the smallest and largest year. It shows the year alone when they agree, else `lo-yy` with the last two digits of the largest. |
| SiteView.YearRangeExamples | script.js:503-511 | Example: [] gives "", [2021] gives "2021", and both [2019, 2023] and [2023, 2019, 2021] give "2019-23". |
| SiteView.BodyCell | script.js:641-648 | A body SV never shows "-" or "". Every other cell shows the row's value unchanged. |
| SiteView.FooterCell | script.js:673-678 | A present value other than "" and "-" shows unchanged. A missing, "" or "-" value shows "-", except in SV, where it shows "0". So a cell is never empty, and SV never shows "-". |
| SiteView.OrgBadge | script.js:607-614 | There is no badge iff `Org` is missing, "" or "-". Known organisations show their full name; others show `Org` as is. |
| SiteView.LevelsCellOf | script.js:617-638 | A row with `Level` "Minors" shows the list stored under "<Season>-Minors" (empty if none). Any other row shows a league badge iff its `Level` is a category with a league, and the badge is that category's league. |
| SiteView.MinorsBadgesAreSeasonLevels | script.js:619-628 | A Minors row's badges are the levels of that season's Minors team rows, each once, in first-seen order. |
| SiteView.WithCareer | script.js:656-659 | The filtered categories are those of the list that have a career row, in the list's order. |
| SiteView.FooterCategories | script.js:656-659 | A category gets a footer row iff it has a career row, in selector order. |
| SiteView.RenderTable | script.js:594-684 | There is one body row per season row, tagged with its `Level`. It holds the row's `Season`, its org badge, its levels cell drawn from the table-wide `seasonCategoryLevels`, and the body cells. There is one footer row per category with a career row, holding its footer cells. |
| SiteView.TableMinorsBadges | script.js:617-628 | In the table, a Minors row's levels cell lists the levels of that season's Minors team rows, each once, in first-seen order. |
| CategoryFilter.Select | script.js:692-729 | After clicking category x: exactly x's button is active, and the headers read Organization/Levels iff x is Minors. The cards show x's highlights. A body or footer row is visible iff its category is x. |
| CategoryFilter.InitialIsMinors | script.js:513-666 | The first render is exactly the view of choosing Minors. |
| CategoryFilter.ViewIsLastChoice | script.js:692-694 | After any series of clicks, the view is that of the last category clicked, or Minors if none was. Clicks outside a button change nothing. |
| CategoryFilter.OneFooterRowShown | script.js:726-728 | At most one footer row is visible. One is visible iff the chosen category has a career row. |
| CategoryFilter.FixtureBodyShown | script.js:721-723 | Example: on a fixture with a 2022 Minors aggregate, choosing College hides that row and choosing Minors shows it. |
| CategoryFilter.FixtureFooter | script.js:656-659 | Example: the same fixture has a College footer row and no Summer one. |
| CategoryFilter.FixtureHighlights | script.js:537-547 | Example: a Minors career row with W 10 and L 5 gives the highlight "10-5". |
| Producer.SafeInt | tools/process_stats.py:136-141 | None, "" and "-" give the default. Text Python's `int` accepts gives its value. Text `int` rejects gives the default. |
| Producer.SafeIntOfIntToString | tools/process_stats.py:136-141 | `safe_int` reads back every integer the converter writes. |
| Producer.ParseIp | tools/process_stats.py:110-122 | None, "" and "-" are zero outs. A failure names the innings text it could not read. |
| Producer.FormatIp | tools/process_stats.py:125-133 | The text is a canonical whole number, a point, and 0, 1 or 2. Three times the whole number plus that digit is the number of outs. |
| Producer.ParseFormatIp | tools/process_stats.py:110-133 | Reading back a written innings figure gives the same number of outs. |
| Producer.FormatParseIp | tools/process_stats.py:110-133 | Writing a canonical "N.k" that was read gives the same text. |
| Producer.OrgOf | tools/process_stats.py:195-201 | A known affiliate gives its parent club. Any other affiliate, the empty one included, gives the category's default when it has one. The org is "-" iff there is neither. |
| Producer.ReadRow | tools/process_stats.py:181-230 | A record is skipped, not failed, iff its year is blank, or its team is present and holds "Teams" or "teams", or its level is missing or unknown. A None team fails. A record is kept iff its team holds neither "Teams" nor "teams", its level is known, its affiliate is present, and its innings read. A kept row carries the mapped level, category, org, outs and `safe_int` counts. |
| Producer.ReadRows | tools/process_stats.py:175-232 | Reading succeeds iff every record does. The rows are the kept records in input order, each once per record that keeps it. A failure reports the error of the first record that fails. |
| Producer.ReadRowNumbers | tools/process_stats.py:203-229 | A record holding canonical numerals and a canonical innings figure is read back to exactly those numbers. |
| Producer.TeamLabel | tools/process_stats.py:249 | The text before the first space is a canonical numeral whose value is the count. The rest is " team", or " teams" exactly when the count exceeds one. |
| Producer.AggregateOf | tools/process_stats.py:235-273 | The aggregate takes year, org and category from the first row, with the category as its level. Its team is the count label and its league is "-". Every counting statistic and the innings are the group's sums. |
| Producer.Aggregate | tools/process_stats.py:237-238 | Aggregating fails exactly on an empty group. |
| Producer.StatText | tools/process_stats.py:299 | A statistic is written as "-" iff it is SV and zero. |
| Producer.FormattedSeasonOrg | tools/process_stats.py:286-290 | The season and org overrides apply whenever given, even when empty. Otherwise the row's year and org are written. |
| Producer.FormattedTeam | tools/process_stats.py:280 | The team is a non-empty override, else the abbreviation, else the name as is. |
| Producer.FormattedLevel | tools/process_stats.py:289 | The level is a non-empty override, else the row's level. |
| Producer.FormattedInnings | tools/process_stats.py:301 | The IP cell reads back as the row's outs. |
| Producer.FormattedStats | tools/process_stats.py:291-310 | Every written statistic reads back through `safe_int` as its count. |
| Producer.FormattedSaves | tools/process_stats.py:299 | SV is written as "-" iff it is zero, and as its decimal text otherwise. |
| Producer.FormattedAvg | tools/process_stats.py:166-172 | AVG is written as "-" exactly when there are no at-bats. |
| Process.SortedYears | tools/process_stats.py:329 | The years are strictly increasing in Python string order and are exactly the years of the rows. |
| Process.SortedUnique | tools/process_stats.py:329 | Two strictly sorted lists with the same elements are equal, so the years are what `sorted(set(...))` gives. |
| Process.Pick | tools/process_stats.py:323-326 | A group holds exactly the rows with its key, no more rows than the input. |
| Process.PickAppend | tools/process_stats.py:323-326 | Grouping keeps input order: it distributes over concatenation. |
| Process.GroupBlock | tools/process_stats.py:335-347 | A (year, category) block is empty iff the group is. Otherwise it is the group's aggregate followed by the group's rows in input order, all without overrides. Every line is labelled with the year and filed under the category. |
| Process.YearBlock | tools/process_stats.py:334-347 | A year's lines carry that year and a category of the list. With distinct categories, they follow the list's order, and the lines filed under each category are exactly that category's block. |
| Process.SeasonSection | tools/process_stats.py:333-347 | Every season line is labelled with a year of the list and filed under one of the four categories. With sorted years, the labels never decrease, and lines of one year follow the category order College, Summer, Independent, Minors. The lines of each (year, category) group are then exactly that group's block, its aggregate and then its rows. |
| Process.CareerSection | tools/process_stats.py:354-366 | The career section holds the career line of every category with rows, and nothing else. With distinct categories, the lines follow the list's order, one per category. |
| Process.LevelSection | tools/process_stats.py:375-387 | The level section holds the total line of every Minors level with rows, and nothing else. With distinct levels, the lines follow the list's order, one per level. |
| Process.ProcessLinesLayout | tools/process_stats.py:317-387 | The file is the season section, then the career section, then the level section. Season lines carry years of the rows, ascending, with categories in order within a year. For every year of the rows and every category, the lines of that group are exactly its block. There is one career line per category with rows, in category order. There is one total per Minors level with rows, in `LEVEL_ORDER`. |
| Process.CareerIsSumOfSeasons | tools/process_stats.py:350-366 | A category's career sum equals the sum of its (year, category) group sums over the sorted years. |
| Process.MinorsIsSumOfLevels | tools/process_stats.py:368-387 | When every Minors row has one of the five levels, the Minors sum equals the sum of the level-group sums. |
| Pipeline.TeamLabelIsTeamCount | tools/process_stats.py:249 | Every aggregate label "N team(s)" passes the page's team-count regex. |
| Pipeline.TeamAbbrevNotTeamCounts | tools/process_stats.py:55-65 | No abbreviated team name and no abbreviation reads as a team count on the page. |
| Pipeline.TeamLabelNotAbbreviated | tools/process_stats.py:280 | An aggregate label is never replaced by an abbreviation. |
| Pipeline.SavesShowAsCount | script.js:641-678 | A save count the converter writes, "-" for none, shows on the page as the count itself, "0" for none, in body and footer. |
| Pipeline.CareerRowFound | script.js:366-371 | With four-digit years, the page finds a career row for a category iff the converter had rows for it. The row found is the one written from that category's career line. |
| Pipeline.CareerLabelOnlyAtCareer | tools/process_stats.py:360-366 | With four-digit years, only a category's own career line is labelled "<c> Career". |
| Pipeline.LevelTotalIgnored | tools/process_stats.py:381-387 | A level-total row, with empty `Season`, is neither a season row, nor a career row, nor a row that files a level. |
| Pipeline.LevelTotalLeavesLevels | script.js:419-432 | Removing a level-total row from the page's input leaves `seasonCategoryLevels` unchanged. |
| Pipeline.LevelCategoriesAgree | script.js:406-415 | The page maps each level the converter writes back to the category the converter gave it. |
| Pipeline.ReadMinorsLevels | tools/process_stats.py:191-207 | Every Minors row the reader keeps has one of the five ordered levels. |
| Pipeline.AggregateIsSeasonRow | tools/process_stats.py:342-343 | An aggregate row of a four-digit year is a season-aggregate row on the page. |
| Pipeline.PlainRowNotSeasonRow | tools/process_stats.py:346-347 | A team's own row is not a season-aggregate row, unless its team name reads as a team count. |
| Pipeline.SeasonRowsAreAggregates | script.js:374-376 | With four-digit years and plain team names, the page's season rows are exactly the converter's aggregate rows, by year, then category. |
| Pipeline.ReadBackFormatted | tools/process_stats.py:285-314 | Every written statistic and the innings read back as the values they were written from. |
| Pipeline.GroupTotals | tools/process_stats.py:339-347 | In the file, each aggregate row reads back as the column totals of the team rows under it. |
| Pipeline.FooterIsShownTotal | script.js:673-678 | With four-digit years and plain team names, a category's footer reads back, column by column, as the total of the season rows shown for it. |
| Pipeline.LevelTotalsAddUp | tools/process_stats.py:368-387 | When every Minors row has one of the five levels, the Minors career row reads back as the column totals of the level-total rows. |
| Pipeline.ReadLevelTotalsAddUp | tools/process_stats.py:175-232 | The level totals add up to the Minors career row for every file the reader produces. |
| Ordering.CompareAntisymmetric | script.js:1182-1186 | Swapping the arguments of either comparator flips the sign of its result. |
| Ordering.CompareTransitive | script.js:1688-1698 | "Not after" is transitive for both comparators, so each is a consistent comparator. |
| Ordering.DayNumberFollowsCalendar | script.js:1696 | For valid dates, `new Date(y, m - 1, d)` increases with the calendar date. |
| Ordering.DateCompareIsCalendar | script.js:1693-1697 | With equal pin state and valid dates, the date comparator puts the later date first. It ties exactly on equal dates. |
| Ordering.Sort | script.js:1181-1186 | The sorted list is a rearrangement of the items, in comparator order. |
| Ordering.PinnedFirst | script.js:1690-1691 | In a sorted list, every pinned item comes before every unpinned one. |
| Ordering.MostStarsFirst | script.js:1185 | Projects with the same pin state appear most stars first, a missing count as 0. |
| Ordering.NewestFirst | script.js:1693-1697 | Dated items with the same pin state and valid dates appear newest first. |

## Left out

- ERA and WHIP, in rows and aggregates. These are floating-point values printed with two decimals. `FormatOutputRow` writes neither column.
- AVG when there are at-bats. It is a float printed as ".ddd", so AVG is modelled only where it is "-".
- Producer.ParseIp: innings text other than "N", "N.", ".k" and "N.k0…" (k being 0, 1 or 2) is an `UnmodelledInnings` error. The converter instead reads it as a float with a tolerance.
- Producer.FormatIp: works on exact outs. It does not model the float rounding of `format_ip` on sums that fall outside the tolerance.
- Text.PyInt: Python's `int()` on non-ASCII Unicode digits is not modelled; such text is rejected.
- Producer.SafeInt: Python's limit of 4300 digits on `int()` of a string is not modelled. Longer numerals are read as their value instead of falling back to the default.
- File I/O, `print` and the `__main__` guard. The written file is the sequence of output rows.
- Csv.ParseRenderedCsv: the CSV writer's quoting is not modelled. It quotes fields that hold commas, quotes or line breaks, and it writes a record made of one empty field as `""`. The round trip is stated for fields free of commas, quotes and line breaks. For a one-column record holding only "", `Csv.RenderCsv` writes an empty line where the writer writes `""`. The converter always writes 28 columns, so its output never takes that form. The "\r" that the writer's "\r\n" leaves on the last header ("GO/AO") and on the last fields is modelled. The page never reads that column.
- The page's `fetch`, DOM construction, CSS class lookups (`levelClasses`, `orgClasses`), `highlightLabels` and table header building. A view records only the text and visibility the DOM ends up with.
- The unused `highlightValues` built at script.js:443-452. It equals `SiteView.HighlightValues` for Minors.
- Object keys that collide with `Object.prototype` properties ("constructor", "__proto__"). Maps treat every key as ordinary.
- Pipeline.CareerRowFound, Pipeline.SeasonRowsAreAggregates and Pipeline.FooterIsShownTotal assume every year is four digits (`FourDigitYears`). The converter writes years as read, so a year with spaces or other digits would break the page's matching.
- Pipeline.SeasonRowsAreAggregates and Pipeline.FooterIsShownTotal also assume no team name reads as a team count (`PlainTeams`). The reader drops only names containing "Teams" or "teams", so a team called "1 Team" would reach the page as a season row.
- Ordering.Sort: the engine's own sort algorithm is not modelled; an insertion sort stands for it. Stability is not proved.
- Ordering.Compare: dates compare in days. `Date` subtraction gives milliseconds in local time, whose daylight-saving shifts of an hour never change the sign between different days.
- Ordering.Compare: date fields that are not numbers (NaN dates) and star counts that are not numbers are not modelled.

=== FILE: category_filter.dfy ===
/** The category selector of the stats section (script.js:513-533, 549-568,
    584-602, 656-666 and the click handler at 692-729) as a pure function from
    the chosen category to what is shown: which button is active, the two
    relabelled headers, the overview cards, and which pre-rendered body and
    footer rows are visible. */
module CategoryFilter {
  import opened Wrappers
  import opened Csv
  import opened Seqs
  import opened SiteRows
  import opened SiteView

  datatype View = View(
    active: seq<bool>,
    teamHeader: string,
    levelsHeader: string,
    cards: seq<Option<string>>,
    bodyShown: seq<bool>,
    footerShown: seq<bool>)

  /** The view right after a click on the button of `x` (`statKeys` are the
      configured highlight cards). Exactly that button is active; the headers
      read "Organization"/"Levels" for Minors and "Team"/"League" otherwise;
      a body or footer row is visible exactly when its category is `x`. */
  function Select(rows: seq<Row>, statKeys: seq<string>, x: Category): (v: View)
    ensures |v.active| == |Categories|
    ensures forall i :: 0 <= i < |Categories| ==> (v.active[i] <==> Categories[i] == x)
    ensures v.teamHeader == "Organization" <==> x == Minors
    ensures v.levelsHeader == "Levels" <==> x == Minors
    ensures v.teamHeader in {"Organization", "Team"} && v.levelsHeader in {"Levels", "League"}
    ensures |v.cards| == |statKeys|
    ensures forall i :: 0 <= i < |statKeys| ==>
              v.cards[i] == HighlightCard(HighlightValues(rows, x), statKeys[i])
    ensures |v.bodyShown| == |SeasonRows(rows)|
    ensures forall i :: 0 <= i < |SeasonRows(rows)| ==>
              (v.bodyShown[i] <==> Get(SeasonRows(rows)[i], "Level") == Some(x.Name()))
    ensures |v.footerShown| == |FooterCategories(rows)|
    ensures forall i :: 0 <= i < |FooterCategories(rows)| ==>
              (v.footerShown[i] <==> FooterCategories(rows)[i] == x)
  {
    var table := RenderTable(rows);
    var h := HighlightValues(rows, x);
    ShownRows(rows, x);
    View(
      seq(|Categories|, i requires 0 <= i < |Categories| => Categories[i] == x),
      if x.Name() == "Minors" then "Organization" else "Team",
      if x.Name() == "Minors" then "Levels" else "League",
      seq(|statKeys|, i requires 0 <= i < |statKeys| => HighlightCard(h, statKeys[i])),
      seq(|table.body|, i requires 0 <= i < |table.body| => table.body[i].category == x.Name()),
      seq(|table.footer|, i requires 0 <= i < |table.footer| => table.footer[i].category.Name() == x.Name()))
  }

  /** A body row's category reads as `x` exactly when its `Level` is `x`'s
      name, and a footer row's exactly when it is `x`'s row. */
  lemma ShownRows(rows: seq<Row>, x: Category)
    ensures var t := RenderTable(rows);
            forall i :: 0 <= i < |t.body| ==>
              (t.body[i].category == x.Name() <==> Get(SeasonRows(rows)[i], "Level") == Some(x.Name()))
    ensures var t := RenderTable(rows);
            forall i :: 0 <= i < |t.footer| ==> (t.footer[i].category.Name() == x.Name() <==> t.footer[i].category == x)
  {
    var t := RenderTable(rows);
    forall i | 0 <= i < |t.body|
      ensures t.body[i].category == x.Name() <==> Get(SeasonRows(rows)[i], "Level") == Some(x.Name())
    {
      NameNotUndefined(Get(SeasonRows(rows)[i], "Level"), x);
    }
    forall i | 0 <= i < |t.footer|
      ensures t.footer[i].category.Name() == x.Name() <==> t.footer[i].category == x
    {
      NamesDiffer(t.footer[i].category, x);
    }
  }

  /** Different categories have different names. */
  lemma NamesDiffer(a: Category, b: Category)
    ensures a.Name() == b.Name() <==> a == b
  {
  }

  /** No category is named "undefined", so a level reads as a category's name
      only when it is that name. */
  lemma NameNotUndefined(v: Option<string>, x: Category)
    ensures JsStr(v) == x.Name() <==> v == Some(x.Name())
  {
    if v.None? {
      assert "undefined"[0] != x.Name()[0];
    }
  }

  /** The view as first rendered, before any click, written the way the page
      builds it: the Minors button marked active, the headers as printed, the
      Minors highlights, and every row whose category is not "Minors" hidden. */
  function InitialView(rows: seq<Row>, statKeys: seq<string>): View {
    var seasonRows := SeasonRows(rows);
    var cats := FooterCategories(rows);
    var h := HighlightValues(rows, Minors);
    View(
      seq(|Categories|, i requires 0 <= i < |Categories| => Categories[i].Name() == "Minors"),
      "Organization",
      "Levels",
      seq(|statKeys|, i requires 0 <= i < |statKeys| => HighlightCard(h, statKeys[i])),
      seq(|seasonRows|, i requires 0 <= i < |seasonRows| => !(Get(seasonRows[i], "Level") != Some("Minors"))),
      seq(|cats|, i requires 0 <= i < |cats| => !(cats[i].Name() != "Minors")))
  }

  /** The first render is the view of choosing Minors. */
  lemma InitialIsMinors(rows: seq<Row>, statKeys: seq<string>)
    ensures InitialView(rows, statKeys) == Select(rows, statKeys, Minors)
  {
    var a := InitialView(rows, statKeys);
    var b := Select(rows, statKeys, Minors);
    forall i | 0 <= i < |Categories|
      ensures a.active[i] == b.active[i]
    {
      NamesDiffer(Categories[i], Minors);
    }
    assert a.active == b.active;
    assert a.cards == b.cards;
    assert a.bodyShown == b.bodyShown;
    forall i | 0 <= i < |a.footerShown|
      ensures a.footerShown[i] == b.footerShown[i]
    {
      NamesDiffer(FooterCategories(rows)[i], Minors);
    }
    assert a.footerShown == b.footerShown;
  }

  /** One click: on a category button it selects that category; anywhere else
      in the selector (`closest` finds no button) nothing changes. */
  function Click(rows: seq<Row>, statKeys: seq<string>, v: View, target: Option<Category>): View {
    match target
    case None => v
    case Some(x) => Select(rows, statKeys, x)
  }

  /** The view after a series of clicks on the first render. */
  function AfterClicks(rows: seq<Row>, statKeys: seq<string>, clicks: seq<Option<Category>>): View {
    if |clicks| == 0 then InitialView(rows, statKeys)
    else Click(rows, statKeys, AfterClicks(rows, statKeys, clicks[..|clicks| - 1]), clicks[|clicks| - 1])
  }

  /** The last category clicked, Minors if none was. */
  function LastChosen(clicks: seq<Option<Category>>): Category {
    if |clicks| == 0 then Minors
    else if clicks[|clicks| - 1].Some? then clicks[|clicks| - 1].value
    else LastChosen(clicks[..|clicks| - 1])
  }

  /** The selector keeps no other state: whatever was clicked before, the view is
      the one of the last category chosen. */
  lemma {:induction false} ViewIsLastChoice(rows: seq<Row>, statKeys: seq<string>, clicks: seq<Option<Category>>)
    ensures AfterClicks(rows, statKeys, clicks) == Select(rows, statKeys, LastChosen(clicks))
    decreases |clicks|
  {
    if |clicks| == 0 {
      InitialIsMinors(rows, statKeys);
    } else {
      ViewIsLastChoice(rows, statKeys, clicks[..|clicks| - 1]);
    }
  }

  /** At most one footer row is visible, and one is exactly when the chosen
      category has a career row. */
  lemma OneFooterRowShown(rows: seq<Row>, statKeys: seq<string>, x: Category)
    ensures var v := Select(rows, statKeys, x);
            && (forall i, j :: (0 <= i < |v.footerShown| && 0 <= j < |v.footerShown| &&
                                v.footerShown[i] && v.footerShown[j]) ==> i == j)
            && ((exists i :: 0 <= i < |v.footerShown| && v.footerShown[i]) <==> CareerRow(rows, x).Some?)
  {
    var cats := FooterCategories(rows);
    if CareerRow(rows, x).Some? {
      assert x in cats;
      var i :| 0 <= i < |cats| && cats[i] == x;
      assert Select(rows, statKeys, x).footerShown[i];
    }
  }

  /** A small page: a 2022 Minors aggregate over one AA team, that team's own
      row, a Minors career row and a College career row. */
  const Aggregate2022: Row := map["Season" := "2022", "Team" := "1 team", "Level" := "Minors"]
  const Team2022: Row := map["Season" := "2022", "Team" := "BNG", "Level" := "AA"]
  const MinorsCareer: Row := map["Season" := "Minors Career", "W" := "10", "L" := "5"]
  const CollegeCareer: Row := map["Season" := "College Career", "W" := "3", "L" := "1"]

  function Fixture(): seq<Row> {
    [Aggregate2022, Team2022, MinorsCareer, CollegeCareer]
  }

  lemma FixtureClassified()
    ensures IsSeasonAggregate(Aggregate2022)
    ensures !IsSeasonAggregate(Team2022)
    ensures !IsSeasonAggregate(MinorsCareer) && !IsSeasonAggregate(CollegeCareer)
  {
    AggregateClassified();
    assert Get(Team2022, "Team") == Some("BNG");
    CareerNotSeason(MinorsCareer, "Minors Career");
    CareerNotSeason(CollegeCareer, "College Career");
  }

  lemma AggregateClassified()
    ensures IsSeasonAggregate(Aggregate2022)
  {
    assert Get(Aggregate2022, "Season") == Some("2022");
    assert Get(Aggregate2022, "Team") == Some("1 team");
    assert IsTeamCount("1 team") by {
      assert "1 team"[0..1] == "1" && "1 team"[1..2] == " " && "1 team"[2..] == "team";
      MatchIsTeamCount("1 team", 0, 1, 2);
    }
  }

  /** A row whose season is a label longer than four characters is no season row. */
  lemma CareerNotSeason(row: Row, season: string)
    requires Get(row, "Season") == Some(season) && |season| > 4
    ensures !IsSeasonAggregate(row)
  {
  }

  /** The fixture's only season row is the 2022 aggregate. */
  lemma FixtureSeasonRows()
    ensures SeasonRows(Fixture()) == [Aggregate2022]
  {
    FixtureClassified();
    FilterFirstOfFour(Aggregate2022, Team2022, MinorsCareer, CollegeCareer, IsSeasonAggregate);
  }


  /** Choosing College hides the 2022 Minors row; choosing Minors shows it. */
  lemma FixtureBodyShown()
    ensures Select(Fixture(), [], College).bodyShown == [false]
    ensures Select(Fixture(), [], Minors).bodyShown == [true]
  {
    FixtureSeasonRows();
    assert Get(Aggregate2022, "Level") == Some("Minors");
  }

  /** The footer has a College totals row and no Summer one. */
  lemma FixtureFooter()
    ensures College in FooterCategories(Fixture()) && Summer !in FooterCategories(Fixture())
  {
    var rows := Fixture();
    assert CareerSeason(College) == "College Career";
    assert Get(rows[3], "Season") == Some(CareerSeason(College));
    assert Get(rows[0], "Season") == Some("2022");
    assert Get(rows[1], "Season") == Some("2022");
    assert Get(rows[2], "Season") == Some("Minors Career");
    assert CareerSeason(Summer) == "Summer Career";
    assert forall j :: 0 <= j < |rows| ==> Get(rows[j], "Season") != Some(CareerSeason(Summer));
  }

  /** The Minors overview shows the Minors career record. */
  lemma FixtureHighlights()
    ensures HighlightValues(Fixture(), Minors).winLoss == "10-5"
  {
    var rows := Fixture();
    assert Get(rows[0], "Season") == Some("2022");
    assert Get(rows[1], "Season") == Some("2022");
    assert CareerSeason(Minors) == "Minors Career";
    assert Get(rows[2], "Season") == Some(CareerSeason(Minors));
    assert IsFirstWithSeason(rows, 2, CareerSeason(Minors));
    assert Get(rows[2], "W") == Some("10") && Get(rows[2], "L") == Some("5");
  }
}

=== FILE: csv.dfy ===
/** The web page's `parseCSV` (script.js:154-168): the trimmed text is cut into
    lines, the first line into header names, and every further line into
    comma-separated fields zipped with the headers. There is no quoting. */
module Csv {
  import opened Text

  /** One parsed row. A header whose field is missing (the line is short) is
      absent from the map: JavaScript stores `undefined` for it. */
  type Row = map<string, string>

  /** Index `k` holds the last occurrence of its header name; when a name is
      repeated, the last assignment is the one that survives. */
  predicate IsLastOccurrence(headers: seq<string>, k: int)
    requires 0 <= k < |headers|
  {
    forall j :: k < j < |headers| ==> headers[j] != headers[k]
  }

  /** `row` holds exactly the headers' names, each (at its last occurrence `k`)
      mapped to the `k`-th value, and absent when there are fewer values. */
  predicate ZippedFrom(headers: seq<string>, values: seq<string>, row: Row) {
    && (forall h :: h in row ==> h in headers)
    && (forall k {:trigger headers[k]} :: 0 <= k < |headers| && IsLastOccurrence(headers, k) ==>
          && (headers[k] in row <==> k < |values|)
          && (k < |values| ==> row[headers[k]] == values[k]))
  }

  /** `headers.forEach((h, i) => row[h] = values[i])`. */
  function ZipRow(headers: seq<string>, values: seq<string>): (row: Row)
    ensures ZippedFrom(headers, values, row)
    decreases |headers|
  {
    if |headers| == 0 then map[]
    else
      var n := |headers| - 1;
      var init := headers[..n];
      var prev := ZipRow(init, values);
      var h := headers[n];
      ZipStep(headers, values, prev);
      if n < |values| then prev[h := values[n]] else prev - {h}
  }

  /** Assigning (or clearing) the last header keeps every earlier last-occurrence entry. */
  lemma ZipStep(headers: seq<string>, values: seq<string>, prev: Row)
    requires |headers| > 0
    requires ZippedFrom(headers[..|headers| - 1], values, prev)
    ensures var n := |headers| - 1;
            ZippedFrom(headers, values,
                       if n < |values| then prev[headers[n] := values[n]] else prev - {headers[n]})
  {
    var n := |headers| - 1;
    var init := headers[..n];
    var h := headers[n];
    var row := if n < |values| then prev[h := values[n]] else prev - {h};
    forall x | x in row
      ensures x in headers
    {
      if x != h {
        assert x in init;
      }
    }
    forall k | 0 <= k < |headers| && IsLastOccurrence(headers, k)
      ensures headers[k] in row <==> k < |values|
      ensures k < |values| ==> row[headers[k]] == values[k]
    {
      if k < n {
        assert IsLastOccurrence(init, k) && init[k] == headers[k] && headers[k] != h;
      }
    }
  }

  /** The lines of the trimmed text. */
  function Lines(text: string): seq<string> {
    Split(Trim(JsSpaces, text), '\n')
  }

  /** The header names: the first line cut at commas. */
  function Header(text: string): seq<string> {
    Split(Lines(text)[0], ',')
  }

  /** The fields of line `i`. */
  function Fields(text: string, i: nat): seq<string>
    requires i < |Lines(text)|
  {
    Split(Lines(text)[i], ',')
  }

  /** One row per line after the header; row `i` maps the `k`-th header name to
      the `k`-th field of line `i + 1`, or leaves it out when that line is short. */
  function ParseCsv(text: string): (rows: seq<Row>)
    ensures |rows| == |Lines(text)| - 1
    ensures forall i :: 0 <= i < |rows| ==> ZippedFrom(Header(text), Fields(text, i + 1), rows[i])
  {
    var lines := Lines(text);
    var headers := Header(text);
    seq(|lines| - 1, i requires 0 <= i < |lines| - 1 => ZipRow(headers, Fields(text, i + 1)))
  }

  /** The text `csv.DictWriter` writes with its default dialect when it quotes
      nothing: the header line, then one line per record, fields joined by
      commas, every line ended with "\r\n". (The writer would quote a field
      holding a comma, a quote or a line break, and a record that is one empty
      field; such input falls outside this rendering.) */
  function RenderCsv(header: seq<string>, records: seq<seq<string>>): string
    requires |header| > 0
    requires forall i :: 0 <= i < |records| ==> |records[i]| > 0
  {
    Join(WrittenLines(header, records), '\n') + "\n"
  }

  /** The lines as written, each with the "\r" of its terminator. */
  function WrittenLines(header: seq<string>, records: seq<seq<string>>): (ls: seq<string>)
    requires |header| > 0
    requires forall i :: 0 <= i < |records| ==> |records[i]| > 0
    ensures |ls| == |records| + 1
    ensures forall i :: 0 <= i <= |records| ==> ls[i] == Join(LineFields(header, records, i), ',') + "\r"
  {
    seq(|records| + 1, i requires 0 <= i <= |records| => Join(LineFields(header, records, i), ',') + "\r")
  }

  /** The fields of line `i` of the rendered text: the header, then the records. */
  function LineFields(header: seq<string>, records: seq<seq<string>>, i: nat): (fs: seq<string>)
    requires |header| > 0 && i <= |records|
    requires forall i :: 0 <= i < |records| ==> |records[i]| > 0
    ensures |fs| > 0
  {
    if i == 0 then header else records[i - 1]
  }

  /** `fields` with a carriage return added to the last one. */
  function WithCr(fields: seq<string>): (r: seq<string>)
    requires |fields| > 0
    ensures |r| == |fields| && r[..|r| - 1] == fields[..|fields| - 1]
    ensures r[|r| - 1] == fields[|fields| - 1] + "\r"
  {
    fields[..|fields| - 1] + [fields[|fields| - 1] + "\r"]
  }

  /** The fields `parseCSV` cuts line `i` of the rendered text into: `trim`
      removes the final "\r\n", and `split("\n")` leaves the "\r" of every
      other line on its last field. */
  function ReadFields(header: seq<string>, records: seq<seq<string>>, i: nat): (fs: seq<string>)
    requires |header| > 0 && i <= |records|
    requires forall i :: 0 <= i < |records| ==> |records[i]| > 0
    ensures |fs| == |LineFields(header, records, i)|
  {
    if i < |records| then WithCr(LineFields(header, records, i)) else LineFields(header, records, i)
  }

  /** No name or field holds a comma, a double quote, a line feed or a carriage
      return: the fields `csv.DictWriter` writes without quoting them. */
  predicate PlainFields(fields: seq<string>) {
    forall k :: 0 <= k < |fields| ==>
      ',' !in fields[k] && '"' !in fields[k] && '\n' !in fields[k] && '\r' !in fields[k]
  }

  /** The lines `parseCSV` sees in the rendered text, each the join of its
      fields as read. */
  function ReadLines(header: seq<string>, records: seq<seq<string>>): (t: seq<string>)
    requires |header| > 0
    requires forall i :: 0 <= i < |records| ==> |records[i]| > 0
    ensures |t| == |records| + 1
    ensures forall i :: 0 <= i <= |records| ==> t[i] == Join(ReadFields(header, records, i), ',')
  {
    seq(|records| + 1, i requires 0 <= i <= |records| => Join(ReadFields(header, records, i), ','))
  }

  /** Parsing the converter's CSV text gives back every record: one row per
      record, each header name mapped to its own field (header names
      distinct). The carriage returns the writer puts before each line feed
      stay behind: the last column is read under its name plus "\r", with a
      "\r" on its field in every record but the last. The text must not start
      or end in whitespace apart from the final "\r\n", or `trim` would remove more. */
  lemma ParseRenderedCsv(header: seq<string>, records: seq<seq<string>>)
    requires |header| > 0 && PlainFields(header)
    requires forall k, j :: 0 <= k < j < |header| ==> header[k] != header[j]
    requires forall i :: 0 <= i < |records| ==> |records[i]| == |header| && PlainFields(records[i])
    requires |header[0]| > 0 && !IsSpace(JsSpaces, header[0][0])
    requires var f := LineFields(header, records, |records|)[|header| - 1];
             |f| > 0 && !IsSpace(JsSpaces, f[|f| - 1])
    ensures |ParseCsv(RenderCsv(header, records))| == |records|
    ensures forall i, k :: 0 <= i < |records| && 0 <= k < |header| - 1 ==>
              && header[k] in ParseCsv(RenderCsv(header, records))[i]
              && ParseCsv(RenderCsv(header, records))[i][header[k]] == records[i][k]
    ensures forall i :: 0 <= i < |records| ==>
              && header[|header| - 1] !in ParseCsv(RenderCsv(header, records))[i]
              && header[|header| - 1] + "\r" in ParseCsv(RenderCsv(header, records))[i]
              && ParseCsv(RenderCsv(header, records))[i][header[|header| - 1] + "\r"] ==
                   records[i][|header| - 1] + (if i < |records| - 1 then "\r" else "")
  {
    var text := RenderCsv(header, records);
    RenderedLines(header, records);
    var rows := ParseCsv(text);
    assert forall k :: 0 <= k < |header| ==> '\r' !in header[k];
    forall i | 0 <= i < |records|
      ensures forall k :: 0 <= k < |header| - 1 ==> header[k] in rows[i] && rows[i][header[k]] == records[i][k]
      ensures header[|header| - 1] !in rows[i] && header[|header| - 1] + "\r" in rows[i]
      ensures rows[i][header[|header| - 1] + "\r"] == records[i][|header| - 1] + (if i < |records| - 1 then "\r" else "")
    {
      ReadRecord(header, records, i, rows[i]);
    }
  }

  /** Row `i` of the parse, zipped from the header and record as read. */
  lemma ReadRecord(header: seq<string>, records: seq<seq<string>>, i: nat, row: Row)
    requires |header| > 0 && i < |records| && forall k :: 0 <= k < |header| ==> '\r' !in header[k]
    requires forall k, j :: 0 <= k < j < |header| ==> header[k] != header[j]
    requires forall i :: 0 <= i < |records| ==> |records[i]| == |header|
    requires ZippedFrom(ReadFields(header, records, 0), ReadFields(header, records, i + 1), row)
    ensures forall k :: 0 <= k < |header| - 1 ==> header[k] in row && row[header[k]] == records[i][k]
    ensures header[|header| - 1] !in row && header[|header| - 1] + "\r" in row
    ensures row[header[|header| - 1] + "\r"] == records[i][|header| - 1] + (if i < |records| - 1 then "\r" else "")
  {
    var h := |header| - 1;
    var names := WithCr(header);
    var values := ReadFields(header, records, i + 1);
    assert ReadFields(header, records, 0) == names;
    forall k | 0 <= k <= h
      ensures IsLastOccurrence(names, k) && names[k] != header[h]
    {
      ReadHeaderDistinct(header, k);
    }
    forall k | 0 <= k < h
      ensures header[k] in row && row[header[k]] == records[i][k]
    {
      assert names[k] == names[..h][k] == header[k];
      assert values[k] == records[i][k] by {
        if i + 1 < |records| {
          assert values[k] == WithCr(records[i])[..h][k];
        }
      }
    }
    assert names[h] == header[h] + "\r";
  }

  /** The header as read, after the writer's carriage return, has distinct
      names, none of them the last name without its "\r". */
  lemma ReadHeaderDistinct(header: seq<string>, p: nat)
    requires |header| > 0 && p < |header| && forall k :: 0 <= k < |header| ==> '\r' !in header[k]
    requires forall k, j :: 0 <= k < j < |header| ==> header[k] != header[j]
    ensures IsLastOccurrence(WithCr(header), p)
    ensures WithCr(header)[p] != header[|header| - 1]
  {
    var h := |header| - 1;
    var r := WithCr(header);
    assert r[h][|r[h]| - 1] == '\r';
    forall j | p < j < |r|
      ensures r[j] != r[p]
    {
      assert r[p] == r[..h][p] == header[p];
      if j < h {
        assert r[j] == r[..h][j] == header[j];
      }
    }
    if p < h {
      assert r[p] == r[..h][p] == header[p];
    }
  }

  /** The lines and fields `parseCSV` sees in the rendered text. */
  lemma RenderedLines(header: seq<string>, records: seq<seq<string>>)
    requires |header| > 0 && PlainFields(header)
    requires forall i :: 0 <= i < |records| ==> |records[i]| == |header| && PlainFields(records[i])
    requires |header[0]| > 0 && !IsSpace(JsSpaces, header[0][0])
    requires var f := LineFields(header, records, |records|)[|header| - 1];
             |f| > 0 && !IsSpace(JsSpaces, f[|f| - 1])
    ensures Lines(RenderCsv(header, records)) == ReadLines(header, records)
    ensures forall i :: 0 <= i <= |records| ==>
              Split(ReadLines(header, records)[i], ',') == ReadFields(header, records, i)
  {
    var t := ReadLines(header, records);
    RenderedText(header, records);
    RenderedEnds(header, records);
    TrimSpacesAfter(JsSpaces, Join(t, '\n'), "\r\n");
    forall i | 0 <= i < |t|
      ensures '\n' !in t[i]
      ensures Split(t[i], ',') == ReadFields(header, records, i)
    {
      ReadLineText(header, records, i);
      JoinAvoids(ReadFields(header, records, i), ',', '\n');
      SplitJoin(ReadFields(header, records, i), ',');
    }
    SplitJoin(t, '\n');
  }

  /** The rendered text is the lines as read, then the final "\r\n". */
  lemma RenderedText(header: seq<string>, records: seq<seq<string>>)
    requires |header| > 0 && PlainFields(header)
    requires forall i :: 0 <= i < |records| ==> |records[i]| == |header| && PlainFields(records[i])
    ensures RenderCsv(header, records) == Join(ReadLines(header, records), '\n') + "\r\n"
  {
    var m := |records| + 1;
    var t := ReadLines(header, records);
    var lr := WrittenLines(header, records);
    forall i | 0 <= i < m
      ensures lr[i] == if i < m - 1 then t[i] else t[i] + "\r"
    {
      ReadLineText(header, records, i);
    }
    assert lr == t[..m - 1] + [t[m - 1] + "\r"];
    JoinAppendLast(t[..m - 1], t[m - 1], "\r", '\n');
    assert t[..m - 1] + [t[m - 1]] == t;
    var w := Join(t, '\n');
    assert w + "\r" + "\n" == w + "\r\n";
  }

  /** The text of line `i` as read: its fields, with the "\r" kept on every
      line but the last. */
  lemma ReadLineText(header: seq<string>, records: seq<seq<string>>, i: nat)
    requires |header| > 0 && PlainFields(header) && i <= |records|
    requires forall i :: 0 <= i < |records| ==> |records[i]| == |header| && PlainFields(records[i])
    ensures forall k :: 0 <= k < |ReadFields(header, records, i)| ==>
              ',' !in ReadFields(header, records, i)[k] && '\n' !in ReadFields(header, records, i)[k]
    ensures Join(ReadFields(header, records, i), ',') ==
              if i < |records| then Join(LineFields(header, records, i), ',') + "\r"
              else Join(LineFields(header, records, i), ',')
  {
    var fs := LineFields(header, records, i);
    var n := |fs| - 1;
    assert PlainFields(fs);
    if i < |records| {
      assert fs == fs[..n] + [fs[n]];
      JoinAppendLast(fs[..n], fs[n], "\r", ',');
      forall k | 0 <= k < |fs|
        ensures ',' !in WithCr(fs)[k] && '\n' !in WithCr(fs)[k]
      {
        if k < n {
          assert WithCr(fs)[k] == WithCr(fs)[..n][k] == fs[k];
        }
      }
    }
  }

  /** The lines as read start and end in a non-space. */
  lemma RenderedEnds(header: seq<string>, records: seq<seq<string>>)
    requires |header| > 0
    requires forall i :: 0 <= i < |records| ==> |records[i]| == |header|
    requires |header[0]| > 0 && !IsSpace(JsSpaces, header[0][0])
    requires var f := LineFields(header, records, |records|)[|header| - 1];
             |f| > 0 && !IsSpace(JsSpaces, f[|f| - 1])
    ensures var w := Join(ReadLines(header, records), '\n');
            |w| > 0 && !IsSpace(JsSpaces, w[0]) && !IsSpace(JsSpaces, w[|w| - 1])
  {
    var t := ReadLines(header, records);
    var first := ReadFields(header, records, 0);
    assert |first[0]| > 0 && first[0][0] == header[0][0];
    JoinFirstChar(first, ',');
    JoinFirstChar(t, '\n');
    var last := ReadFields(header, records, |records|);
    assert last == LineFields(header, records, |records|);
    JoinLastChar(last, ',');
    JoinLastChar(t, '\n');
  }

  /** Joining pieces free of `c` with a separator other than `c` gives a string free of `c`. */
  lemma {:induction false} JoinAvoids(parts: seq<string>, sep: char, c: char)
    requires |parts| > 0 && sep != c
    requires forall k :: 0 <= k < |parts| ==> c !in parts[k]
    ensures c !in Join(parts, sep)
    decreases |parts|
  {
    if |parts| > 1 {
      JoinAvoids(parts[1..], sep, c);
    }
  }
}

=== FILE: ordering.dfy ===
/** The two list orderings of the site (script.js:1180-1189 and 1687-1699):
    projects are shown pinned first, then by stars, most first; every other
    list is shown pinned first, then by date, newest first. Both are
    comparators handed to `Array.prototype.sort`, modelled here together with
    an insertion sort that stands for the engine's sort. */
module Ordering {
  import opened Wrappers

  /** A date as the three numbers `split("-")` yields. */
  datatype Date = Date(year: nat, month: nat, day: nat)

  /** The fields the comparators read: `pinned`, `date` and `stars`
      (an absent `stars` is `None`). */
  datatype Item = Item(pinned: bool, date: Date, stars: Option<int>)

  datatype Order = ByStars | ByDate

  /** `(x.stars || 0)`: a missing star count counts as zero. */
  function StarsOf(x: Item): int {
    if x.stars.Some? then x.stars.value else 0
  }

  // ---------------------------------------------------------------------
  // Day numbers, as `new Date(year, month - 1, day)` computes them
  // ---------------------------------------------------------------------

  predicate IsLeap(y: nat) {
    y % 4 == 0 && (y % 100 != 0 || y % 400 == 0)
  }

  function DaysInMonth(y: nat, m: nat): (n: nat)
    requires 1 <= m <= 12
    ensures 28 <= n <= 31
    ensures n == 29 <==> m == 2 && IsLeap(y)
  {
    if m == 2 then (if IsLeap(y) then 29 else 28)
    else if m == 4 || m == 6 || m == 9 || m == 11 then 30
    else 31
  }

  /** Days of year `y` before the first of month `m` (13 is the next year). */
  function DaysBeforeMonth(y: nat, m: nat): nat
    requires 1 <= m <= 13
  {
    if m == 1 then 0 else DaysBeforeMonth(y, m - 1) + DaysInMonth(y, m - 1)
  }

  function DaysInYear(y: nat): nat {
    DaysBeforeMonth(y, 13)
  }

  /** Days from the first of January of year 0 to that of year `y`. */
  function DaysBeforeYear(y: nat): nat {
    if y == 0 then 0 else DaysBeforeYear(y - 1) + DaysInYear(y - 1)
  }

  /** The `Date` constructor reads a year from 0 to 99 as 1900 to 1999. */
  function FullYear(y: nat): (r: nat)
    ensures r >= 100
    ensures y >= 100 ==> r == y
  {
    if y <= 99 then 1900 + y else y
  }

  /** The day the `Date` constructor lands on: a month outside 1..12 moves
      into a neighbouring year and a day past the month's end runs into the
      following months (MakeDay in the ECMAScript standard). */
  function DayNumber(d: Date): int {
    var m: int := d.month - 1;
    var y: nat := FullYear(d.year) + m / 12;
    DaysBeforeYear(y) + DaysBeforeMonth(y, m % 12 + 1) + d.day - 1
  }

  /** A calendar date with a four-or-more-digit year. */
  predicate Valid(d: Date) {
    100 <= d.year && 1 <= d.month <= 12 && 1 <= d.day <= DaysInMonth(d.year, d.month)
  }

  /** Calendar order: `a` is an earlier date than `b`. */
  predicate Earlier(a: Date, b: Date) {
    a.year < b.year
    || (a.year == b.year && a.month < b.month)
    || (a.year == b.year && a.month == b.month && a.day < b.day)
  }

  // ---------------------------------------------------------------------
  // The comparators
  // ---------------------------------------------------------------------

  /** The comparator of `order`: negative puts `a` first, positive puts `b`
      first. Pinned items go before unpinned ones; otherwise projects compare
      by stars and other items by date, in days (`Date` subtraction gives
      milliseconds, a positive multiple with the same sign). */
  function Compare(order: Order, a: Item, b: Item): int {
    if a.pinned && !b.pinned then -1
    else if !a.pinned && b.pinned then 1
    else match order
      case ByStars => StarsOf(b) - StarsOf(a)
      case ByDate => DayNumber(b.date) - DayNumber(a.date)
  }

  /** Swapping the arguments flips the sign. */
  lemma CompareAntisymmetric(order: Order, a: Item, b: Item)
    ensures Compare(order, a, b) == -Compare(order, b, a)
  {
  }

  /** "Not after" is transitive, so the comparator is consistent in the sense
      `Array.prototype.sort` asks for. */
  lemma CompareTransitive(order: Order, a: Item, b: Item, c: Item)
    requires Compare(order, a, b) <= 0 && Compare(order, b, c) <= 0
    ensures Compare(order, a, c) <= 0
  {
  }

  lemma DaysBeforeMonthGrows(y: nat, m: nat, n: nat)
    requires 1 <= m <= n <= 13
    ensures DaysBeforeMonth(y, m) <= DaysBeforeMonth(y, n)
    decreases n - m
  {
    if m < n {
      DaysBeforeMonthGrows(y, m + 1, n);
    }
  }

  lemma {:induction false} DaysBeforeYearGrows(y: nat, z: nat)
    requires y < z
    ensures DaysBeforeYear(y) + DaysInYear(y) <= DaysBeforeYear(z)
    decreases z - y
  {
    if y + 1 < z {
      DaysBeforeYearGrows(y + 1, z);
    }
  }

  /** A valid date's day number is the start of its year plus its day in the
      year, and that stays inside the year. */
  lemma DayInYear(d: Date)
    requires Valid(d)
    ensures DayNumber(d) == DaysBeforeYear(d.year) + DaysBeforeMonth(d.year, d.month) + d.day - 1
    ensures DaysBeforeMonth(d.year, d.month) + d.day - 1 < DaysInYear(d.year)
  {
    var m: int := d.month - 1;
    assert m / 12 == 0 && m % 12 + 1 == d.month;
    assert FullYear(d.year) == d.year;
    DaysBeforeMonthGrows(d.year, d.month + 1, 13);
  }

  /** On valid dates the day number follows the calendar. */
  lemma DayNumberFollowsCalendar(a: Date, b: Date)
    requires Valid(a) && Valid(b) && Earlier(a, b)
    ensures DayNumber(a) < DayNumber(b)
  {
    DayInYear(a);
    DayInYear(b);
    if a.year < b.year {
      DaysBeforeYearGrows(a.year, b.year);
    } else if a.month < b.month {
      DaysBeforeMonthGrows(a.year, a.month + 1, b.month);
    }
  }

  /** Between two items of the same pin state with valid dates, the date
      comparator puts the later date first and ties exactly on equal dates. */
  lemma DateCompareIsCalendar(a: Item, b: Item)
    requires a.pinned == b.pinned && Valid(a.date) && Valid(b.date)
    ensures Compare(ByDate, a, b) < 0 <==> Earlier(b.date, a.date)
    ensures Compare(ByDate, a, b) > 0 <==> Earlier(a.date, b.date)
    ensures Compare(ByDate, a, b) == 0 <==> a.date == b.date
  {
    if Earlier(a.date, b.date) {
      DayNumberFollowsCalendar(a.date, b.date);
    } else if Earlier(b.date, a.date) {
      DayNumberFollowsCalendar(b.date, a.date);
    }
  }

  // ---------------------------------------------------------------------
  // Sorting
  // ---------------------------------------------------------------------

  predicate Sorted(order: Order, s: seq<Item>) {
    forall i, j :: 0 <= i < j < |s| ==> Compare(order, s[i], s[j]) <= 0
  }

  /** Puts `x` in front of the first element it is not after. */
  function Insert(order: Order, x: Item, s: seq<Item>): (r: seq<Item>)
    ensures multiset(r) == multiset(s) + multiset{x}
  {
    if |s| == 0 then [x]
    else if Compare(order, x, s[0]) <= 0 then [x] + s
    else
      assert s == [s[0]] + s[1..];
      [s[0]] + Insert(order, x, s[1..])
  }

  lemma {:induction false} InsertSorted(order: Order, x: Item, s: seq<Item>)
    requires Sorted(order, s)
    ensures Sorted(order, Insert(order, x, s))
    decreases |s|
  {
    if |s| == 0 {
    } else if Compare(order, x, s[0]) <= 0 {
      forall j | 0 < j < |s|
        ensures Compare(order, x, s[j]) <= 0
      {
        CompareTransitive(order, x, s[0], s[j]);
      }
    } else {
      var rest := Insert(order, x, s[1..]);
      InsertSorted(order, x, s[1..]);
      CompareAntisymmetric(order, x, s[0]);
      forall k | 0 <= k < |rest|
        ensures Compare(order, s[0], rest[k]) <= 0
      {
        assert rest[k] in multiset(rest);
        assert rest[k] in multiset(s[1..]) || rest[k] == x;
        if rest[k] != x {
          var j :| 0 <= j < |s[1..]| && s[1..][j] == rest[k];
          assert s[j + 1] == rest[k];
        }
      }
    }
  }

  /** The list as shown: a sorted rearrangement of `items`. Each item is
      inserted into the sorted rest, in front of the items it ties with. */
  function Sort(order: Order, items: seq<Item>): (r: seq<Item>)
    ensures multiset(r) == multiset(items)
    ensures Sorted(order, r)
  {
    if |items| == 0 then []
    else
      var rest := Sort(order, items[1..]);
      InsertSorted(order, items[0], rest);
      assert items == [items[0]] + items[1..];
      Insert(order, items[0], rest)
  }

  /** In any list sorted by either comparator, every pinned item comes before
      every unpinned one. */
  lemma PinnedFirst(order: Order, s: seq<Item>, i: nat, j: nat)
    requires Sorted(order, s) && i < j < |s| && s[j].pinned
    ensures s[i].pinned
  {
    assert Compare(order, s[i], s[j]) <= 0;
  }

  /** Projects of the same pin state are shown most stars first. */
  lemma MostStarsFirst(s: seq<Item>, i: nat, j: nat)
    requires Sorted(ByStars, s) && i < j < |s| && s[i].pinned == s[j].pinned
    ensures StarsOf(s[i]) >= StarsOf(s[j])
  {
    assert Compare(ByStars, s[i], s[j]) <= 0;
  }

  /** Dated items of the same pin state are shown newest first. */
  lemma NewestFirst(s: seq<Item>, i: nat, j: nat)
    requires Sorted(ByDate, s) && i < j < |s| && s[i].pinned == s[j].pinned
    requires Valid(s[i].date) && Valid(s[j].date)
    ensures !Earlier(s[i].date, s[j].date)
  {
    assert Compare(ByDate, s[i], s[j]) <= 0;
    DateCompareIsCalendar(s[i], s[j]);
  }
}

=== FILE: pipeline.dfy ===
/** What the web page makes of the file the stats tool writes: the team-count
    label, the career and level-total rows, the season rows and the totals, each
    connected across the two programs (tools/process_stats.py writes, script.js
    reads). */
module Pipeline {
  import opened Wrappers
  import opened Text
  import Csv
  import opened Seqs
  import opened SiteRows
  import SiteView
  import opened Producer
  import opened Process

  // ---------------------------------------------------------- team labels

  /** The aggregate rows' "N team"/"N teams" label is what the page's
      `/\d+\s*teams?$/i` looks for. */
  lemma TeamLabelIsTeamCount(n: nat)
    ensures IsTeamCount(TeamLabel(n)) && MatchesTeamCount(TeamLabel(n))
  {
    var s := TeamLabel(n);
    var j := FindChar(s, ' ');
    TeamLabelMatch(s, j);
    MatchIsTeamCount(s, 0, j, j + 1);
  }

  /** Digits, one space, then "team" or "teams" to the end: a match. */
  lemma TeamLabelMatch(s: string, j: nat)
    requires j < |s| && IsCanonicalNumeral(s[..j])
    requires s[j..] == " team" || s[j..] == " teams"
    ensures TeamCountMatchAt(s, 0, j, j + 1)
  {
    var rest := s[j..];
    assert s[0..j] == s[..j];
    assert s[j..j + 1] == rest[..1] && rest[..1] == " ";
    assert IsSpace(JsSpaces, ' ');
    assert s[j + 1..] == rest[1..];
    TeamWords();
  }

  lemma TeamWords()
    ensures IsTeamWord("team") && IsTeamWord("teams")
  {
    assert EqualsIgnoreCase("team", "team");
    assert EqualsIgnoreCase("teams", "teams");
  }

  /** No team of the abbreviation table, and no abbreviation, reads as a team
      count; so an aggregate's label is never abbreviated. */
  lemma TeamAbbrevNotTeamCounts()
    ensures forall t :: t in TeamAbbrev ==> !IsTeamCount(t) && !IsTeamCount(TeamAbbrev[t])
  {
    forall t | t in TeamAbbrev
      ensures !IsTeamCount(t) && !IsTeamCount(TeamAbbrev[t])
    {
      assert |TeamAbbrev[t]| <= 3;
      assert TeamWordLength(TeamAbbrev[t]) == 0;
      NotTeamCount(t);
    }
  }

  /** The table's team names do not end in "team"/"teams". */
  lemma NotTeamCount(t: string)
    requires t in TeamAbbrev
    ensures !IsTeamCount(t)
  {
    assert t[|t| - 1] != 'm' && t[|t| - 1] != 'M';
    assert t[|t| - 1] == 's' || t[|t| - 1] == 'S' ==> t[|t| - 2] != 'm' && t[|t| - 2] != 'M';
    assert TeamWordLength(t) == 0 by {
      if |t| >= 5 && EqualsIgnoreCase(t[|t| - 5..], "teams") {
        assert LowerAscii(t[|t| - 2]) == 'm';
      }
      if |t| >= 4 && EqualsIgnoreCase(t[|t| - 4..], "team") {
        assert LowerAscii(t[|t| - 1]) == 'm';
      }
    }
  }

  lemma TeamLabelNotAbbreviated(n: nat)
    ensures TeamLabel(n) !in TeamAbbrev
  {
    TeamLabelIsTeamCount(n);
    TeamAbbrevNotTeamCounts();
  }

  // ------------------------------------------------------------------ saves

  /** A save count the tool writes ("-" for none) is shown by the page as the
      count itself, in the body and in the footer. */
  lemma SavesShowAsCount(s: StatsRow, o: Overrides)
    ensures SiteView.BodyCell(FormatOutputRow(s, o), "SV") == Some(IntToString(s.counts.sv))
    ensures SiteView.FooterCell(FormatOutputRow(s, o), "SV") == IntToString(s.counts.sv)
  {
    FormattedSaves(s, o);
    SavesCell(FormatOutputRow(s, o), s.counts.sv);
  }

  lemma SavesCell(row: Csv.Row, n: int)
    requires "SV" in row && (row["SV"] == "-" <==> n == 0)
    requires n != 0 ==> row["SV"] == IntToString(n)
    ensures SiteView.BodyCell(row, "SV") == Some(IntToString(n))
    ensures SiteView.FooterCell(row, "SV") == IntToString(n)
  {
    assert NatToString(0) == "0";
  }

  // ---------------------------------------------------------- season labels

  /** The `Season` cell of a written line. */
  lemma WrittenSeason(lines: seq<Line>, k: int)
    requires 0 <= k < |lines|
    ensures Get(Written(lines)[k], "Season") == Some(SeasonOf(lines[k]))
  {
    FormattedSeasonOrg(lines[k].stats, lines[k].over);
  }

  lemma WrittenAppend(a: seq<Line>, b: seq<Line>)
    ensures Written(a + b) == Written(a) + Written(b)
  {
  }

  /** Every year of the tool's rows is four digits. */
  predicate FourDigitYears(rows: seq<StatsRow>) {
    forall r :: r in rows ==> IsFourDigitYear(r.year)
  }

  lemma SortedYearsFourDigit(rows: seq<StatsRow>, y: string)
    requires FourDigitYears(rows) && y in SortedYears(rows)
    ensures IsFourDigitYear(y)
  {
    var i :| 0 <= i < |rows| && rows[i].year == y;
    assert rows[i] in rows;
  }

  /** "<c> Career" names one category. */
  lemma CareerLabelInjective(a: string, b: string)
    requires a + " Career" == b + " Career"
    ensures a == b
  {
    assert a == (a + " Career")[..|a|];
    assert b == (b + " Career")[..|b|];
  }

  /** Among the lines the tool writes, only a category's own career line is
      labelled "<c> Career" when every year is four digits. */
  lemma CareerLabelOnlyAtCareer(rows: seq<StatsRow>, c: Category, k: int)
    requires FourDigitYears(rows)
    requires 0 <= k < |ProcessLines(rows)| && SeasonOf(ProcessLines(rows)[k]) == CareerSeason(c)
    ensures |Pick(rows, InCategory(c.Name()))| > 0 && ProcessLines(rows)[k] == CareerLine(rows, c.Name())
  {
    NoCareerInSeasons(rows, c, k);
    NoCareerInLevels(rows, c, k);
    CareerLabelInCareers(rows, c, k);
  }

  /** The lines before the career section are season lines, labelled with years. */
  lemma NoCareerInSeasons(rows: seq<StatsRow>, c: Category, k: int)
    requires FourDigitYears(rows) && 0 <= k < |ProcessLines(rows)|
    ensures k < |SeasonSection(rows, SortedYears(rows))| ==> SeasonOf(ProcessLines(rows)[k]) != CareerSeason(c)
  {
    var S := SeasonSection(rows, SortedYears(rows));
    if k < |S| {
      assert ProcessLines(rows)[k] == S[k];
      SortedYearsFourDigit(rows, SeasonOf(S[k]));
    }
  }

  /** The lines after the career section are level totals, labelled with nothing. */
  lemma NoCareerInLevels(rows: seq<StatsRow>, c: Category, k: int)
    requires 0 <= k < |ProcessLines(rows)|
    ensures var n := |SeasonSection(rows, SortedYears(rows))| + |CareerSection(rows, CategoryNames)|;
            k >= n ==> SeasonOf(ProcessLines(rows)[k]) != CareerSeason(c)
  {
    var n := |SeasonSection(rows, SortedYears(rows))| + |CareerSection(rows, CategoryNames)|;
    var L := LevelSection(rows, LevelOrder);
    if k >= n {
      assert ProcessLines(rows)[k] == L[k - n];
      assert L[k - n] == LevelLine(rows, KeyOf(L[k - n]));
    }
  }

  /** A career line labelled "<c> Career" is the career line of `c`. */
  lemma CareerLabelInCareers(rows: seq<StatsRow>, c: Category, k: int)
    requires 0 <= k < |ProcessLines(rows)| && SeasonOf(ProcessLines(rows)[k]) == CareerSeason(c)
    ensures var m := |SeasonSection(rows, SortedYears(rows))|;
            m <= k < m + |CareerSection(rows, CategoryNames)| ==>
              |Pick(rows, InCategory(c.Name()))| > 0 && ProcessLines(rows)[k] == CareerLine(rows, c.Name())
  {
    var m := |SeasonSection(rows, SortedYears(rows))|;
    var C := CareerSection(rows, CategoryNames);
    if m <= k < m + |C| {
      assert ProcessLines(rows)[k] == C[k - m];
      CareerLabelInjective(KeyOf(C[k - m]), c.Name());
    }
  }

  /** A category with rows has its career line among the lines written. */
  lemma CareerLineWritten(rows: seq<StatsRow>, c: string)
    requires c in CategoryNames && |Pick(rows, InCategory(c))| > 0
    ensures CareerLine(rows, c) in ProcessLines(rows)
  {
    var S := SeasonSection(rows, SortedYears(rows));
    var C := CareerSection(rows, CategoryNames);
    var L := LevelSection(rows, LevelOrder);
    assert CareerLine(rows, c) in C;
    InMiddle(CareerLine(rows, c), S, C, L);
  }

  lemma InMiddle<T>(x: T, a: seq<T>, b: seq<T>, c: seq<T>)
    requires x in b
    ensures x in a + b + c
  {
    var i :| 0 <= i < |b| && b[i] == x;
    assert (a + b + c)[|a| + i] == x;
  }

  /** The `Season` cells of written lines. */
  lemma WrittenSeasons(lines: seq<Line>)
    ensures forall k :: 0 <= k < |lines| ==> Get(Written(lines)[k], "Season") == Some(SeasonOf(lines[k]))
  {
    forall k | 0 <= k < |lines|
      ensures Get(Written(lines)[k], "Season") == Some(SeasonOf(lines[k]))
    {
      WrittenSeason(lines, k);
    }
  }

  /** The page finds each category's career row at the row the tool wrote for
      it, and none for a category without rows, as long as every year is four
      digits (a season label never reads "<c> Career"). */
  lemma CareerRowFound(rows: seq<StatsRow>, c: Category)
    requires FourDigitYears(rows)
    ensures CareerRow(ProcessStats(rows), c).Some? <==> |Pick(rows, InCategory(c.Name()))| > 0
    ensures CareerRow(ProcessStats(rows), c).Some? ==>
              exists k :: 0 <= k < |ProcessLines(rows)| && ProcessLines(rows)[k] == CareerLine(rows, c.Name()) &&
                          CareerRow(ProcessStats(rows), c).value == ProcessStats(rows)[k]
  {
    WrittenSeasons(ProcessLines(rows));
    CareerRowFoundIn(rows, c, ProcessStats(rows));
  }

  lemma CareerRowFoundIn(rows: seq<StatsRow>, c: Category, out: seq<Csv.Row>)
    requires FourDigitYears(rows)
    requires |out| == |ProcessLines(rows)|
    requires forall k :: 0 <= k < |out| ==> Get(out[k], "Season") == Some(SeasonOf(ProcessLines(rows)[k]))
    ensures CareerRow(out, c).Some? <==> |Pick(rows, InCategory(c.Name()))| > 0
    ensures CareerRow(out, c).Some? ==>
              exists k :: 0 <= k < |ProcessLines(rows)| && ProcessLines(rows)[k] == CareerLine(rows, c.Name()) &&
                          CareerRow(out, c).value == out[k]
  {
    var lines := ProcessLines(rows);
    forall k | 0 <= k < |out| && Get(out[k], "Season") == Some(CareerSeason(c))
      ensures |Pick(rows, InCategory(c.Name()))| > 0 && lines[k] == CareerLine(rows, c.Name())
    {
      CareerLabelOnlyAtCareer(rows, c, k);
    }
    if |Pick(rows, InCategory(c.Name()))| > 0 {
      assert c.Name() in CategoryNames;
      CareerLineWritten(rows, c.Name());
      var k :| 0 <= k < |lines| && lines[k] == CareerLine(rows, c.Name());
      assert Get(out[k], "Season") == Some(CareerSeason(c));
    }
  }

  // ----------------------------------------------------------- level totals

  /** A level-total row as written. */
  function LevelTotalRow(rows: seq<StatsRow>, l: string): Csv.Row
    requires |Pick(rows, MinorsLevel(l))| > 0
  {
    FormatOutputRow(LevelLine(rows, l).stats, LevelLine(rows, l).over)
  }

  /** The page passes over the level totals: with an empty `Season` they are
      neither season rows, nor career rows, nor rows that file a level. */
  lemma LevelTotalIgnored(rows: seq<StatsRow>, l: string)
    requires |Pick(rows, MinorsLevel(l))| > 0
    ensures !IsSeasonAggregate(LevelTotalRow(rows, l))
    ensures !ContributesLevel(LevelTotalRow(rows, l))
    ensures forall c :: Get(LevelTotalRow(rows, l), "Season") != Some(CareerSeason(c))
  {
    FormattedSeasonOrg(LevelLine(rows, l).stats, LevelLine(rows, l).over);
    SeasonlessRowIgnored(LevelTotalRow(rows, l));
  }

  lemma SeasonlessRowIgnored(row: Csv.Row)
    requires Get(row, "Season") == Some("")
    ensures !IsSeasonAggregate(row) && !ContributesLevel(row)
    ensures forall c :: Get(row, "Season") != Some(CareerSeason(c))
  {
    forall c
      ensures Get(row, "Season") != Some(CareerSeason(c))
    {
      assert |CareerSeason(c)| > 0;
    }
  }

  /** Hence a level-total row can be dropped from what the page reads without
      changing the levels column. */
  lemma LevelTotalLeavesLevels(rows: seq<StatsRow>, l: string, a: seq<Csv.Row>, b: seq<Csv.Row>)
    requires |Pick(rows, MinorsLevel(l))| > 0
    ensures SeasonCategoryLevels(a + [LevelTotalRow(rows, l)] + b) == SeasonCategoryLevels(a + b)
  {
    LevelTotalIgnored(rows, l);
    RowWithoutLevelIgnored(a, LevelTotalRow(rows, l), b);
  }

  /** The producer and the page agree on the category of every level: the level
      a record is written with maps back, on the page, to the record's category. */
  lemma LevelCategoriesAgree()
    ensures forall k :: k in LevelMap ==> k in CategoryMap && LevelMap[k] in LevelToCategory &&
                                          LevelToCategory[LevelMap[k]] == CategoryMap[k]
  {
  }

  /** The levels of the Minors codes are the five ordered levels. */
  lemma MinorsLevelsOrdered()
    ensures forall lev :: lev in LevelMap && lev in CategoryMap && CategoryMap[lev] == "Minors" ==> LevelMap[lev] in LevelOrder
  {
  }

  /** Every Minors row the reader keeps has one of the five ordered levels. */
  lemma ReadMinorsLevels(raws: seq<RawRow>)
    requires ReadRows(raws).Success?
    ensures forall r :: r in ReadRows(raws).value && r.category == "Minors" ==> r.level in LevelOrder
  {
    MinorsLevelsOrdered();
    forall r | r in ReadRows(raws).value && r.category == "Minors"
      ensures r.level in LevelOrder
    {
      var i :| 0 <= i < |raws| && ReadRow(raws[i]) == Success(Some(r));
      KeptRowLevel(raws[i]);
    }
  }

  lemma KeptRowLevel(raw: RawRow)
    requires ReadRow(raw).Success? && ReadRow(raw).value.Some?
    ensures ReadRow(raw).value.value.category == "Minors" ==> ReadRow(raw).value.value.level in LevelOrder
  {
    MinorsLevelsOrdered();
  }

  // ----------------------------------------------------------- season rows

  /** No team of the tool's rows reads as a team count (the reader already drops
      the "N Teams" totals). */
  predicate PlainTeams(rows: seq<StatsRow>) {
    forall r :: r in rows ==> !IsTeamCount(r.team)
  }

  /** Reference: the aggregate line of every non-empty (year, category) group,
      years in the order `ys`, categories in the order `cats`. */
  function YearAggregates(rows: seq<StatsRow>, y: string, cats: seq<string>): seq<Line> {
    if |cats| == 0 then []
    else
      var g := Pick(rows, YearCategory(y, cats[|cats| - 1]));
      YearAggregates(rows, y, cats[..|cats| - 1]) + (if |g| == 0 then [] else [Line(AggregateOf(g), NoOverrides)])
  }

  function SeasonAggregates(rows: seq<StatsRow>, ys: seq<string>): seq<Line> {
    if |ys| == 0 then []
    else SeasonAggregates(rows, ys[..|ys| - 1]) + YearAggregates(rows, ys[|ys| - 1], CategoryNames)
  }

  /** An aggregate of a four-digit year is a season row on the page. */
  lemma AggregateIsSeasonRow(g: seq<StatsRow>)
    requires |g| > 0 && IsFourDigitYear(g[0].year)
    ensures IsSeasonAggregate(FormatOutputRow(AggregateOf(g), NoOverrides))
  {
    var a := AggregateOf(g);
    FormattedSeasonOrg(a, NoOverrides);
    FormattedTeam(a, NoOverrides);
    TeamLabelNotAbbreviated(|g|);
    TeamLabelIsTeamCount(|g|);
  }

  /** A team's own row is not. */
  lemma PlainRowNotSeasonRow(r: StatsRow)
    requires !IsTeamCount(r.team)
    ensures !IsSeasonAggregate(FormatOutputRow(r, NoOverrides))
  {
    FormattedTeam(r, NoOverrides);
    TeamAbbrevNotTeamCounts();
  }

  /** A group's rows contribute its aggregate line, and only that. */
  lemma GroupSeasonRows(rows: seq<StatsRow>, y: string, c: string)
    requires IsFourDigitYear(y) && PlainTeams(rows)
    ensures var g := Pick(rows, YearCategory(y, c));
            SeasonRows(Written(GroupBlock(rows, y, c))) ==
              Written(if |g| == 0 then [] else [Line(AggregateOf(g), NoOverrides)])
  {
    var g := Pick(rows, YearCategory(y, c));
    if |g| > 0 {
      var head := Line(AggregateOf(g), NoOverrides);
      var tail := Plain(g);
      assert GroupBlock(rows, y, c) == [head] + tail;
      WrittenAppend([head], tail);
      var hw := FormatOutputRow(head.stats, head.over);
      assert Written([head]) == [hw];
      assert g[0] in g;
      AggregateIsSeasonRow(g);
      forall k | 0 <= k < |tail|
        ensures !IsSeasonAggregate(Written(tail)[k])
      {
        assert g[k] in g;
        PlainRowNotSeasonRow(g[k]);
      }
      OnlyHeadIsSeasonRow(hw, Written(tail));
    }
  }

  lemma {:induction false} YearSeasonRows(rows: seq<StatsRow>, y: string, cats: seq<string>)
    requires IsFourDigitYear(y) && PlainTeams(rows)
    ensures SeasonRows(Written(YearBlock(rows, y, cats))) == Written(YearAggregates(rows, y, cats))
    decreases |cats|
  {
    if |cats| > 0 {
      var n := |cats| - 1;
      var g := Pick(rows, YearCategory(y, cats[n]));
      YearSeasonRows(rows, y, cats[..n]);
      GroupSeasonRows(rows, y, cats[n]);
      WrittenAppend(YearBlock(rows, y, cats[..n]), GroupBlock(rows, y, cats[n]));
      SeasonRowsAppend(Written(YearBlock(rows, y, cats[..n])), Written(GroupBlock(rows, y, cats[n])));
      WrittenAppend(YearAggregates(rows, y, cats[..n]), if |g| == 0 then [] else [Line(AggregateOf(g), NoOverrides)]);
    }
  }

  lemma {:induction false} SectionSeasonRows(rows: seq<StatsRow>, ys: seq<string>)
    requires forall i :: 0 <= i < |ys| ==> IsFourDigitYear(ys[i])
    requires PlainTeams(rows)
    ensures SeasonRows(Written(SeasonSection(rows, ys))) == Written(SeasonAggregates(rows, ys))
    decreases |ys|
  {
    if |ys| > 0 {
      var n := |ys| - 1;
      var y := ys[n];
      var A := SeasonSection(rows, ys[..n]);
      var B := YearBlock(rows, y, CategoryNames);
      assert SeasonSection(rows, ys) == A + B;
      var A' := SeasonAggregates(rows, ys[..n]);
      var B' := YearAggregates(rows, y, CategoryNames);
      assert SeasonAggregates(rows, ys) == A' + B';
      SectionSeasonRows(rows, ys[..n]);
      YearSeasonRows(rows, y, CategoryNames);
      SeasonRowsConcat(A, B, A', B');
    }
  }

  lemma SeasonRowsConcat(a: seq<Line>, b: seq<Line>, a': seq<Line>, b': seq<Line>)
    requires SeasonRows(Written(a)) == Written(a') && SeasonRows(Written(b)) == Written(b')
    ensures SeasonRows(Written(a + b)) == Written(a' + b')
  {
    WrittenAppend(a, b);
    SeasonRowsAppend(Written(a), Written(b));
    WrittenAppend(a', b');
  }

  /** The career and level-total sections hold no season row. */
  lemma TotalsNoSeasonRows(rows: seq<StatsRow>)
    ensures SeasonRows(Written(CareerSection(rows, CategoryNames) + LevelSection(rows, LevelOrder))) == []
  {
    var C := CareerSection(rows, CategoryNames);
    var L := LevelSection(rows, LevelOrder);
    var out := Written(C + L);
    forall k | 0 <= k < |out|
      ensures !IsSeasonAggregate(out[k])
    {
      WrittenSeason(C + L, k);
      if k < |C| {
        assert (C + L)[k] == C[k];
        assert C[k] == CareerLine(rows, KeyOf(C[k]));
        assert |SeasonOf(C[k])| > 4;
      } else {
        assert (C + L)[k] == L[k - |C|];
        assert SeasonOf(L[k - |C|]) == "";
      }
    }
    NoSeasonRows(out);
  }

  /** The page's season rows are exactly the tool's aggregate rows, in the
      tool's order (by year, then category), given four-digit years and team
      names that do not read as team counts. */
  lemma SeasonRowsAreAggregates(rows: seq<StatsRow>)
    requires FourDigitYears(rows) && PlainTeams(rows)
    ensures SeasonRows(ProcessStats(rows)) == Written(SeasonAggregates(rows, SortedYears(rows)))
  {
    var ys := SortedYears(rows);
    var S := SeasonSection(rows, ys);
    var C := CareerSection(rows, CategoryNames);
    var L := LevelSection(rows, LevelOrder);
    assert ProcessLines(rows) == S + (C + L);
    forall i | 0 <= i < |ys|
      ensures IsFourDigitYear(ys[i])
    {
      SortedYearsFourDigit(rows, ys[i]);
    }
    SectionSeasonRows(rows, ys);
    TotalsNoSeasonRows(rows);
    WrittenAppend(S, C + L);
    SeasonRowsAppend(Written(S), Written(C + L));
  }

  // ----------------------------------------------------------------- totals

  /** The measures a row is written with (BF is not). */
  predicate IsWritten(m: Measure) {
    m.Outs? || OutputColumn(m.st).Some?
  }

  /** What a written cell reads back as: `safe_int` of a statistic's column, the
      outs of "IP". */
  function ReadBack(row: Csv.Row, m: Measure): int
    requires IsWritten(m)
  {
    match m
    case Outs => var ip := ParseIp(Get(row, "IP")); if ip.Success? then ip.value else 0
    case Counted(st) => SafeInt(Get(row, OutputColumn(st).value), 0)
  }

  /** Every written measure reads back as the value it was written from. */
  lemma ReadBackFormatted(s: StatsRow, o: Overrides, m: Measure)
    requires IsWritten(m)
    ensures ReadBack(FormatOutputRow(s, o), m) == Value(s, m)
  {
    if m.Outs? {
      FormattedInnings(s, o);
    } else {
      FormattedStats(s, o);
    }
  }

  /** The total of a column down a list of written rows. */
  function ColumnTotal(out: seq<Csv.Row>, m: Measure): int
    requires IsWritten(m)
  {
    if |out| == 0 then 0 else ColumnTotal(out[..|out| - 1], m) + ReadBack(out[|out| - 1], m)
  }

  lemma {:induction false} ColumnTotalPlain(g: seq<StatsRow>, m: Measure)
    requires IsWritten(m)
    ensures ColumnTotal(Written(Plain(g)), m) == SumOf(g, m)
    decreases |g|
  {
    if |g| > 0 {
      var n := |g| - 1;
      assert Written(Plain(g))[..n] == Written(Plain(g[..n]));
      ColumnTotalPlain(g[..n], m);
      ReadBackFormatted(g[n], NoOverrides, m);
    }
  }

  /** In the file, each aggregate row reads back as the column totals of the
      team rows written under it. */
  lemma GroupTotals(rows: seq<StatsRow>, y: string, c: string, m: Measure)
    requires IsWritten(m)
    ensures var b := Written(GroupBlock(rows, y, c));
            |b| > 0 ==> ReadBack(b[0], m) == ColumnTotal(b[1..], m)
  {
    var g := Pick(rows, YearCategory(y, c));
    if |g| > 0 {
      assert GroupBlock(rows, y, c) == [Line(AggregateOf(g), NoOverrides)] + Plain(g);
      BlockTotals(g, m);
    }
  }

  /** An aggregate line over the plain lines of its group. */
  lemma BlockTotals(g: seq<StatsRow>, m: Measure)
    requires IsWritten(m) && |g| > 0
    ensures var b := Written([Line(AggregateOf(g), NoOverrides)] + Plain(g));
            ReadBack(b[0], m) == ColumnTotal(b[1..], m)
  {
    var first := [Line(AggregateOf(g), NoOverrides)];
    WrittenAppend(first, Plain(g));
    var b := Written(first) + Written(Plain(g));
    assert b[0] == FormatOutputRow(AggregateOf(g), NoOverrides);
    assert b[1..] == Written(Plain(g));
    ReadBackFormatted(AggregateOf(g), NoOverrides, m);
    ColumnTotalPlain(g, m);
  }

  /** The total of a column over the rows whose `Level` is `lvl`: the body rows
      the page shows when category `lvl` is chosen. */
  function ShownTotal(out: seq<Csv.Row>, lvl: string, m: Measure): int
    requires IsWritten(m)
  {
    if |out| == 0 then 0
    else
      var last := out[|out| - 1];
      ShownTotal(out[..|out| - 1], lvl, m) + (if Get(last, "Level") == Some(lvl) then ReadBack(last, m) else 0)
  }

  lemma {:induction false} ShownTotalAppend(a: seq<Csv.Row>, b: seq<Csv.Row>, lvl: string, m: Measure)
    requires IsWritten(m)
    ensures ShownTotal(a + b, lvl, m) == ShownTotal(a, lvl, m) + ShownTotal(b, lvl, m)
    decreases |b|
  {
    if |b| == 0 {
      assert a + b == a;
    } else {
      var n := |b| - 1;
      assert (a + b)[..|a + b| - 1] == a + b[..n];
      ShownTotalAppend(a, b[..n], lvl, m);
    }
  }

  /** The `Level` a line is written with. */
  function LevelOf(x: Line): string {
    OrElse(x.over.level, x.stats.level)
  }

  /** ShownTotal before formatting: the sum of `m` over the lines written with
      `Level` `lvl`. */
  function LinesShownTotal(lines: seq<Line>, lvl: string, m: Measure): int {
    if |lines| == 0 then 0
    else
      var last := lines[|lines| - 1];
      LinesShownTotal(lines[..|lines| - 1], lvl, m) + (if LevelOf(last) == lvl then Value(last.stats, m) else 0)
  }

  lemma {:induction false} LinesShownTotalAppend(a: seq<Line>, b: seq<Line>, lvl: string, m: Measure)
    ensures LinesShownTotal(a + b, lvl, m) == LinesShownTotal(a, lvl, m) + LinesShownTotal(b, lvl, m)
    decreases |b|
  {
    if |b| == 0 {
      assert a + b == a;
    } else {
      var n := |b| - 1;
      assert (a + b)[..|a + b| - 1] == a + b[..n];
      LinesShownTotalAppend(a, b[..n], lvl, m);
    }
  }

  /** Formatting keeps each line's level and measures. */
  lemma ShownTotalWritten(lines: seq<Line>, lvl: string, m: Measure)
    requires IsWritten(m)
    ensures ShownTotal(Written(lines), lvl, m) == LinesShownTotal(lines, lvl, m)
  {
    var out := Written(lines);
    forall k | 0 <= k < |lines|
      ensures Get(out[k], "Level") == Some(LevelOf(lines[k]))
      ensures ReadBack(out[k], m) == Value(lines[k].stats, m)
    {
      FormattedLevel(lines[k].stats, lines[k].over);
      ReadBackFormatted(lines[k].stats, lines[k].over, m);
    }
    ShownTotalOf(out, lines, lvl, m);
  }

  lemma {:induction false} ShownTotalOf(out: seq<Csv.Row>, lines: seq<Line>, lvl: string, m: Measure)
    requires IsWritten(m) && |out| == |lines|
    requires forall k :: 0 <= k < |out| ==>
               Get(out[k], "Level") == Some(LevelOf(lines[k])) && ReadBack(out[k], m) == Value(lines[k].stats, m)
    ensures ShownTotal(out, lvl, m) == LinesShownTotal(lines, lvl, m)
    decreases |out|
  {
    if |out| > 0 {
      var n := |out| - 1;
      ShownTotalOf(out[..n], lines[..n], lvl, m);
    }
  }

  /** The aggregate line of one (year, category) group, if any, totals that
      group's sum under its own category and nothing under the others. */
  lemma GroupAggregateShown(rows: seq<StatsRow>, y: string, c': string, c: string, m: Measure)
    ensures var g := Pick(rows, YearCategory(y, c'));
            LinesShownTotal(if |g| == 0 then [] else [Line(AggregateOf(g), NoOverrides)], c, m) ==
              if c' == c then SumOf(g, m) else 0
  {
    var g := Pick(rows, YearCategory(y, c'));
    if |g| > 0 {
      var x := Line(AggregateOf(g), NoOverrides);
      assert g[0] in g;
      assert LevelOf(x) == c';
      assert [x][..0] == [];
    }
  }

  lemma {:induction false} YearAggregatesShown(rows: seq<StatsRow>, y: string, cats: seq<string>, c: string, m: Measure)
    requires NoDup(cats)
    ensures LinesShownTotal(YearAggregates(rows, y, cats), c, m) ==
              if c in cats then SumOf(Pick(rows, YearCategory(y, c)), m) else 0
    decreases |cats|
  {
    if |cats| > 0 {
      var n := |cats| - 1;
      assert NoDup(cats[..n]);
      YearAggregatesShown(rows, y, cats[..n], c, m);
      YearAggregatesStep(rows, y, cats, c, m);
      assert cats == cats[..n] + [cats[n]];
      assert cats[n] !in cats[..n];
    }
  }

  lemma YearAggregatesStep(rows: seq<StatsRow>, y: string, cats: seq<string>, c: string, m: Measure)
    requires |cats| > 0
    ensures var n := |cats| - 1;
            LinesShownTotal(YearAggregates(rows, y, cats), c, m) ==
              LinesShownTotal(YearAggregates(rows, y, cats[..n]), c, m) +
              if cats[n] == c then SumOf(Pick(rows, YearCategory(y, c)), m) else 0
  {
    var n := |cats| - 1;
    var c' := cats[n];
    var g := Pick(rows, YearCategory(y, c'));
    var A := YearAggregates(rows, y, cats[..n]);
    var B := if |g| == 0 then [] else [Line(AggregateOf(g), NoOverrides)];
    assert YearAggregates(rows, y, cats) == A + B;
    GroupAggregateShown(rows, y, c', c, m);
    LinesShownTotalAppend(A, B, c, m);
  }

  lemma {:induction false} SeasonAggregatesShown(rows: seq<StatsRow>, ys: seq<string>, c: string, m: Measure)
    requires c in CategoryNames
    ensures LinesShownTotal(SeasonAggregates(rows, ys), c, m) == PartSum(rows, SeasonsOf(c), ys, m)
    decreases |ys|
  {
    if |ys| > 0 {
      var n := |ys| - 1;
      SeasonAggregatesShown(rows, ys[..n], c, m);
      SeasonAggregatesStep(rows, ys, c, m);
    }
  }

  lemma SeasonAggregatesStep(rows: seq<StatsRow>, ys: seq<string>, c: string, m: Measure)
    requires c in CategoryNames && |ys| > 0
    ensures LinesShownTotal(SeasonAggregates(rows, ys), c, m) ==
              LinesShownTotal(SeasonAggregates(rows, ys[..|ys| - 1]), c, m) +
              SumOf(Pick(rows, YearCategory(ys[|ys| - 1], c)), m)
  {
    var n := |ys| - 1;
    var A := SeasonAggregates(rows, ys[..n]);
    var B := YearAggregates(rows, ys[n], CategoryNames);
    assert SeasonAggregates(rows, ys) == A + B;
    CategoryNamesDistinct();
    YearAggregatesShown(rows, ys[n], CategoryNames, c, m);
    LinesShownTotalAppend(A, B, c, m);
  }

  /** The page's footer row for a category reads back, column by column, as the
      total of the season rows it shows for that category: the tool's career
      totals are the sums of its per-season aggregates. */
  lemma FooterIsShownTotal(rows: seq<StatsRow>, c: Category, m: Measure)
    requires FourDigitYears(rows) && PlainTeams(rows) && IsWritten(m)
    requires |Pick(rows, InCategory(c.Name()))| > 0
    ensures CareerRow(ProcessStats(rows), c).Some?
    ensures ReadBack(CareerRow(ProcessStats(rows), c).value, m) ==
              ShownTotal(SeasonRows(ProcessStats(rows)), c.Name(), m)
  {
    CareerRowFound(rows, c);
    var k :| 0 <= k < |ProcessLines(rows)| && ProcessLines(rows)[k] == CareerLine(rows, c.Name()) &&
             CareerRow(ProcessStats(rows), c).value == ProcessStats(rows)[k];
    var line := CareerLine(rows, c.Name());
    ReadBackFormatted(line.stats, line.over, m);
    CareerIsSumOfSeasons(rows, c.Name(), m);
    SeasonRowsAreAggregates(rows);
    assert c.Name() in CategoryNames;
    SeasonAggregatesShown(rows, SortedYears(rows), c.Name(), m);
    ShownTotalWritten(SeasonAggregates(rows, SortedYears(rows)), c.Name(), m);
  }

  /** The column totals of the level-total rows of the levels `ls`. */
  function LevelRowsTotal(rows: seq<StatsRow>, ls: seq<string>, m: Measure): int
    requires IsWritten(m)
  {
    if |ls| == 0 then 0
    else
      var l := ls[|ls| - 1];
      LevelRowsTotal(rows, ls[..|ls| - 1], m) +
        (if |Pick(rows, MinorsLevel(l))| > 0 then ReadBack(LevelTotalRow(rows, l), m) else 0)
  }

  lemma {:induction false} LevelRowsTotalIsPartSum(rows: seq<StatsRow>, ls: seq<string>, m: Measure)
    requires IsWritten(m)
    ensures LevelRowsTotal(rows, ls, m) == PartSum(rows, MinorsLevels, ls, m)
    decreases |ls|
  {
    if |ls| > 0 {
      var l := ls[|ls| - 1];
      LevelRowsTotalIsPartSum(rows, ls[..|ls| - 1], m);
      if |Pick(rows, MinorsLevel(l))| > 0 {
        ReadBackFormatted(LevelLine(rows, l).stats, LevelLine(rows, l).over, m);
      }
    }
  }

  /** The Minors career row reads back as the column totals of the level-total
      rows, when every Minors row has one of the five ordered levels. */
  lemma LevelTotalsAddUp(rows: seq<StatsRow>, m: Measure)
    requires IsWritten(m) && |Pick(rows, InCategory("Minors"))| > 0
    requires forall r :: r in rows && r.category == "Minors" ==> r.level in LevelOrder
    ensures ReadBack(FormatOutputRow(CareerLine(rows, "Minors").stats, CareerLine(rows, "Minors").over), m) ==
              LevelRowsTotal(rows, LevelOrder, m)
  {
    ReadBackFormatted(CareerLine(rows, "Minors").stats, CareerLine(rows, "Minors").over, m);
    MinorsIsSumOfLevels(rows, m);
    LevelRowsTotalIsPartSum(rows, LevelOrder, m);
  }

  /** That holds of every file the reader produces. */
  lemma ReadLevelTotalsAddUp(raws: seq<RawRow>, m: Measure)
    requires ReadRows(raws).Success? && IsWritten(m)
    requires |Pick(ReadRows(raws).value, InCategory("Minors"))| > 0
    ensures var rows := ReadRows(raws).value;
            ReadBack(FormatOutputRow(CareerLine(rows, "Minors").stats, CareerLine(rows, "Minors").over), m) ==
              LevelRowsTotal(rows, LevelOrder, m)
  {
    ReadMinorsLevels(raws);
    LevelTotalsAddUp(ReadRows(raws).value, m);
  }
}

=== FILE: process.dfy ===
/** The ordering and grouping of `process_stats` (tools/process_stats.py:317-387):
    rows are grouped by (year, category), by category and by Minors level; the
    output is the season section (for each year in sorted order and each
    category, the group's aggregate row followed by the group's rows), then one
    career row per category, then the Minors level totals. */
module Process {
  import opened Wrappers
  import opened Text
  import Csv
  import opened Seqs
  import opened Producer

  // ------------------------------------------------------------ string order

  /** Python's `<` on strings: code-point order, a proper prefix first. */
  predicate StrLess(a: string, b: string)
    decreases |a|
  {
    if |a| == 0 then |b| > 0
    else |b| > 0 && (a[0] < b[0] || (a[0] == b[0] && StrLess(a[1..], b[1..])))
  }

  lemma {:induction false} StrLessIrreflexive(a: string)
    ensures !StrLess(a, a)
    decreases |a|
  {
    if |a| > 0 {
      StrLessIrreflexive(a[1..]);
    }
  }

  lemma {:induction false} StrLessTransitive(a: string, b: string, c: string)
    requires StrLess(a, b) && StrLess(b, c)
    ensures StrLess(a, c)
    decreases |a|
  {
    if |a| > 0 && a[0] == b[0] && b[0] == c[0] {
      StrLessTransitive(a[1..], b[1..], c[1..]);
    }
  }

  lemma {:induction false} StrLessTotal(a: string, b: string)
    requires a != b
    ensures StrLess(a, b) || StrLess(b, a)
    decreases |a|
  {
    if |a| > 0 && |b| > 0 && a[0] == b[0] {
      assert a == [a[0]] + a[1..] && b == [b[0]] + b[1..];
      StrLessTotal(a[1..], b[1..]);
    }
  }

  predicate StrictlySorted(ys: seq<string>) {
    forall i, j :: 0 <= i < j < |ys| ==> StrLess(ys[i], ys[j])
  }

  /** `y` added to a sorted list of distinct strings, keeping it sorted. */
  function Insert(ys: seq<string>, y: string): (r: seq<string>)
    requires StrictlySorted(ys)
    ensures StrictlySorted(r)
    ensures forall z :: z in r <==> z in ys || z == y
  {
    if |ys| == 0 then [y]
    else if y == ys[0] then ys
    else if StrLess(y, ys[0]) then
      assert forall j :: 0 < j < |ys| ==> StrLess(y, ys[j]) by {
        forall j | 0 < j < |ys|
          ensures StrLess(y, ys[j])
        {
          StrLessTransitive(y, ys[0], ys[j]);
        }
      }
      [y] + ys
    else
      StrLessTotal(y, ys[0]);
      var rest := Insert(ys[1..], y);
      assert forall z :: z in rest ==> StrLess(ys[0], z);
      [ys[0]] + rest
  }

  /** Some row has year `y`. */
  predicate HasYear(rows: seq<StatsRow>, y: string) {
    exists i :: 0 <= i < |rows| && rows[i].year == y
  }

  /** `sorted(set(r.year for r in rows))`. */
  function SortedYears(rows: seq<StatsRow>): (ys: seq<string>)
    ensures StrictlySorted(ys)
    ensures forall y :: y in ys <==> HasYear(rows, y)
  {
    if |rows| == 0 then []
    else
      var n := |rows| - 1;
      var prev := SortedYears(rows[..n]);
      HasYearSnoc(rows);
      Insert(prev, rows[n].year)
  }

  lemma HasYearSnoc(rows: seq<StatsRow>)
    requires |rows| > 0
    ensures forall y :: HasYear(rows, y) <==> HasYear(rows[..|rows| - 1], y) || rows[|rows| - 1].year == y
  {
    var n := |rows| - 1;
    forall y
      ensures HasYear(rows, y) <==> HasYear(rows[..n], y) || rows[n].year == y
    {
      if HasYear(rows, y) {
        var i :| 0 <= i < |rows| && rows[i].year == y;
        if i < n {
          assert rows[..n][i] == rows[i];
        }
      }
      if HasYear(rows[..n], y) {
        var i :| 0 <= i < n && rows[..n][i].year == y;
        assert rows[..n][i] == rows[i];
      }
    }
  }

  /** A sorted list of distinct strings is fixed by its elements, so SortedYears
      is the list `sorted(set(...))` produces. */
  lemma {:induction false} SortedUnique(a: seq<string>, b: seq<string>)
    requires StrictlySorted(a) && StrictlySorted(b)
    requires forall z :: z in a <==> z in b
    ensures a == b
    decreases |a|
  {
    assert |a| > 0 ==> |b| > 0 by {
      if |a| > 0 {
        assert a[0] in a;
      }
    }
    assert |b| > 0 ==> |a| > 0 by {
      if |b| > 0 {
        assert b[0] in b;
      }
    }
    if |a| > 0 {
      if a[0] != b[0] {
        assert b[0] in a;
        assert a[0] in b;
        var i :| 0 <= i < |a| && a[i] == b[0];
        var j :| 0 <= j < |b| && b[j] == a[0];
        StrLessIrreflexive(a[0]);
        StrLessIrreflexive(b[0]);
        assert i > 0 && j > 0;
        StrLessTransitive(a[0], b[0], a[0]);
        assert false;
      }
      forall z
        ensures z in a[1..] <==> z in b[1..]
      {
        if z in a[1..] {
          var i :| 1 <= i < |a| && a[i] == z;
          StrLessIrreflexive(z);
          assert z != b[0];
          assert z in a;
          var j :| 0 <= j < |b| && b[j] == z;
          assert b[1..][j - 1] == z;
        }
        if z in b[1..] {
          var j :| 1 <= j < |b| && b[j] == z;
          StrLessIrreflexive(z);
          assert z != a[0];
          assert z in b;
          var i :| 0 <= i < |a| && a[i] == z;
          assert a[1..][i - 1] == z;
        }
      }
      SortedUnique(a[1..], b[1..]);
      assert a == [a[0]] + a[1..] && b == [b[0]] + b[1..];
    }
  }

  // ------------------------------------------------------------------ groups

  /** The three groupings: `year_category_groups[(year, category)]`,
      `category_groups[category]`, and `level_groups[level]` over the Minors rows. */
  datatype Selector =
    | YearCategory(year: string, category: string)
    | InCategory(category: string)
    | MinorsLevel(level: string)

  predicate Selects(sel: Selector, r: StatsRow) {
    match sel
    case YearCategory(y, c) => r.year == y && r.category == c
    case InCategory(c) => r.category == c
    case MinorsLevel(l) => r.category == "Minors" && r.level == l
  }

  /** The rows a grouping collects under one key, in input order (the lists the
      `defaultdict(list)` appends to). */
  function Pick(rows: seq<StatsRow>, sel: Selector): (g: seq<StatsRow>)
    ensures |g| <= |rows|
    ensures forall x :: x in g <==> x in rows && Selects(sel, x)
  {
    if |rows| == 0 then []
    else
      var n := |rows| - 1;
      var prev := Pick(rows[..n], sel);
      assert rows == rows[..n] + [rows[n]];
      if Selects(sel, rows[n]) then prev + [rows[n]] else prev
  }

  /** Grouping keeps input order: it distributes over concatenation. */
  lemma {:induction false} PickAppend(a: seq<StatsRow>, b: seq<StatsRow>, sel: Selector)
    ensures Pick(a + b, sel) == Pick(a, sel) + Pick(b, sel)
    decreases |b|
  {
    if |b| == 0 {
      assert a + b == a;
    } else {
      var n := |b| - 1;
      assert (a + b)[..|a + b| - 1] == a + b[..n];
      PickAppend(a, b[..n], sel);
    }
  }

  /** One more row joins the groups that select it. */
  lemma PickSnoc(rows: seq<StatsRow>, r: StatsRow, sel: Selector)
    ensures Pick(rows + [r], sel) == Pick(rows, sel) + (if Selects(sel, r) then [r] else [])
  {
    assert (rows + [r])[..|rows|] == rows;
  }

  // ------------------------------------------------------------ partitions

  /** A family of groups indexed by a key: the seasons of one category, or the
      levels of the Minors. */
  datatype Family = SeasonsOf(category: string) | MinorsLevels

  function Part(f: Family, key: string): Selector {
    match f
    case SeasonsOf(c) => YearCategory(key, c)
    case MinorsLevels => MinorsLevel(key)
  }

  /** The sum of measure `m` over the groups of the keys `ks`. */
  function PartSum(rows: seq<StatsRow>, f: Family, ks: seq<string>, m: Measure): int {
    if |ks| == 0 then 0
    else PartSum(rows, f, ks[..|ks| - 1], m) + SumOf(Pick(rows, Part(f, ks[|ks| - 1])), m)
  }

  /** How many of the groups of `ks` a row falls in. */
  function Hits(f: Family, ks: seq<string>, r: StatsRow): nat {
    if |ks| == 0 then 0
    else Hits(f, ks[..|ks| - 1], r) + (if Selects(Part(f, ks[|ks| - 1]), r) then 1 else 0)
  }

  /** The value a row adds to the groups of `ks`: its value once for every
      group it falls in. */
  function HitsValue(f: Family, ks: seq<string>, r: StatsRow, m: Measure): int {
    if |ks| == 0 then 0
    else HitsValue(f, ks[..|ks| - 1], r, m) + (if Selects(Part(f, ks[|ks| - 1]), r) then Value(r, m) else 0)
  }

  /** A row that falls in no group adds nothing; one that falls in exactly one
      group adds its value. */
  lemma {:induction false} HitsOnce(f: Family, ks: seq<string>, r: StatsRow, m: Measure)
    requires Hits(f, ks, r) <= 1
    ensures HitsValue(f, ks, r, m) == if Hits(f, ks, r) == 1 then Value(r, m) else 0
    decreases |ks|
  {
    if |ks| > 0 {
      HitsOnce(f, ks[..|ks| - 1], r, m);
    }
  }

  /** Adding a row to the input adds its value to every group it falls in. */
  lemma {:induction false} PartSumSnoc(rows: seq<StatsRow>, r: StatsRow, f: Family, ks: seq<string>, m: Measure)
    ensures PartSum(rows + [r], f, ks, m) == PartSum(rows, f, ks, m) + HitsValue(f, ks, r, m)
    decreases |ks|
  {
    if |ks| > 0 {
      var n := |ks| - 1;
      PartSumSnoc(rows, r, f, ks[..n], m);
      SumPickSnoc(rows, r, Part(f, ks[n]), m);
    }
  }

  /** Adding a row to the input adds its value to the sum of a group it falls in. */
  lemma SumPickSnoc(rows: seq<StatsRow>, r: StatsRow, sel: Selector, m: Measure)
    ensures SumOf(Pick(rows + [r], sel), m) == SumOf(Pick(rows, sel), m) + (if Selects(sel, r) then Value(r, m) else 0)
  {
    PickSnoc(rows, r, sel);
    SumAppend(Pick(rows, sel), if Selects(sel, r) then [r] else [], m);
    SumOfOne(r, m);
  }

  lemma SumOfOne(r: StatsRow, m: Measure)
    ensures SumOf([r], m) == Value(r, m)
  {
    assert [r][..0] == [];
  }

  /** When every row of the whole falls in exactly one group and no other row
      falls in any, the groups' sums add up to the sum over the whole. */
  lemma {:induction false} PartitionSum(rows: seq<StatsRow>, whole: Selector, f: Family, ks: seq<string>, m: Measure)
    requires forall r :: r in rows ==> Hits(f, ks, r) == if Selects(whole, r) then 1 else 0
    ensures SumOf(Pick(rows, whole), m) == PartSum(rows, f, ks, m)
    decreases |rows|
  {
    if |rows| == 0 {
      PartSumEmpty(f, ks, m);
    } else {
      var n := |rows| - 1;
      var init, r := rows[..n], rows[n];
      assert rows == init + [r];
      assert forall x :: x in init ==> x in rows;
      PartitionSum(init, whole, f, ks, m);
      PartSumSnoc(init, r, f, ks, m);
      HitsOnce(f, ks, r, m);
      SumPickSnoc(init, r, whole, m);
    }
  }

  lemma {:induction false} PartSumEmpty(f: Family, ks: seq<string>, m: Measure)
    ensures PartSum([], f, ks, m) == 0
    decreases |ks|
  {
    if |ks| > 0 {
      PartSumEmpty(f, ks[..|ks| - 1], m);
    }
  }

  /** A row falls in the season group of its year, once when the years are
      distinct. */
  lemma {:induction false} SeasonHits(c: string, ys: seq<string>, r: StatsRow)
    requires NoDup(ys)
    ensures Hits(SeasonsOf(c), ys, r) == if r.category == c && r.year in ys then 1 else 0
    decreases |ys|
  {
    if |ys| > 0 {
      var n := |ys| - 1;
      assert NoDup(ys[..n]);
      SeasonHits(c, ys[..n], r);
      assert ys == ys[..n] + [ys[n]];
      assert ys[n] !in ys[..n];
    }
  }

  /** A Minors row falls in the group of its level, once when the levels are
      distinct; other rows fall in none. */
  lemma {:induction false} LevelHits(ls: seq<string>, r: StatsRow)
    requires NoDup(ls)
    ensures Hits(MinorsLevels, ls, r) == if r.category == "Minors" && r.level in ls then 1 else 0
    decreases |ls|
  {
    if |ls| > 0 {
      var n := |ls| - 1;
      assert NoDup(ls[..n]);
      LevelHits(ls[..n], r);
      assert ls == ls[..n] + [ls[n]];
      assert ls[n] !in ls[..n];
    }
  }

  lemma SortedNoDup(ys: seq<string>)
    requires StrictlySorted(ys)
    ensures NoDup(ys)
  {
    forall i, j | 0 <= i < j < |ys|
      ensures ys[i] != ys[j]
    {
      StrLessIrreflexive(ys[i]);
    }
  }

  /** A category's total is the sum of its season totals (process_stats.py's
      career row and its aggregate rows cover the same rows). */
  lemma CareerIsSumOfSeasons(rows: seq<StatsRow>, c: string, m: Measure)
    ensures SumOf(Pick(rows, InCategory(c)), m) == PartSum(rows, SeasonsOf(c), SortedYears(rows), m)
  {
    var ys := SortedYears(rows);
    SortedNoDup(ys);
    forall r | r in rows
      ensures Hits(SeasonsOf(c), ys, r) == if Selects(InCategory(c), r) then 1 else 0
    {
      SeasonHits(c, ys, r);
      var i :| 0 <= i < |rows| && rows[i] == r;
      assert HasYear(rows, r.year);
    }
    PartitionSum(rows, InCategory(c), SeasonsOf(c), ys, m);
  }

  /** When every Minors row has one of the five levels, the level totals add up
      to the Minors total. */
  lemma MinorsIsSumOfLevels(rows: seq<StatsRow>, m: Measure)
    requires forall r :: r in rows && r.category == "Minors" ==> r.level in LevelOrder
    ensures SumOf(Pick(rows, InCategory("Minors")), m) == PartSum(rows, MinorsLevels, LevelOrder, m)
  {
    LevelOrderDistinct();
    forall r | r in rows
      ensures Hits(MinorsLevels, LevelOrder, r) == if Selects(InCategory("Minors"), r) then 1 else 0
    {
      LevelHits(LevelOrder, r);
    }
    PartitionSum(rows, InCategory("Minors"), MinorsLevels, LevelOrder, m);
  }

  // ------------------------------------------------------------ output lines

  /** An output row before it is formatted: the statistics and the overrides
      `format_output_row` is called with. */
  datatype Line = Line(stats: StatsRow, over: Overrides)

  /** The `Season` a line is written with. */
  function SeasonOf(x: Line): string {
    if x.over.season.Some? then x.over.season.value else x.stats.year
  }

  /** The rows of a group as written, no overrides. */
  function Plain(g: seq<StatsRow>): (out: seq<Line>)
    ensures |out| == |g|
    ensures forall k :: 0 <= k < |g| ==> out[k].stats == g[k] && out[k].over == NoOverrides
  {
    seq(|g|, k requires 0 <= k < |g| => Line(g[k], NoOverrides))
  }

  /** The overrides of a category's career row. */
  function CareerOverrides(c: string): Overrides {
    Overrides(Some("-"), Some(c), Some(c + " Career"), Some("-"))
  }

  /** The overrides of a Minors level-total row. */
  function LevelOverrides(l: string): Overrides {
    Overrides(Some("-"), Some(l), Some(""), Some("-"))
  }

  /** One (year, category) group: its aggregate row, then its rows in input
      order, unchanged; nothing when the group is empty. Every line is labelled
      with the group's year and filed under its category. */
  function GroupBlock(rows: seq<StatsRow>, y: string, c: string): (b: seq<Line>)
    ensures |b| == 0 <==> |Pick(rows, YearCategory(y, c))| == 0
    ensures |b| > 0 ==> |b| == |Pick(rows, YearCategory(y, c))| + 1
    ensures |b| > 0 ==> b[0] == Line(AggregateOf(Pick(rows, YearCategory(y, c))), NoOverrides)
    ensures forall k :: 1 <= k < |b| ==> b[k] == Line(Pick(rows, YearCategory(y, c))[k - 1], NoOverrides)
    ensures forall k :: 0 <= k < |b| ==> SeasonOf(b[k]) == y && b[k].stats.category == c
  {
    var g := Pick(rows, YearCategory(y, c));
    if |g| == 0 then []
    else
      GroupLines(g, y, c);
      [Line(AggregateOf(g), NoOverrides)] + Plain(g)
  }

  /** The lines of a non-empty group of year `y` and category `c`. */
  lemma GroupLines(g: seq<StatsRow>, y: string, c: string)
    requires |g| > 0 && forall x :: x in g ==> x.year == y && x.category == c
    ensures var b := [Line(AggregateOf(g), NoOverrides)] + Plain(g);
            && |b| == |g| + 1
            && (forall k :: 1 <= k < |b| ==> b[k] == Line(g[k - 1], NoOverrides))
            && (forall k :: 0 <= k < |b| ==> SeasonOf(b[k]) == y && b[k].stats.category == c)
  {
    var b := [Line(AggregateOf(g), NoOverrides)] + Plain(g);
    assert g[0] in g;
    forall k | 1 <= k < |b|
      ensures b[k] == Line(g[k - 1], NoOverrides)
      ensures SeasonOf(b[k]) == y && b[k].stats.category == c
    {
      assert b[k] == Plain(g)[k - 1];
      assert g[k - 1] in g;
    }
  }

  /** The categories of `out` never go back in the order of `cats`. */
  predicate CategoriesInOrder(out: seq<Line>, cats: seq<string>)
    requires forall k :: 0 <= k < |out| ==> out[k].stats.category in cats
  {
    forall i, j :: 0 <= i < j < |out| ==>
      FirstIndex(cats, out[i].stats.category) <= FirstIndex(cats, out[j].stats.category)
  }

  /** The test for lines filed under category `c`. */
  function FiledUnder(c: string): Line -> bool {
    (x: Line) => x.stats.category == c
  }

  /** The test for lines of the (year `y`, category `c`) group. */
  function OfGroup(y: string, c: string): Line -> bool {
    (x: Line) => SeasonOf(x) == y && x.stats.category == c
  }

  /** The groups of one year, category by category in the order of `cats`. */
  function YearBlock(rows: seq<StatsRow>, y: string, cats: seq<string>): (b: seq<Line>)
    ensures forall k :: 0 <= k < |b| ==> SeasonOf(b[k]) == y && b[k].stats.category in cats
    ensures NoDup(cats) ==> CategoriesInOrder(b, cats)
    ensures NoDup(cats) ==> forall c :: c in cats ==> Filter(b, FiledUnder(c)) == GroupBlock(rows, y, c)
  {
    if |cats| == 0 then []
    else
      var n := |cats| - 1;
      var prev := YearBlock(rows, y, cats[..n]);
      var last := GroupBlock(rows, y, cats[n]);
      YearBlockLabelled(y, cats, prev, last);
      if NoDup(cats) then
        assert NoDup(cats[..n]);
        YearBlockOrdered(cats, prev, last);
        YearBlockComplete(rows, y, cats, prev, last);
        prev + last
      else
        prev + last
  }

  /** One step of YearBlock keeps every line in the year and among the categories. */
  lemma YearBlockLabelled(y: string, cats: seq<string>, prev: seq<Line>, last: seq<Line>)
    requires |cats| > 0
    requires forall k :: 0 <= k < |prev| ==> SeasonOf(prev[k]) == y && prev[k].stats.category in cats[..|cats| - 1]
    requires forall k :: 0 <= k < |last| ==> SeasonOf(last[k]) == y && last[k].stats.category == cats[|cats| - 1]
    ensures forall k :: 0 <= k < |prev + last| ==>
              SeasonOf((prev + last)[k]) == y && (prev + last)[k].stats.category in cats
  {
    var n := |cats| - 1;
    var out := prev + last;
    forall k | 0 <= k < |out|
      ensures SeasonOf(out[k]) == y && out[k].stats.category in cats
    {
      if k < |prev| {
        assert out[k] == prev[k];
        var p :| 0 <= p < n && cats[..n][p] == prev[k].stats.category;
        assert cats[p] == prev[k].stats.category;
      } else {
        assert out[k] == last[k - |prev|];
      }
    }
  }

  /** One step of YearBlock: the last category's group after the earlier ones
      keeps the categories in order. */
  lemma YearBlockOrdered(cats: seq<string>, prev: seq<Line>, last: seq<Line>)
    requires |cats| > 0 && NoDup(cats)
    requires forall k :: 0 <= k < |prev| ==> prev[k].stats.category in cats[..|cats| - 1]
    requires CategoriesInOrder(prev, cats[..|cats| - 1])
    requires forall k :: 0 <= k < |last| ==> last[k].stats.category == cats[|cats| - 1]
    requires forall k :: 0 <= k < |prev + last| ==> (prev + last)[k].stats.category in cats
    ensures CategoriesInOrder(prev + last, cats)
  {
    var n := |cats| - 1;
    var out := prev + last;
    assert FirstIndex(cats, cats[n]) == n;
    forall i, j | 0 <= i < j < |out|
      ensures FirstIndex(cats, out[i].stats.category) <= FirstIndex(cats, out[j].stats.category)
    {
      if j < |prev| {
        assert out[i] == prev[i] && out[j] == prev[j];
        FirstIndexInPrefix(cats, n, prev[i].stats.category);
        FirstIndexInPrefix(cats, n, prev[j].stats.category);
      } else if i >= |prev| {
        assert out[i] == last[i - |prev|] && out[j] == last[j - |prev|];
      } else {
        assert out[i] == prev[i] && out[j] == last[j - |prev|];
        FirstIndexInPrefix(cats, n, prev[i].stats.category);
      }
    }
  }

  /** One step of YearBlock: with distinct categories, the lines filed under
      each category are exactly that category's block. */
  lemma YearBlockComplete(rows: seq<StatsRow>, y: string, cats: seq<string>, prev: seq<Line>, last: seq<Line>)
    requires |cats| > 0 && NoDup(cats)
    requires forall k :: 0 <= k < |prev| ==> prev[k].stats.category in cats[..|cats| - 1]
    requires forall c :: c in cats[..|cats| - 1] ==> Filter(prev, FiledUnder(c)) == GroupBlock(rows, y, c)
    requires last == GroupBlock(rows, y, cats[|cats| - 1])
    ensures forall c :: c in cats ==> Filter(prev + last, FiledUnder(c)) == GroupBlock(rows, y, c)
  {
    var n := |cats| - 1;
    assert forall i :: 0 <= i < n ==> cats[..n][i] != cats[n];
    forall c | c in cats
      ensures Filter(prev + last, FiledUnder(c)) == GroupBlock(rows, y, c)
    {
      FilterAppend(prev, last, FiledUnder(c));
      if c == cats[n] {
        FilterNone(prev, FiledUnder(c));
        FilterAll(last, FiledUnder(c));
      } else {
        var i :| 0 <= i < |cats| && cats[i] == c;
        assert cats[..n][i] == c;
        FilterNone(last, FiledUnder(c));
      }
    }
  }

  /** Every line of `out` is labelled with one of the years `ys`. */
  predicate LabelledFrom(out: seq<Line>, ys: seq<string>) {
    forall k :: 0 <= k < |out| ==> SeasonOf(out[k]) in ys
  }

  /** The labels of `out` never go down. */
  predicate SeasonsAscend(out: seq<Line>) {
    forall i, j :: 0 <= i < j < |out| ==>
      SeasonOf(out[i]) == SeasonOf(out[j]) || StrLess(SeasonOf(out[i]), SeasonOf(out[j]))
  }

  /** Lines of the same season come in the order of CategoryNames. */
  predicate SeasonsInCategoryOrder(out: seq<Line>)
    requires forall k :: 0 <= k < |out| ==> out[k].stats.category in CategoryNames
  {
    forall i, j :: 0 <= i < j < |out| && SeasonOf(out[i]) == SeasonOf(out[j]) ==>
      FirstIndex(CategoryNames, out[i].stats.category) <= FirstIndex(CategoryNames, out[j].stats.category)
  }

  /** The season section over the years `ys`: every line is labelled with one
      of them and filed under one of the four categories; when the years are
      sorted so are the lines, and within a year the categories follow
      CategoryNames. */
  function SeasonSection(rows: seq<StatsRow>, ys: seq<string>): (out: seq<Line>)
    ensures LabelledFrom(out, ys)
    ensures forall k :: 0 <= k < |out| ==> out[k].stats.category in CategoryNames
    ensures StrictlySorted(ys) ==> SeasonsAscend(out) && SeasonsInCategoryOrder(out)
    ensures StrictlySorted(ys) ==>
              forall y, c :: y in ys && c in CategoryNames ==> Filter(out, OfGroup(y, c)) == GroupBlock(rows, y, c)
  {
    if |ys| == 0 then []
    else
      var n := |ys| - 1;
      var prev := SeasonSection(rows, ys[..n]);
      var last := YearBlock(rows, ys[n], CategoryNames);
      SeasonStep(ys, prev, last);
      SeasonStepComplete(rows, ys, prev, last);
      prev + last
  }

  lemma CategoryNamesDistinct()
    ensures NoDup(CategoryNames)
  {
  }

  /** One step of SeasonSection: the block of the last year after the lines of
      the earlier years. */
  lemma SeasonStep(ys: seq<string>, prev: seq<Line>, last: seq<Line>)
    requires |ys| > 0
    requires LabelledFrom(prev, ys[..|ys| - 1])
    requires forall k :: 0 <= k < |prev| ==> prev[k].stats.category in CategoryNames
    requires StrictlySorted(ys[..|ys| - 1]) ==> SeasonsAscend(prev) && SeasonsInCategoryOrder(prev)
    requires forall k :: 0 <= k < |last| ==>
               SeasonOf(last[k]) == ys[|ys| - 1] && last[k].stats.category in CategoryNames
    requires NoDup(CategoryNames) ==> CategoriesInOrder(last, CategoryNames)
    ensures LabelledFrom(prev + last, ys)
    ensures forall k :: 0 <= k < |prev + last| ==> (prev + last)[k].stats.category in CategoryNames
    ensures StrictlySorted(ys) ==> SeasonsAscend(prev + last) && SeasonsInCategoryOrder(prev + last)
  {
    var n := |ys| - 1;
    SeasonStepLabelled(ys, prev, last);
    SeasonStepCategories(prev, last);
    if StrictlySorted(ys) {
      assert StrictlySorted(ys[..n]);
      SeasonStepAscends(ys, prev, last);
      CategoryNamesDistinct();
      SeasonStepInCategoryOrder(ys, prev, last);
    }
  }

  /** One step of SeasonSection: with sorted years, the lines of each (year,
      category) group are exactly that group's block. */
  lemma SeasonStepComplete(rows: seq<StatsRow>, ys: seq<string>, prev: seq<Line>, last: seq<Line>)
    requires |ys| > 0
    requires LabelledFrom(prev, ys[..|ys| - 1])
    requires StrictlySorted(ys[..|ys| - 1]) ==>
               forall y, c :: y in ys[..|ys| - 1] && c in CategoryNames ==>
                 Filter(prev, OfGroup(y, c)) == GroupBlock(rows, y, c)
    requires last == YearBlock(rows, ys[|ys| - 1], CategoryNames)
    ensures StrictlySorted(ys) ==>
              forall y, c :: y in ys && c in CategoryNames ==> Filter(prev + last, OfGroup(y, c)) == GroupBlock(rows, y, c)
  {
    if StrictlySorted(ys) {
      assert StrictlySorted(ys[..|ys| - 1]);
      CategoryNamesDistinct();
      SeasonStepFresh(ys, prev);
      SeasonGroups(rows, ys, prev, last);
    }
  }

  /** SeasonStepComplete over the facts it needs about the two parts. */
  lemma SeasonGroups(rows: seq<StatsRow>, ys: seq<string>, prev: seq<Line>, last: seq<Line>)
    requires |ys| > 0
    requires forall y, c :: y in ys[..|ys| - 1] && c in CategoryNames ==>
               Filter(prev, OfGroup(y, c)) == GroupBlock(rows, y, c)
    requires forall k :: 0 <= k < |prev| ==> SeasonOf(prev[k]) != ys[|ys| - 1]
    requires forall k :: 0 <= k < |last| ==> SeasonOf(last[k]) == ys[|ys| - 1]
    requires forall c :: c in CategoryNames ==> Filter(last, FiledUnder(c)) == GroupBlock(rows, ys[|ys| - 1], c)
    ensures forall y, c :: y in ys && c in CategoryNames ==> Filter(prev + last, OfGroup(y, c)) == GroupBlock(rows, y, c)
  {
    var n := |ys| - 1;
    forall c | c in CategoryNames
      ensures Filter(prev + last, OfGroup(ys[n], c)) == GroupBlock(rows, ys[n], c)
    {
      GroupOfLastYear(ys[n], c, prev, last, GroupBlock(rows, ys[n], c));
    }
    forall y, c | y in ys[..n] && y != ys[n] && c in CategoryNames
      ensures Filter(prev + last, OfGroup(y, c)) == GroupBlock(rows, y, c)
    {
      GroupOfEarlierYear(y, c, ys[n], prev, last, GroupBlock(rows, y, c));
    }
    forall y | y in ys
      ensures y == ys[n] || y in ys[..n]
    {
      var p :| 0 <= p < |ys| && ys[p] == y;
      if p < n {
        assert ys[..n][p] == y;
      }
    }
  }

  /** The group of the newest year lies wholly in its year block. */
  lemma GroupOfLastYear(y: string, c: string, prev: seq<Line>, last: seq<Line>, g: seq<Line>)
    requires forall k :: 0 <= k < |prev| ==> SeasonOf(prev[k]) != y
    requires forall k :: 0 <= k < |last| ==> SeasonOf(last[k]) == y
    requires Filter(last, FiledUnder(c)) == g
    ensures Filter(prev + last, OfGroup(y, c)) == g
  {
    FilterAppend(prev, last, OfGroup(y, c));
    FilterNone(prev, OfGroup(y, c));
    FilterAgree(last, OfGroup(y, c), FiledUnder(c));
  }

  /** The group of an earlier year lies wholly before the newest year block. */
  lemma GroupOfEarlierYear(y: string, c: string, newest: string, prev: seq<Line>, last: seq<Line>, g: seq<Line>)
    requires y != newest
    requires forall k :: 0 <= k < |last| ==> SeasonOf(last[k]) == newest
    requires Filter(prev, OfGroup(y, c)) == g
    ensures Filter(prev + last, OfGroup(y, c)) == g
  {
    FilterAppend(prev, last, OfGroup(y, c));
    FilterNone(last, OfGroup(y, c));
  }

  /** With sorted years, no earlier line carries the last year. */
  lemma SeasonStepFresh(ys: seq<string>, prev: seq<Line>)
    requires |ys| > 0 && StrictlySorted(ys)
    requires LabelledFrom(prev, ys[..|ys| - 1])
    ensures forall k :: 0 <= k < |prev| ==> SeasonOf(prev[k]) != ys[|ys| - 1]
  {
    var n := |ys| - 1;
    forall k | 0 <= k < |prev|
      ensures SeasonOf(prev[k]) != ys[n]
    {
      var p :| 0 <= p < n && ys[..n][p] == SeasonOf(prev[k]);
      assert StrLess(ys[p], ys[n]);
      StrLessIrreflexive(ys[n]);
    }
  }

  /** One step of SeasonSection keeps every category among CategoryNames. */
  lemma SeasonStepCategories(prev: seq<Line>, last: seq<Line>)
    requires forall k :: 0 <= k < |prev| ==> prev[k].stats.category in CategoryNames
    requires forall k :: 0 <= k < |last| ==> last[k].stats.category in CategoryNames
    ensures forall k :: 0 <= k < |prev + last| ==> (prev + last)[k].stats.category in CategoryNames
  {
    var out := prev + last;
    forall k | 0 <= k < |out|
      ensures out[k].stats.category in CategoryNames
    {
      if k < |prev| {
        assert out[k] == prev[k];
      } else {
        assert out[k] == last[k - |prev|];
      }
    }
  }

  /** One step of SeasonSection: a year block labelled above all earlier years,
      in category order itself, keeps the same-season lines in category order. */
  lemma SeasonStepInCategoryOrder(ys: seq<string>, prev: seq<Line>, last: seq<Line>)
    requires |ys| > 0 && StrictlySorted(ys)
    requires LabelledFrom(prev, ys[..|ys| - 1])
    requires forall k :: 0 <= k < |prev| ==> prev[k].stats.category in CategoryNames
    requires SeasonsInCategoryOrder(prev)
    requires forall k :: 0 <= k < |last| ==>
               SeasonOf(last[k]) == ys[|ys| - 1] && last[k].stats.category in CategoryNames
    requires CategoriesInOrder(last, CategoryNames)
    requires forall k :: 0 <= k < |prev + last| ==> (prev + last)[k].stats.category in CategoryNames
    ensures SeasonsInCategoryOrder(prev + last)
  {
    var n := |ys| - 1;
    var out := prev + last;
    forall i, j | 0 <= i < j < |out|
      ensures SeasonOf(out[i]) == SeasonOf(out[j]) ==>
                FirstIndex(CategoryNames, out[i].stats.category) <= FirstIndex(CategoryNames, out[j].stats.category)
    {
      if j < |prev| {
        assert out[i] == prev[i] && out[j] == prev[j];
      } else if i >= |prev| {
        assert out[i] == last[i - |prev|] && out[j] == last[j - |prev|];
      } else {
        assert out[i] == prev[i] && out[j] == last[j - |prev|];
        var p :| 0 <= p < n && ys[..n][p] == SeasonOf(prev[i]);
        assert StrLess(ys[p], ys[n]);
        StrLessIrreflexive(ys[n]);
        assert SeasonOf(out[i]) != SeasonOf(out[j]);
      }
    }
  }

  /** One step of SeasonSection keeps every label among the years. */
  lemma SeasonStepLabelled(ys: seq<string>, prev: seq<Line>, last: seq<Line>)
    requires |ys| > 0
    requires LabelledFrom(prev, ys[..|ys| - 1])
    requires forall k :: 0 <= k < |last| ==> SeasonOf(last[k]) == ys[|ys| - 1]
    ensures LabelledFrom(prev + last, ys)
  {
    var n := |ys| - 1;
    var out := prev + last;
    forall k | 0 <= k < |out|
      ensures SeasonOf(out[k]) in ys
    {
      if k < |prev| {
        assert out[k] == prev[k];
        var p :| 0 <= p < n && ys[..n][p] == SeasonOf(prev[k]);
        assert ys[p] == SeasonOf(prev[k]);
      } else {
        assert out[k] == last[k - |prev|];
      }
    }
  }

  /** One step of SeasonSection: a block labelled with a year above all the
      earlier ones keeps the labels ascending. */
  lemma SeasonStepAscends(ys: seq<string>, prev: seq<Line>, last: seq<Line>)
    requires |ys| > 0 && StrictlySorted(ys)
    requires LabelledFrom(prev, ys[..|ys| - 1]) && SeasonsAscend(prev)
    requires forall k :: 0 <= k < |last| ==> SeasonOf(last[k]) == ys[|ys| - 1]
    ensures SeasonsAscend(prev + last)
  {
    var n := |ys| - 1;
    var out := prev + last;
    forall i, j | 0 <= i < j < |out|
      ensures SeasonOf(out[i]) == SeasonOf(out[j]) || StrLess(SeasonOf(out[i]), SeasonOf(out[j]))
    {
      if j < |prev| {
        assert out[i] == prev[i] && out[j] == prev[j];
      } else if i >= |prev| {
        assert out[i] == last[i - |prev|] && out[j] == last[j - |prev|];
      } else {
        assert out[i] == prev[i] && out[j] == last[j - |prev|];
        var p :| 0 <= p < n && ys[..n][p] == SeasonOf(prev[i]);
        assert StrLess(ys[p], ys[n]);
      }
    }
  }

  /** The key a total line is made for: the level it is written with. */
  function KeyOf(x: Line): string {
    if x.over.level.Some? then x.over.level.value else x.stats.level
  }

  /** The keys of `out` come in the order of `keys`, each at most once. */
  predicate KeysInOrder(out: seq<Line>, keys: seq<string>)
    requires forall k :: 0 <= k < |out| ==> KeyOf(out[k]) in keys
  {
    forall i, j :: 0 <= i < j < |out| ==> FirstIndex(keys, KeyOf(out[i])) < FirstIndex(keys, KeyOf(out[j]))
  }

  /** One step of a total section: a line for the last key, after lines for the
      earlier keys in their order, keeps the order. */
  lemma KeysInOrderStep(keys: seq<string>, prev: seq<Line>, tail: seq<Line>)
    requires |keys| > 0 && NoDup(keys) && |tail| <= 1
    requires forall k :: 0 <= k < |prev| ==> KeyOf(prev[k]) in keys[..|keys| - 1]
    requires KeysInOrder(prev, keys[..|keys| - 1])
    requires forall k :: 0 <= k < |tail| ==> KeyOf(tail[k]) == keys[|keys| - 1]
    ensures forall k :: 0 <= k < |prev + tail| ==> KeyOf((prev + tail)[k]) in keys
    ensures KeysInOrder(prev + tail, keys)
  {
    var n := |keys| - 1;
    var out := prev + tail;
    assert FirstIndex(keys, keys[n]) == n;
    forall k | 0 <= k < |out|
      ensures KeyOf(out[k]) in keys
    {
      if k < |prev| {
        assert out[k] == prev[k];
        FirstIndexInPrefix(keys, n, KeyOf(prev[k]));
      } else {
        assert out[k] == tail[k - |prev|];
      }
    }
    forall i, j | 0 <= i < j < |out|
      ensures FirstIndex(keys, KeyOf(out[i])) < FirstIndex(keys, KeyOf(out[j]))
    {
      assert out[i] == prev[i];
      FirstIndexInPrefix(keys, n, KeyOf(prev[i]));
      if j < |prev| {
        assert out[j] == prev[j];
        FirstIndexInPrefix(keys, n, KeyOf(prev[j]));
      } else {
        assert out[j] == tail[j - |prev|];
      }
    }
  }

  /** The career line of a category with rows. */
  function CareerLine(rows: seq<StatsRow>, c: string): (x: Line)
    requires |Pick(rows, InCategory(c))| > 0
    ensures KeyOf(x) == c
  {
    Line(AggregateOf(Pick(rows, InCategory(c))), CareerOverrides(c))
  }

  /** The career section: the career line of every category of `cats` that has
      rows, and nothing else. */
  function CareerSection(rows: seq<StatsRow>, cats: seq<string>): (out: seq<Line>)
    ensures |out| <= |cats|
    ensures forall k :: 0 <= k < |out| ==>
              && KeyOf(out[k]) in cats && |Pick(rows, InCategory(KeyOf(out[k])))| > 0
              && out[k] == CareerLine(rows, KeyOf(out[k]))
    ensures forall c :: c in cats && |Pick(rows, InCategory(c))| > 0 ==> CareerLine(rows, c) in out
    ensures NoDup(cats) ==> KeysInOrder(out, cats)
  {
    if |cats| == 0 then []
    else
      var n := |cats| - 1;
      var prev := CareerSection(rows, cats[..n]);
      var tail := if |Pick(rows, InCategory(cats[n]))| == 0 then [] else [CareerLine(rows, cats[n])];
      var out := prev + tail;
      CareerSectionSound(rows, cats, prev, out);
      CareerSectionComplete(rows, cats, prev, out);
      if NoDup(cats) then
        assert NoDup(cats[..n]);
        KeysInOrderStep(cats, prev, tail);
        out
      else
        out
  }

  /** One step of CareerSection: each line is the line of its own key, a key with rows. */
  lemma CareerSectionSound(rows: seq<StatsRow>, cats: seq<string>, prev: seq<Line>, out: seq<Line>)
    requires |cats| > 0
    requires forall k :: 0 <= k < |prev| ==>
               && KeyOf(prev[k]) in cats[..|cats| - 1] && |Pick(rows, InCategory(KeyOf(prev[k])))| > 0
               && prev[k] == CareerLine(rows, KeyOf(prev[k]))
    requires var c := cats[|cats| - 1];
             out == prev + (if |Pick(rows, InCategory(c))| == 0 then [] else [CareerLine(rows, c)])
    ensures forall k :: 0 <= k < |out| ==>
              && KeyOf(out[k]) in cats && |Pick(rows, InCategory(KeyOf(out[k])))| > 0
              && out[k] == CareerLine(rows, KeyOf(out[k]))
  {
    var n := |cats| - 1;
    forall k | 0 <= k < |out|
      ensures KeyOf(out[k]) in cats
    {
      if k < |prev| {
        assert out[k] == prev[k] && KeyOf(prev[k]) in cats[..n];
      } else {
        assert out[k] == CareerLine(rows, cats[n]);
      }
    }
  }

  /** One step of CareerSection: every key with rows has its line. */
  lemma CareerSectionComplete(rows: seq<StatsRow>, cats: seq<string>, prev: seq<Line>, out: seq<Line>)
    requires |cats| > 0
    requires forall c :: c in cats[..|cats| - 1] && |Pick(rows, InCategory(c))| > 0 ==> CareerLine(rows, c) in prev
    requires var c := cats[|cats| - 1];
             out == prev + (if |Pick(rows, InCategory(c))| == 0 then [] else [CareerLine(rows, c)])
    ensures forall c :: c in cats && |Pick(rows, InCategory(c))| > 0 ==> CareerLine(rows, c) in out
  {
    var n := |cats| - 1;
    forall c' | c' in cats && |Pick(rows, InCategory(c'))| > 0
      ensures CareerLine(rows, c') in out
    {
      if c' == cats[n] {
        assert out[|prev|] == CareerLine(rows, c');
      } else {
        assert cats == cats[..n] + [cats[n]];
        assert c' in cats[..n];
        var k :| 0 <= k < |prev| && prev[k] == CareerLine(rows, c');
        assert out[k] == prev[k];
      }
    }
  }

  /** The level-total line of a Minors level with rows. */
  function LevelLine(rows: seq<StatsRow>, l: string): (x: Line)
    requires |Pick(rows, MinorsLevel(l))| > 0
    ensures KeyOf(x) == l
  {
    Line(AggregateOf(Pick(rows, MinorsLevel(l))), LevelOverrides(l))
  }

  /** The level-total section: the total of every level of `levels` with Minors
      rows, and nothing else. */
  function LevelSection(rows: seq<StatsRow>, levels: seq<string>): (out: seq<Line>)
    ensures |out| <= |levels|
    ensures forall k :: 0 <= k < |out| ==>
              && KeyOf(out[k]) in levels && |Pick(rows, MinorsLevel(KeyOf(out[k])))| > 0
              && out[k] == LevelLine(rows, KeyOf(out[k]))
    ensures forall l :: l in levels && |Pick(rows, MinorsLevel(l))| > 0 ==> LevelLine(rows, l) in out
    ensures NoDup(levels) ==> KeysInOrder(out, levels)
  {
    if |levels| == 0 then []
    else
      var n := |levels| - 1;
      var prev := LevelSection(rows, levels[..n]);
      var tail := if |Pick(rows, MinorsLevel(levels[n]))| == 0 then [] else [LevelLine(rows, levels[n])];
      var out := prev + tail;
      LevelSectionSound(rows, levels, prev, out);
      LevelSectionComplete(rows, levels, prev, out);
      if NoDup(levels) then
        assert NoDup(levels[..n]);
        KeysInOrderStep(levels, prev, tail);
        out
      else
        out
  }

  /** One step of LevelSection: each line is the line of its own key, a key with rows. */
  lemma LevelSectionSound(rows: seq<StatsRow>, levels: seq<string>, prev: seq<Line>, out: seq<Line>)
    requires |levels| > 0
    requires forall k :: 0 <= k < |prev| ==>
               && KeyOf(prev[k]) in levels[..|levels| - 1] && |Pick(rows, MinorsLevel(KeyOf(prev[k])))| > 0
               && prev[k] == LevelLine(rows, KeyOf(prev[k]))
    requires var l := levels[|levels| - 1];
             out == prev + (if |Pick(rows, MinorsLevel(l))| == 0 then [] else [LevelLine(rows, l)])
    ensures forall k :: 0 <= k < |out| ==>
              && KeyOf(out[k]) in levels && |Pick(rows, MinorsLevel(KeyOf(out[k])))| > 0
              && out[k] == LevelLine(rows, KeyOf(out[k]))
  {
    var n := |levels| - 1;
    forall k | 0 <= k < |out|
      ensures KeyOf(out[k]) in levels
    {
      if k < |prev| {
        assert out[k] == prev[k] && KeyOf(prev[k]) in levels[..n];
      } else {
        assert out[k] == LevelLine(rows, levels[n]);
      }
    }
  }

  /** One step of LevelSection: every key with rows has its line. */
  lemma LevelSectionComplete(rows: seq<StatsRow>, levels: seq<string>, prev: seq<Line>, out: seq<Line>)
    requires |levels| > 0
    requires forall l :: l in levels[..|levels| - 1] && |Pick(rows, MinorsLevel(l))| > 0 ==> LevelLine(rows, l) in prev
    requires var l := levels[|levels| - 1];
             out == prev + (if |Pick(rows, MinorsLevel(l))| == 0 then [] else [LevelLine(rows, l)])
    ensures forall l :: l in levels && |Pick(rows, MinorsLevel(l))| > 0 ==> LevelLine(rows, l) in out
  {
    var n := |levels| - 1;
    forall l' | l' in levels && |Pick(rows, MinorsLevel(l'))| > 0
      ensures LevelLine(rows, l') in out
    {
      if l' == levels[n] {
        assert out[|prev|] == LevelLine(rows, l');
      } else {
        assert levels == levels[..n] + [levels[n]];
        assert l' in levels[..n];
        var k :| 0 <= k < |prev| && prev[k] == LevelLine(rows, l');
        assert out[k] == prev[k];
      }
    }
  }

  /** The lines `process_stats()` writes, in order. */
  function ProcessLines(rows: seq<StatsRow>): seq<Line> {
    SeasonSection(rows, SortedYears(rows)) + CareerSection(rows, CategoryNames) + LevelSection(rows, LevelOrder)
  }

  lemma LevelOrderDistinct()
    ensures NoDup(LevelOrder)
  {
  }

  /** The file `process_stats()` writes, section by section: the season lines,
      each labelled with a year of the rows, years ascending and, within a year,
      the categories in CategoryNames order; then one career line per category
      with rows, in CategoryNames order; then one total per Minors level with
      rows, in LevelOrder order. */
  lemma ProcessLinesLayout(rows: seq<StatsRow>)
    ensures ProcessLines(rows) ==
              SeasonSection(rows, SortedYears(rows)) + CareerSection(rows, CategoryNames) + LevelSection(rows, LevelOrder)
    ensures SeasonLinesInOrder(SeasonSection(rows, SortedYears(rows)), rows)
    ensures SeasonLinesComplete(SeasonSection(rows, SortedYears(rows)), rows)
    ensures TotalLinesInOrder(CareerSection(rows, CategoryNames), CategoryNames)
    ensures forall c :: c in CategoryNames ==>
              (c in Keys(CareerSection(rows, CategoryNames)) <==> |Pick(rows, InCategory(c))| > 0)
    ensures TotalLinesInOrder(LevelSection(rows, LevelOrder), LevelOrder)
    ensures forall l :: l in LevelOrder ==>
              (l in Keys(LevelSection(rows, LevelOrder)) <==> |Pick(rows, MinorsLevel(l))| > 0)
  {
    SeasonLines(rows);
    CareerLines(rows);
    LevelLines(rows);
  }

  /** Every line labelled with a year of the rows, years ascending and, within
      a year, the categories in CategoryNames order. */
  predicate SeasonLinesInOrder(S: seq<Line>, rows: seq<StatsRow>) {
    && (forall k :: 0 <= k < |S| ==> HasYear(rows, SeasonOf(S[k])) && S[k].stats.category in CategoryNames)
    && SeasonsAscend(S) && SeasonsInCategoryOrder(S)
  }

  /** For every year of the rows and every category, the lines of that group
      are exactly its block: the aggregate, then the group's rows. */
  ghost predicate SeasonLinesComplete(S: seq<Line>, rows: seq<StatsRow>) {
    forall y, c :: HasYear(rows, y) && c in CategoryNames ==> Filter(S, OfGroup(y, c)) == GroupBlock(rows, y, c)
  }

  /** Total lines with keys from `keys`, in its order, each once. */
  predicate TotalLinesInOrder(T: seq<Line>, keys: seq<string>) {
    && (forall k :: 0 <= k < |T| ==> KeyOf(T[k]) in keys)
    && KeysInOrder(T, keys)
  }

  lemma SeasonLines(rows: seq<StatsRow>)
    ensures SeasonLinesInOrder(SeasonSection(rows, SortedYears(rows)), rows)
    ensures SeasonLinesComplete(SeasonSection(rows, SortedYears(rows)), rows)
  {
    var ys := SortedYears(rows);
    var S := SeasonSection(rows, ys);
    forall k | 0 <= k < |S|
      ensures HasYear(rows, SeasonOf(S[k]))
    {
      assert SeasonOf(S[k]) in ys;
    }
  }

  lemma CareerLines(rows: seq<StatsRow>)
    ensures TotalLinesInOrder(CareerSection(rows, CategoryNames), CategoryNames)
    ensures forall k :: 0 <= k < |CareerSection(rows, CategoryNames)| ==>
              CareerSection(rows, CategoryNames)[k].over == CareerOverrides(KeyOf(CareerSection(rows, CategoryNames)[k]))
    ensures forall c :: c in CategoryNames ==>
              (c in Keys(CareerSection(rows, CategoryNames)) <==> |Pick(rows, InCategory(c))| > 0)
  {
    CategoryNamesDistinct();
    CareerLinesOf(rows, CategoryNames);
  }

  /** CareerLines for any list of distinct categories. */
  lemma CareerLinesOf(rows: seq<StatsRow>, cats: seq<string>)
    requires NoDup(cats)
    ensures TotalLinesInOrder(CareerSection(rows, cats), cats)
    ensures forall k :: 0 <= k < |CareerSection(rows, cats)| ==>
              CareerSection(rows, cats)[k].over == CareerOverrides(KeyOf(CareerSection(rows, cats)[k]))
    ensures forall c :: c in cats ==>
              (c in Keys(CareerSection(rows, cats)) <==> |Pick(rows, InCategory(c))| > 0)
  {
    var C := CareerSection(rows, cats);
    forall c | c in cats
      ensures c in Keys(C) <==> |Pick(rows, InCategory(c))| > 0
    {
      if |Pick(rows, InCategory(c))| > 0 {
        var k :| 0 <= k < |C| && C[k] == CareerLine(rows, c);
        assert Keys(C)[k] == c;
      }
    }
  }

  lemma LevelLines(rows: seq<StatsRow>)
    ensures TotalLinesInOrder(LevelSection(rows, LevelOrder), LevelOrder)
    ensures forall k :: 0 <= k < |LevelSection(rows, LevelOrder)| ==>
              LevelSection(rows, LevelOrder)[k].over == LevelOverrides(KeyOf(LevelSection(rows, LevelOrder)[k]))
    ensures forall l :: l in LevelOrder ==>
              (l in Keys(LevelSection(rows, LevelOrder)) <==> |Pick(rows, MinorsLevel(l))| > 0)
  {
    LevelOrderDistinct();
    LevelLinesOf(rows, LevelOrder);
  }

  /** LevelLines for any list of distinct levels. */
  lemma LevelLinesOf(rows: seq<StatsRow>, levels: seq<string>)
    requires NoDup(levels)
    ensures TotalLinesInOrder(LevelSection(rows, levels), levels)
    ensures forall k :: 0 <= k < |LevelSection(rows, levels)| ==>
              LevelSection(rows, levels)[k].over == LevelOverrides(KeyOf(LevelSection(rows, levels)[k]))
    ensures forall l :: l in levels ==>
              (l in Keys(LevelSection(rows, levels)) <==> |Pick(rows, MinorsLevel(l))| > 0)
  {
    var L := LevelSection(rows, levels);
    forall l | l in levels
      ensures l in Keys(L) <==> |Pick(rows, MinorsLevel(l))| > 0
    {
      if |Pick(rows, MinorsLevel(l))| > 0 {
        var k :| 0 <= k < |L| && L[k] == LevelLine(rows, l);
        assert Keys(L)[k] == l;
      }
    }
  }

  /** The keys of total lines, in order. */
  function Keys(out: seq<Line>): (ks: seq<string>)
    ensures |ks| == |out| && forall k :: 0 <= k < |out| ==> ks[k] == KeyOf(out[k])
  {
    seq(|out|, k requires 0 <= k < |out| => KeyOf(out[k]))
  }

  /** Formatting each line. */
  function Written(lines: seq<Line>): (out: seq<Csv.Row>)
    ensures |out| == |lines|
  {
    seq(|lines|, k requires 0 <= k < |lines| => FormatOutputRow(lines[k].stats, lines[k].over))
  }

  /** `process_stats()` minus the files: the rows written to the CSV, in order. */
  function ProcessStats(rows: seq<StatsRow>): seq<Csv.Row> {
    Written(ProcessLines(rows))
  }
}

=== FILE: producer.dfy ===
/** The per-row part of the stats converter (tools/process_stats.py): reading a
    raw Baseball-Reference record, innings notation, summing a group of rows and
    writing one output row. Innings are counted in outs (thirds of an inning),
    so the converter's floating-point tolerance is replaced by exact arithmetic. */
module Producer {
  import opened Wrappers
  import opened Text
  import Csv

  // ------------------------------------------------------------------ tables

  /** Baseball-Reference level codes and the level names written out. */
  const LevelMap: map<string, string> := map[
    "NCAA" := "NCAA", "Smr" := "Summer", "Ind" := "Independent", "Rk" := "Rk+",
    "A-" := "A-", "A+" := "A+", "AA" := "AA", "AAA" := "AAA"]

  /** The category of each level code. */
  const CategoryMap: map<string, string> := map[
    "NCAA" := "College", "Smr" := "Summer", "Ind" := "Independent", "Rk" := "Minors",
    "A-" := "Minors", "A+" := "Minors", "AA" := "Minors", "AAA" := "Minors"]

  /** Minor-league levels from lowest to highest: the order of the level totals. */
  const LevelOrder: seq<string> := ["Rk+", "A-", "A+", "AA", "AAA"]

  const TeamAbbrev: map<string, string> := map[
    "Johns Hopkins" := "JHU", "Baltimore Dodgers" := "BAL", "Westside" := "WST",
    "Brooklyn" := "BRK", "Kingsport" := "KNG", "Binghamton" := "BNG",
    "Syracuse" := "SYR", "Jersey Shore" := "JS", "Reading" := "REA"]

  /** Parent clubs by affiliate code. */
  const OrgMap: map<string, string> := map["NYM" := "Mets", "PHI" := "Phillies"]

  /** The organisation of the categories that have no parent club. */
  const CategoryOrg: map<string, string> := map[
    "College" := "Johns Hopkins", "Summer" := "Baltimore", "Independent" := "Westside"]

  /** The categories in output order. */
  const CategoryNames: seq<string> := ["College", "Summer", "Independent", "Minors"]

  // -------------------------------------------------------------- raw records

  /** A record as the CSV dictionary reader yields it: every header is a key,
      and a header past the end of a short line has the value None. */
  type RawRow = map<string, Option<string>>

  /** `row.get(key)`: None for a missing key as well as for a None value. */
  function RawGet(row: RawRow, key: string): Option<string> {
    if key in row then row[key] else None
  }

  /** `row.get(key, default)`: the default only replaces a missing key. */
  function RawGetOr(row: RawRow, key: string, default: string): Option<string> {
    if key in row then row[key] else Some(default)
  }

  /** Why a record cannot be read: a None where the converter calls a string
      operation (it raises), or innings text outside the modelled forms. */
  datatype ReadError = MissingValue(column: string) | UnmodelledInnings(text: string)

  // ----------------------------------------------------------------- safe_int

  /** `safe_int(val, default)`: Python's `int` of the text, or the default for
      None, "", "-" and anything `int` rejects. */
  function SafeInt(val: Option<string>, default: int): (n: int)
    ensures val.None? || val == Some("") || val == Some("-") ==> n == default
    ensures val.Some? && val.value != "" && val.value != "-" && PyInt(val.value).Some? ==>
              n == PyInt(val.value).value
    ensures val.Some? && PyInt(val.value).None? ==> n == default
  {
    if val.None? || val.value == "" || val.value == "-" then default
    else
      match PyInt(val.value)
      case Some(v) => v
      case None => default
  }

  /** Every integer the converter writes is read back unchanged. */
  lemma SafeIntOfIntToString(n: int, default: int)
    ensures SafeInt(Some(IntToString(n)), default) == n
  {
    PyIntOfIntToString(n);
  }

  // ------------------------------------------------------- innings pitched

  /** Position of the first `c` in `s`, or `|s|`. */
  function FindChar(s: string, c: char): (i: nat)
    ensures i <= |s| && c !in s[..i]
    ensures i < |s| ==> s[i] == c
  {
    if |s| == 0 then 0
    else if s[0] == c then 0
    else
      var k := FindChar(s[1..], c);
      assert s[..k + 1] == [s[0]] + s[1..][..k];
      k + 1
  }

  /** FindChar stops at the first `c`. */
  lemma {:induction false} FindCharAt(s: string, c: char, i: nat)
    requires i < |s| && s[i] == c && c !in s[..i]
    ensures FindChar(s, c) == i
  {
    if i > 0 {
      assert s[0] in s[..i];
      assert s[1..][..i - 1] == s[1..i];
      assert c !in s[1..i] by {
        assert forall k :: 0 <= k < i - 1 ==> s[1..i][k] == s[..i][k + 1];
      }
      FindCharAt(s[1..], c, i - 1);
    }
  }

  /** The digits after the point name a whole number of thirds: one digit 0, 1
      or 2, then only zeros ("20.10" is 20.1). */
  predicate IsThirdsFraction(f: string) {
    |f| > 0 && f[0] in "012" && forall k :: 1 <= k < |f| ==> f[k] == '0'
  }

  /** `parse_ip(ip_str)` in outs: None, "" and "-" are no innings; otherwise
      "N", "N.", ".k" or "N.k…" with N digits and k a digit 0, 1 or 2 followed
      only by zeros mean 3N + k outs. Any other text is not modelled. */
  function ParseIp(v: Option<string>): (r: Result<nat, ReadError>)
    ensures v.None? || v == Some("") || v == Some("-") ==> r == Success(0)
    ensures r.Failure? ==> r.error == UnmodelledInnings(v.value)
  {
    if v.None? || v.value == "" || v.value == "-" then Success(0)
    else
      var s := v.value;
      var p := FindChar(s, '.');
      var whole := s[..p];
      var frac := if p < |s| then s[p + 1..] else "";
      if !AllDigits(whole) || (|whole| == 0 && |frac| == 0) then Failure(UnmodelledInnings(s))
      else if frac == "" then Success(3 * DigitsValue(whole))
      else if IsThirdsFraction(frac) then Success(3 * DigitsValue(whole) + DigitValue(frac[0]))
      else Failure(UnmodelledInnings(s))
  }

  /** `format_ip(ip)`: whole innings, a point, and the number of extra outs. */
  function FormatIp(outs: nat): (s: string)
    ensures |s| >= 3 && s[|s| - 2] == '.' && s[|s| - 1] in "012"
    ensures IsCanonicalNumeral(s[..|s| - 2]) && 3 * DigitsValue(s[..|s| - 2]) + DigitValue(s[|s| - 1]) == outs
  {
    var w := NatToString(outs / 3);
    var s := w + "." + [DigitChar(outs % 3)];
    assert s[..|s| - 2] == w;
    s
  }

  /** The converter reads back every innings figure it writes. */
  lemma ParseFormatIp(outs: nat)
    ensures ParseIp(Some(FormatIp(outs))) == Success(outs)
  {
    var s := FormatIp(outs);
    var w := s[..|s| - 2];
    assert '.' !in w;
    FindCharAt(s, '.', |s| - 2);
    assert s[|s| - 1..] == [s[|s| - 1]];
  }

  /** And writes back every canonical "N.k" it reads. */
  lemma FormatParseIp(w: string, k: char)
    requires IsCanonicalNumeral(w) && k in "012"
    ensures ParseIp(Some(w + "." + [k])).Success?
    ensures FormatIp(ParseIp(Some(w + "." + [k])).value) == w + "." + [k]
  {
    var s := w + "." + [k];
    assert s[..|w|] == w && s[|w| + 1..] == [k];
    assert '.' !in w && s[|w|] == '.';
    FindCharAt(s, '.', |w|);
    var outs := 3 * DigitsValue(w) + DigitValue(k);
    assert ParseIp(Some(s)) == Success(outs);
    NatToStringOfValue(w);
    assert outs / 3 == DigitsValue(w) && outs % 3 == DigitValue(k);
    assert DigitChar(DigitValue(k)) == k;
  }

  // -------------------------------------------------------------- stat rows

  /** The counting statistics summed by the converter. */
  datatype Stat = W | L | G | GS | CG | SHO | SV | H | R | ER | HR | BB | IBB | SO | HBP | BF

  const AllStats: seq<Stat> := [W, L, G, GS, CG, SHO, SV, H, R, ER, HR, BB, IBB, SO, HBP, BF]

  /** The Baseball-Reference column each statistic is read from. */
  function SourceColumn(st: Stat): string {
    match st
    case W => "W" case L => "L" case G => "G" case GS => "GS" case CG => "CG"
    case SHO => "SHO" case SV => "SV" case H => "H" case R => "R" case ER => "ER"
    case HR => "HR" case BB => "BB" case IBB => "IBB" case SO => "SO"
    case HBP => "HBP" case BF => "BF"
  }

  /** The output column a statistic is written to; batters faced is not written. */
  function OutputColumn(st: Stat): Option<string> {
    match st
    case HBP => Some("HB")
    case BF => None
    case _ => Some(SourceColumn(st))
  }

  datatype Counts = Counts(
    w: int, l: int, g: int, gs: int, cg: int, sho: int, sv: int, h: int,
    r: int, er: int, hr: int, bb: int, ibb: int, so: int, hbp: int, bf: int)
  {
    function Get(st: Stat): int {
      match st
      case W => w case L => l case G => g case GS => gs case CG => cg case SHO => sho
      case SV => sv case H => h case R => r case ER => er case HR => hr case BB => bb
      case IBB => ibb case SO => so case HBP => hbp case BF => bf
    }
  }

  /** The counts whose every statistic is `f` of it. */
  function CountsOf(f: Stat -> int): (c: Counts)
    ensures forall st :: c.Get(st) == f(st)
  {
    Counts(f(W), f(L), f(G), f(GS), f(CG), f(SHO), f(SV), f(H), f(R), f(ER), f(HR),
           f(BB), f(IBB), f(SO), f(HBP), f(BF))
  }

  /** `StatsRow` without its floating-point fields (ERA, WHIP); innings in outs. */
  datatype StatsRow = StatsRow(
    year: string, team: string, league: Option<string>, level: string,
    category: string, org: string, counts: Counts, outs: nat)

  // ---------------------------------------------------------- read_bbref_stats

  /** Whether the year cell counts as blank: missing, None, or only whitespace. */
  predicate BlankYear(raw: RawRow) {
    RawGet(raw, "Year").None? || Trim(PySpaces, RawGet(raw, "Year").value) == ""
  }

  /** The organisation of a kept row: the parent club of a known affiliate code,
      else the category's default, else "-". */
  function OrgOf(aff: string, category: string): (org: string)
    ensures org in {"Mets", "Phillies", "Johns Hopkins", "Baltimore", "Westside", "-"}
    ensures org == "-" <==> aff !in OrgMap && category !in CategoryOrg
    ensures aff in OrgMap ==> org == OrgMap[aff]
    ensures aff !in OrgMap && category in CategoryOrg ==> org == CategoryOrg[category]
  {
    if aff != "" && aff in OrgMap then OrgMap[aff]
    else if category in CategoryOrg then CategoryOrg[category]
    else "-"
  }

  /** One iteration of the reading loop: Success(None) skips the record (blank
      year, a "Teams"/"teams" total, an unknown level), Success(Some(row)) keeps it. */
  function ReadRow(raw: RawRow): (r: Result<Option<StatsRow>, ReadError>)
    ensures BlankYear(raw) ==> r == Success(None)
    ensures r == Success(None) <==>
              || BlankYear(raw)
              || (&& RawGetOr(raw, "Tm", "").Some?
                  && (|| Contains(RawGetOr(raw, "Tm", "").value, "Teams")
                      || Contains(RawGetOr(raw, "Tm", "").value, "teams")
                      || RawGetOr(raw, "Lev", "").None?
                      || RawGetOr(raw, "Lev", "").value !in LevelMap))
    ensures r == Failure(MissingValue("Tm")) <==> !BlankYear(raw) && RawGetOr(raw, "Tm", "").None?
    ensures r.Success? && r.value.Some? <==>
              && !BlankYear(raw)
              && RawGetOr(raw, "Tm", "").Some?
              && !Contains(RawGetOr(raw, "Tm", "").value, "Teams")
              && !Contains(RawGetOr(raw, "Tm", "").value, "teams")
              && RawGetOr(raw, "Lev", "").Some? && RawGetOr(raw, "Lev", "").value in LevelMap
              && RawGetOr(raw, "Aff", "").Some?
              && ParseIp(RawGetOr(raw, "IP", "0")).Success?
    ensures r.Success? && r.value.Some? ==>
              var lev := RawGetOr(raw, "Lev", "").value;
              var row := r.value.value;
              && row.year == RawGet(raw, "Year").value
              && row.level == LevelMap[lev] && row.category == CategoryMap[lev]
              && row.org == OrgOf(Trim(PySpaces, RawGetOr(raw, "Aff", "").value), row.category)
              && row.outs == ParseIp(RawGetOr(raw, "IP", "0")).value
              && forall st :: row.counts.Get(st) == SafeInt(RawGet(raw, SourceColumn(st)), 0)
  {
    if BlankYear(raw) then Success(None)
    else
      var team := RawGetOr(raw, "Tm", "");
      if team.None? then Failure(MissingValue("Tm"))
      else if Contains(team.value, "Teams") || Contains(team.value, "teams") then Success(None)
      else
        var level := RawGetOr(raw, "Lev", "");
        if level.None? || level.value !in LevelMap then Success(None)
        else
          var category := CategoryMap[level.value];
          var aff := RawGetOr(raw, "Aff", "");
          if aff.None? then Failure(MissingValue("Aff"))
          else
            var org := OrgOf(Trim(PySpaces, aff.value), category);
            var outs :- ParseIp(RawGetOr(raw, "IP", "0"));
            var counts := CountsOf(st => SafeInt(RawGet(raw, SourceColumn(st)), 0));
            Success(Some(StatsRow(RawGet(raw, "Year").value, team.value, RawGetOr(raw, "Lg", ""),
                                  LevelMap[level.value], category, org, counts, outs)))
  }

  /** The reading loop over any per-record reader `f`: the kept results in
      input order, or the first error. */
  function CollectKept<A, B(==,!new), E(==)>(xs: seq<A>, f: A -> Result<Option<B>, E>): (r: Result<seq<B>, E>)
    ensures r.Success? <==> forall i :: 0 <= i < |xs| ==> f(xs[i]).Success?
    ensures r.Failure? ==> exists i :: FirstFailureAt(xs, f, i) && f(xs[i]) == Failure(r.error)
    ensures r.Success? ==> r.value == Somes(Outcomes(xs, f))
    ensures r.Success? ==> |r.value| <= |xs|
    ensures r.Success? ==> forall y :: y in r.value <==> KeptBy(xs, f, y)
  {
    if |xs| == 0 then Success([])
    else
      var n := |xs| - 1;
      var init := CollectKept(xs[..n], f);
      CollectStep(xs, f);
      OutcomesSnoc(xs, f);
      if init.Failure? then
        FailureKept(xs, xs[..n], f, init.error);
        init
      else
        match f(xs[n])
        case Failure(e) =>
          LastFailure(xs, xs[..n], f);
          Failure(e)
        case Success(None) => init
        case Success(Some(y)) => Success(init.value + [y])
  }

  /** What each element reads as, a failure counting as nothing. */
  function Outcomes<A, B, E>(xs: seq<A>, f: A -> Result<Option<B>, E>): (o: seq<Option<B>>)
    ensures |o| == |xs|
  {
    seq(|xs|, i requires 0 <= i < |xs| => if f(xs[i]).Success? then f(xs[i]).value else None)
  }

  /** Element `i` is the first that fails. */
  predicate FirstFailureAt<A, B, E>(xs: seq<A>, f: A -> Result<Option<B>, E>, i: int) {
    0 <= i < |xs| && f(xs[i]).Failure? && forall j :: 0 <= j < i ==> f(xs[j]).Success?
  }

  lemma OutcomesSnoc<A, B, E>(xs: seq<A>, f: A -> Result<Option<B>, E>)
    requires |xs| > 0
    ensures Outcomes(xs, f)[..|xs| - 1] == Outcomes(xs[..|xs| - 1], f)
  {
    var n := |xs| - 1;
    assert forall i :: 0 <= i < n ==> xs[..n][i] == xs[i];
  }

  /** A first failure among the earlier elements is the first failure of all. */
  lemma FailureKept<A, B, E>(xs: seq<A>, init: seq<A>, f: A -> Result<Option<B>, E>, e: E)
    requires |xs| > 0 && init == xs[..|xs| - 1]
    requires exists i :: FirstFailureAt(init, f, i) && f(init[i]) == Failure(e)
    ensures exists i :: FirstFailureAt(xs, f, i) && f(xs[i]) == Failure(e)
  {
    var n := |xs| - 1;
    var i :| FirstFailureAt(init, f, i) && f(init[i]) == Failure(e);
    assert xs[..n][i] == xs[i];
    forall j | 0 <= j < i
      ensures f(xs[j]).Success?
    {
      assert xs[..n][j] == xs[j];
    }
    assert FirstFailureAt(xs, f, i);
  }

  /** The last element fails after every earlier one succeeded. */
  lemma LastFailure<A, B, E>(xs: seq<A>, init: seq<A>, f: A -> Result<Option<B>, E>)
    requires |xs| > 0 && init == xs[..|xs| - 1] && f(xs[|xs| - 1]).Failure?
    requires forall i :: 0 <= i < |init| ==> f(init[i]).Success?
    ensures FirstFailureAt(xs, f, |xs| - 1)
  {
    var n := |xs| - 1;
    forall j | 0 <= j < n
      ensures f(xs[j]).Success?
    {
      assert xs[..n][j] == xs[j];
    }
  }

  /** Some element of `xs` is read as `y`. */
  predicate KeptBy<A, B(==), E(==)>(xs: seq<A>, f: A -> Result<Option<B>, E>, y: B) {
    exists i :: 0 <= i < |xs| && f(xs[i]) == Success(Some(y))
  }

  /** What the last element adds to the elements before it. */
  lemma CollectStep<A, B, E>(xs: seq<A>, f: A -> Result<Option<B>, E>)
    requires |xs| > 0
    ensures var n := |xs| - 1;
            && (forall y :: KeptBy(xs, f, y) <==> KeptBy(xs[..n], f, y) || f(xs[n]) == Success(Some(y)))
            && (forall e :: (exists i :: 0 <= i < |xs| && f(xs[i]) == Failure(e)) <==>
                  (exists i :: 0 <= i < n && f(xs[..n][i]) == Failure(e)) || f(xs[n]) == Failure(e))
            && ((forall i :: 0 <= i < |xs| ==> f(xs[i]).Success?) <==>
                (forall i :: 0 <= i < n ==> f(xs[..n][i]).Success?) && f(xs[n]).Success?)
  {
    var n := |xs| - 1;
    assert forall i :: 0 <= i < n ==> xs[..n][i] == xs[i];
    forall y
      ensures KeptBy(xs, f, y) <==> KeptBy(xs[..n], f, y) || f(xs[n]) == Success(Some(y))
    {
      if KeptBy(xs, f, y) {
        var i :| 0 <= i < |xs| && f(xs[i]) == Success(Some(y));
        if i < n {
          assert xs[..n][i] == xs[i];
        }
      }
    }
    forall e
      ensures (exists i :: 0 <= i < |xs| && f(xs[i]) == Failure(e)) <==>
              (exists i :: 0 <= i < n && f(xs[..n][i]) == Failure(e)) || f(xs[n]) == Failure(e)
    {
      if exists i :: 0 <= i < |xs| && f(xs[i]) == Failure(e) {
        var i :| 0 <= i < |xs| && f(xs[i]) == Failure(e);
        if i < n {
          assert xs[..n][i] == xs[i];
        }
      }
    }
  }

  /** `read_bbref_stats()` minus the file: the kept rows in input order, or the
      first error raised. */
  function ReadRows(raws: seq<RawRow>): (r: Result<seq<StatsRow>, ReadError>)
    ensures r.Success? <==> forall i :: 0 <= i < |raws| ==> ReadRow(raws[i]).Success?
    ensures r.Success? ==> forall x :: x in r.value <==> exists i :: 0 <= i < |raws| && ReadRow(raws[i]) == Success(Some(x))
    ensures r.Success? ==> r.value == Somes(Outcomes(raws, ReadRow))
    ensures r.Failure? ==> exists i :: FirstFailureAt(raws, ReadRow, i) && ReadRow(raws[i]) == Failure(r.error)
  {
    CollectKept(raws, ReadRow)
  }

  /** A record written with a canonical numeral for every statistic and a
      canonical innings figure is read back to exactly those numbers. */
  lemma ReadRowNumbers(raw: RawRow, counts: Counts, outs: nat)
    requires forall st :: RawGet(raw, SourceColumn(st)) == Some(IntToString(counts.Get(st)))
    requires RawGetOr(raw, "IP", "0") == Some(FormatIp(outs))
    requires ReadRow(raw).Success? && ReadRow(raw).value.Some?
    ensures ReadRow(raw).value.value.counts == counts
    ensures ReadRow(raw).value.value.outs == outs
  {
    ParseFormatIp(outs);
    forall st
      ensures SafeInt(RawGet(raw, SourceColumn(st)), 0) == counts.Get(st)
    {
      SafeIntOfIntToString(counts.Get(st), 0);
    }
    CountsEqual(ReadRow(raw).value.value.counts, counts);
  }

  /** Counts are equal when they agree on every statistic. */
  lemma CountsEqual(a: Counts, b: Counts)
    requires forall st :: a.Get(st) == b.Get(st)
    ensures a == b
  {
    assert a.Get(W) == b.Get(W) && a.Get(L) == b.Get(L) && a.Get(G) == b.Get(G);
    assert a.Get(GS) == b.Get(GS) && a.Get(CG) == b.Get(CG) && a.Get(SHO) == b.Get(SHO);
    assert a.Get(SV) == b.Get(SV) && a.Get(H) == b.Get(H) && a.Get(R) == b.Get(R);
    assert a.Get(ER) == b.Get(ER) && a.Get(HR) == b.Get(HR) && a.Get(BB) == b.Get(BB);
    assert a.Get(IBB) == b.Get(IBB) && a.Get(SO) == b.Get(SO) && a.Get(HBP) == b.Get(HBP);
    assert a.Get(BF) == b.Get(BF);
  }

  // ---------------------------------------------------------- aggregate_stats

  /** A summed quantity: a counting statistic, or innings in outs. */
  datatype Measure = Counted(st: Stat) | Outs

  function Value(r: StatsRow, m: Measure): int {
    match m
    case Counted(st) => r.counts.Get(st)
    case Outs => r.outs
  }

  /** `sum(r.<m> for r in rows)`; a sum of outs is never negative. */
  function SumOf(rows: seq<StatsRow>, m: Measure): (n: int)
    ensures m == Outs ==> n >= 0
  {
    if |rows| == 0 then 0 else SumOf(rows[..|rows| - 1], m) + Value(rows[|rows| - 1], m)
  }

  /** Sums split over a concatenation. */
  lemma {:induction false} SumAppend(a: seq<StatsRow>, b: seq<StatsRow>, m: Measure)
    ensures SumOf(a + b, m) == SumOf(a, m) + SumOf(b, m)
    decreases |b|
  {
    if |b| == 0 {
      assert a + b == a;
    } else {
      var n := |b| - 1;
      assert (a + b)[..|a + b| - 1] == a + b[..n];
      SumAppend(a, b[..n], m);
    }
  }

  /** The label of an aggregate over `n` teams: "1 team", "2 teams", …
      Up to its first space it is the numeral of `n`; after it comes the word,
      plural exactly when `n` is above one. */
  function TeamLabel(n: nat): (s: string)
    ensures var k := FindChar(s, ' ');
            && k < |s| && IsCanonicalNumeral(s[..k]) && DigitsValue(s[..k]) == n
            && (s[k..] == " team" || s[k..] == " teams")
            && (s[k..] == " teams" <==> n > 1)
  {
    var w := NatToString(n);
    var tail := " team" + (if n > 1 then "s" else "");
    NumeralThenSpace(w, tail);
    w + tail
  }

  /** A run of digits followed by text that starts with a space is cut at that space. */
  lemma NumeralThenSpace(w: string, t: string)
    requires AllDigits(w) && |t| > 0 && t[0] == ' '
    ensures FindChar(w + t, ' ') == |w|
    ensures (w + t)[..|w|] == w && (w + t)[|w|..] == t
  {
    var s := w + t;
    var k := FindChar(s, ' ');
    assert s[|w|] == ' ';
    assert k < |w| ==> s[k] == w[k] && !IsDigit(' ');
  }

  /** `aggregate_stats(rows)` for a non-empty group. */
  function AggregateOf(rows: seq<StatsRow>): (a: StatsRow)
    requires |rows| > 0
    ensures a.year == rows[0].year && a.org == rows[0].org
    ensures a.category == rows[0].category && a.level == rows[0].category
    ensures a.team == TeamLabel(|rows|) && a.league == Some("-")
    ensures forall m :: Value(a, m) == SumOf(rows, m)
  {
    StatsRow(rows[0].year, TeamLabel(|rows|), Some("-"), rows[0].category, rows[0].category,
             rows[0].org, CountsOf(st => SumOf(rows, Counted(st))), SumOf(rows, Outs))
  }

  datatype AggregateError = EmptyGroup

  /** `aggregate_stats(rows)`: raises on an empty list. */
  function Aggregate(rows: seq<StatsRow>): (r: Result<StatsRow, AggregateError>)
    ensures r.Failure? <==> |rows| == 0
    ensures r.Success? ==> r.value == AggregateOf(rows)
  {
    if |rows| == 0 then Failure(EmptyGroup) else Success(AggregateOf(rows))
  }

  // -------------------------------------------------------- format_output_row

  /** The optional arguments of `format_output_row`; None is "not given". */
  datatype Overrides = Overrides(team: Option<string>, level: Option<string>,
                                 season: Option<string>, org: Option<string>)

  const NoOverrides: Overrides := Overrides(None, None, None, None)

  /** How the CSV writer prints an optional cell: None becomes empty. */
  function CellText(v: Option<string>): string {
    if v.Some? then v.value else ""
  }

  /** Python's `x or y` on optional strings: None and "" are falsy. */
  function OrElse(x: Option<string>, y: string): string {
    if x.Some? && x.value != "" then x.value else y
  }

  /** The written text of a statistic: SV of 0 is written as "-". */
  function StatText(st: Stat, n: int): (s: string)
    ensures st == SV && n == 0 <==> s == "-"
  {
    if st == SV && n == 0 then "-" else IntToString(n)
  }

  /** The output columns of the written statistics. */
  const StatColumns: seq<string> :=
    ["W", "L", "G", "GS", "CG", "SHO", "SV", "H", "R", "ER", "HR", "HB", "BB", "IBB", "SO"]

  /** The statistic written to an output column. */
  function StatOfColumn(col: string): Stat {
    if col == "W" then W else if col == "L" then L else if col == "G" then G
    else if col == "GS" then GS else if col == "CG" then CG else if col == "SHO" then SHO
    else if col == "SV" then SV else if col == "H" then H else if col == "R" then R
    else if col == "ER" then ER else if col == "HR" then HR else if col == "HB" then HBP
    else if col == "BB" then BB else if col == "IBB" then IBB else SO
  }

  /** Every written statistic has a column, and the column names it back. */
  lemma OutputColumnOf(st: Stat)
    requires OutputColumn(st).Some?
    ensures OutputColumn(st).value in StatColumns
    ensures StatOfColumn(OutputColumn(st).value) == st
  {
    match st
    case W => case L => case G => case GS => case CG => case SHO => case SV => case H =>
    case R => case ER => case HR => case BB => case IBB => case SO => case HBP =>
  }

  /** The cells of the written statistics. */
  function StatCells(c: Counts): Csv.Row {
    map col | col in StatColumns :: StatText(StatOfColumn(col), c.Get(StatOfColumn(col)))
  }

  /** The other written columns, without the floating-point ERA and WHIP. */
  const LabelColumns: seq<string> :=
    ["Season", "Team", "LG", "Level", "Org", "HLD", "SVO", "IP", "NP", "AVG", "GO/AO"]

  /** No at-bats against: the case in which `calculate_avg` returns "-". */
  predicate NoAtBats(c: Counts) {
    c.bf - c.bb - c.hbp <= 0
  }

  /** The text of a column that is not a statistic; the unrecorded ones read "-". */
  function LabelCell(s: StatsRow, o: Overrides, col: string): string {
    if col == "Season" then (if o.season.Some? then o.season.value else s.year)
    else if col == "Team" then OrElse(o.team, if s.team in TeamAbbrev then TeamAbbrev[s.team] else s.team)
    else if col == "LG" then CellText(s.league)
    else if col == "Level" then OrElse(o.level, s.level)
    else if col == "Org" then (if o.org.Some? then o.org.value else s.org)
    else if col == "IP" then FormatIp(s.outs)
    else "-"
  }

  /** The cells of the other columns; AVG only where its guard decides it. */
  function LabelCells(s: StatsRow, o: Overrides): Csv.Row {
    map col | col in LabelColumns && (col == "AVG" ==> NoAtBats(s.counts)) :: LabelCell(s, o, col)
  }

  /** `format_output_row(stats, …)` with ERA and WHIP left out; AVG is written
      only where its integer guard decides it ("-" when there are no at-bats). */
  function FormatOutputRow(s: StatsRow, o: Overrides): Csv.Row {
    StatCells(s.counts) + LabelCells(s, o)
  }

  /** No statistic column is also a label column. */
  lemma StatColumnsNotLabels()
    ensures forall col :: col in StatColumns ==> col !in LabelColumns
  {
  }

  /** The season and organisation columns: the overrides apply whenever given. */
  lemma FormattedSeasonOrg(s: StatsRow, o: Overrides)
    ensures "Season" in FormatOutputRow(s, o) && "Org" in FormatOutputRow(s, o)
    ensures FormatOutputRow(s, o)["Season"] == if o.season.Some? then o.season.value else s.year
    ensures FormatOutputRow(s, o)["Org"] == if o.org.Some? then o.org.value else s.org
  {
    assert "Season" in LabelColumns && "Org" in LabelColumns;
  }

  /** The team column: a non-empty override, else the abbreviation, else the
      name as it is. */
  lemma FormattedTeam(s: StatsRow, o: Overrides)
    ensures "Team" in FormatOutputRow(s, o)
    ensures o.team.Some? && o.team.value != "" ==> FormatOutputRow(s, o)["Team"] == o.team.value
    ensures (o.team.None? || o.team == Some("")) && s.team in TeamAbbrev ==>
              FormatOutputRow(s, o)["Team"] == TeamAbbrev[s.team]
    ensures (o.team.None? || o.team == Some("")) && s.team !in TeamAbbrev ==>
              FormatOutputRow(s, o)["Team"] == s.team
  {
    assert "Team" in LabelColumns;
  }

  /** The level column: a non-empty override, else the row's level. */
  lemma FormattedLevel(s: StatsRow, o: Overrides)
    ensures "Level" in FormatOutputRow(s, o)
    ensures FormatOutputRow(s, o)["Level"] == if o.level.Some? && o.level.value != "" then o.level.value else s.level
  {
    assert "Level" in LabelColumns;
  }

  /** The innings cell reads back as the row's outs. */
  lemma FormattedInnings(s: StatsRow, o: Overrides)
    ensures "IP" in FormatOutputRow(s, o)
    ensures ParseIp(Some(FormatOutputRow(s, o)["IP"])) == Success(s.outs)
  {
    assert "IP" in LabelColumns;
    ParseFormatIp(s.outs);
  }

  /** A written statistic's cell holds its text. */
  lemma FormattedStatCell(s: StatsRow, o: Overrides, st: Stat)
    requires OutputColumn(st).Some?
    ensures OutputColumn(st).value in FormatOutputRow(s, o)
    ensures FormatOutputRow(s, o)[OutputColumn(st).value] == StatText(st, s.counts.Get(st))
  {
    OutputColumnOf(st);
    StatColumnsNotLabels();
  }

  /** Every written statistic reads back, through `safe_int`, as its count. */
  lemma FormattedStats(s: StatsRow, o: Overrides)
    ensures forall st :: OutputColumn(st).Some? ==>
              && OutputColumn(st).value in FormatOutputRow(s, o)
              && SafeInt(Some(FormatOutputRow(s, o)[OutputColumn(st).value]), 0) == s.counts.Get(st)
  {
    forall st | OutputColumn(st).Some?
      ensures OutputColumn(st).value in FormatOutputRow(s, o)
      ensures SafeInt(Some(FormatOutputRow(s, o)[OutputColumn(st).value]), 0) == s.counts.Get(st)
    {
      FormattedStatCell(s, o, st);
      SafeIntOfStatText(st, s.counts.Get(st));
    }
  }

  /** SV is written as "-" exactly when it is zero. */
  lemma FormattedSaves(s: StatsRow, o: Overrides)
    ensures "SV" in FormatOutputRow(s, o)
    ensures FormatOutputRow(s, o)["SV"] == "-" <==> s.counts.sv == 0
    ensures s.counts.sv != 0 ==> FormatOutputRow(s, o)["SV"] == IntToString(s.counts.sv)
  {
    SavesColumn(s.counts);
    FormattedStatCell(s, o, SV);
    SavesCell(FormatOutputRow(s, o), s.counts.sv);
  }

  lemma SavesColumn(c: Counts)
    ensures OutputColumn(SV) == Some("SV") && c.Get(SV) == c.sv
  {
  }

  /** A row whose SV cell holds the text of `n` saves. */
  lemma SavesCell(row: Csv.Row, n: int)
    requires "SV" in row && row["SV"] == StatText(SV, n)
    ensures row["SV"] == "-" <==> n == 0
    ensures n != 0 ==> row["SV"] == IntToString(n)
  {
  }

  /** `safe_int` undoes StatText, including the "-" written for SV = 0. */
  lemma SafeIntOfStatText(st: Stat, n: int)
    ensures SafeInt(Some(StatText(st, n)), 0) == n
  {
    if st != SV || n != 0 {
      SafeIntOfIntToString(n, 0);
    }
  }

  /** AVG is written, as "-", exactly when there are no at-bats. */
  lemma FormattedAvg(s: StatsRow, o: Overrides)
    ensures "AVG" in FormatOutputRow(s, o) <==> NoAtBats(s.counts)
    ensures "AVG" in FormatOutputRow(s, o) ==> FormatOutputRow(s, o)["AVG"] == "-"
  {
    assert "AVG" in LabelColumns && "AVG" !in StatColumns;
  }
}

=== FILE: seqs.dfy ===
/** Small facts about sequences used by the row classifiers. */
module Seqs {

  predicate NoDup<T(==)>(s: seq<T>) {
    forall i, j :: 0 <= i < j < |s| ==> s[i] != s[j]
  }

  /** Position of the first occurrence of `x` (`indexOf`). */
  function FirstIndex<T(==)>(s: seq<T>, x: T): (i: nat)
    requires x in s
    ensures i < |s| && s[i] == x
    ensures forall j :: 0 <= j < i ==> s[j] != x
  {
    if s[0] == x then 0 else 1 + FirstIndex(s[1..], x)
  }

  /** `r` holds every element of `s` exactly once, ordered by where each first
      appears in `s`. */
  predicate IsDedupOf<T(==)>(s: seq<T>, r: seq<T>) {
    && NoDup(r)
    && (forall i :: 0 <= i < |r| ==> r[i] in s)
    && (forall i :: 0 <= i < |s| ==> s[i] in r)
    && (forall i, j :: 0 <= i < j < |r| ==> FirstIndex(s, r[i]) < FirstIndex(s, r[j]))
  }

  /** `s` without repeats, each element kept at its first occurrence: the list
      that `if (!list.includes(x)) list.push(x)` builds. */
  function Dedup<T(==)>(s: seq<T>): (r: seq<T>)
    ensures IsDedupOf(s, r)
  {
    if |s| == 0 then []
    else
      var n := |s| - 1;
      var d := Dedup(s[..n]);
      DedupStep(s, d);
      if s[n] in d then d else d + [s[n]]
  }

  /** An element of a prefix first occurs where it first occurs in the prefix. */
  lemma FirstIndexInPrefix<T>(s: seq<T>, n: nat, y: T)
    requires n <= |s| && y in s[..n]
    ensures FirstIndex(s, y) == FirstIndex(s[..n], y) < n
  {
    var a := FirstIndex(s[..n], y);
    var b := FirstIndex(s, y);
    assert s[..n][a] == s[a];
    if b < n {
      assert s[..n][b] == s[b];
    }
  }

  /** One step of Dedup: the last element joins the list only when new. */
  lemma DedupStep<T>(s: seq<T>, d: seq<T>)
    requires |s| > 0 && IsDedupOf(s[..|s| - 1], d)
    ensures IsDedupOf(s, if s[|s| - 1] in d then d else d + [s[|s| - 1]])
  {
    if s[|s| - 1] in d {
      DedupKeep(s, d);
    } else {
      DedupAdd(s, d);
    }
  }

  /** A last element seen before changes nothing. */
  lemma DedupKeep<T>(s: seq<T>, d: seq<T>)
    requires |s| > 0 && IsDedupOf(s[..|s| - 1], d) && s[|s| - 1] in d
    ensures IsDedupOf(s, d)
  {
    var n := |s| - 1;
    forall i | 0 <= i < n
      ensures s[i] in d
    {
      assert s[i] == s[..n][i];
    }
    forall i | 0 <= i < |d|
      ensures d[i] in s
    {
      FirstIndexInPrefix(s, n, d[i]);
    }
    forall i, j | 0 <= i < j < |d|
      ensures FirstIndex(s, d[i]) < FirstIndex(s, d[j])
    {
      FirstIndexInPrefix(s, n, d[i]);
      FirstIndexInPrefix(s, n, d[j]);
    }
  }

  /** A new last element joins at the end. */
  lemma DedupAdd<T>(s: seq<T>, d: seq<T>)
    requires |s| > 0 && IsDedupOf(s[..|s| - 1], d) && s[|s| - 1] !in d
    ensures IsDedupOf(s, d + [s[|s| - 1]])
  {
    var n := |s| - 1;
    var r := d + [s[n]];
    forall i | 0 <= i < n
      ensures s[i] in d
    {
      assert s[i] == s[..n][i];
    }
    assert s[n] !in s[..n];
    assert FirstIndex(s, s[n]) == n;
    forall i | 0 <= i < |r|
      ensures r[i] in s
    {
      if i < |d| {
        assert r[i] == d[i];
        FirstIndexInPrefix(s, n, d[i]);
      }
    }
    forall i, j | 0 <= i < j < |r|
      ensures FirstIndex(s, r[i]) < FirstIndex(s, r[j])
    {
      assert r[i] == d[i];
      FirstIndexInPrefix(s, n, d[i]);
      if j < |d| {
        assert r[j] == d[j];
        FirstIndexInPrefix(s, n, d[j]);
      }
    }
  }

  /** Appending an element: it joins the list only when new. */
  lemma DedupSnoc<T>(s: seq<T>, x: T)
    ensures Dedup(s + [x]) == if x in s then Dedup(s) else Dedup(s) + [x]
  {
    assert (s + [x])[..|s|] == s;
  }

  /** The elements of `s` that satisfy `p`, in order (`Array.prototype.filter`). */
  function Filter<T(!new)>(s: seq<T>, p: T -> bool): (r: seq<T>)
    ensures |r| <= |s|
    ensures forall x :: x in r <==> x in s && p(x)
  {
    if |s| == 0 then []
    else
      var n := |s| - 1;
      var init := Filter(s[..n], p);
      assert s == s[..n] + [s[n]];
      if p(s[n]) then init + [s[n]] else init
  }

  /** Filtering one more element. */
  lemma FilterSnoc<T(!new)>(s: seq<T>, x: T, p: T -> bool)
    ensures Filter(s + [x], p) == Filter(s, p) + if p(x) then [x] else []
  {
    assert (s + [x])[..|s|] == s;
  }

  /** The filter keeps the input order: it distributes over concatenation. */
  lemma {:induction false} FilterAppend<T(!new)>(a: seq<T>, b: seq<T>, p: T -> bool)
    ensures Filter(a + b, p) == Filter(a, p) + Filter(b, p)
    decreases |b|
  {
    if |b| == 0 {
      assert a + b == a;
    } else {
      var init, x := b[..|b| - 1], b[|b| - 1];
      assert a + b == (a + init) + [x];
      assert b == init + [x];
      FilterAppend(a, init, p);
      FilterSnoc(a + init, x, p);
      FilterSnoc(init, x, p);
    }
  }

  /** Nothing passes the filter when no element satisfies `p`. */
  lemma {:induction false} FilterNone<T(!new)>(s: seq<T>, p: T -> bool)
    requires forall k :: 0 <= k < |s| ==> !p(s[k])
    ensures Filter(s, p) == []
    decreases |s|
  {
    if |s| > 0 {
      FilterNone(s[..|s| - 1], p);
    }
  }

  /** Everything passes the filter when every element satisfies `p`. */
  lemma {:induction false} FilterAll<T(!new)>(s: seq<T>, p: T -> bool)
    requires forall k :: 0 <= k < |s| ==> p(s[k])
    ensures Filter(s, p) == s
    decreases |s|
  {
    if |s| > 0 {
      var n := |s| - 1;
      FilterAll(s[..n], p);
      assert s == s[..n] + [s[n]];
    }
  }

  /** Two tests that agree on every element of `s` filter it alike. */
  lemma {:induction false} FilterAgree<T(!new)>(s: seq<T>, p: T -> bool, q: T -> bool)
    requires forall k :: 0 <= k < |s| ==> p(s[k]) == q(s[k])
    ensures Filter(s, p) == Filter(s, q)
    decreases |s|
  {
    if |s| > 0 {
      FilterAgree(s[..|s| - 1], p, q);
    }
  }

  /** Only the head passes when it alone satisfies `p`. */
  lemma FilterOnlyHead<T(!new)>(x: T, tail: seq<T>, p: T -> bool)
    requires p(x) && forall k :: 0 <= k < |tail| ==> !p(tail[k])
    ensures Filter([x] + tail, p) == [x]
  {
    assert [x][..0] == [];
    FilterNone(tail, p);
    FilterAppend([x], tail, p);
  }

  /** Only the first of four passes when it alone satisfies `p`. */
  lemma FilterFirstOfFour<T(!new)>(a: T, b: T, c: T, d: T, p: T -> bool)
    requires p(a) && !p(b) && !p(c) && !p(d)
    ensures Filter([a, b, c, d], p) == [a]
  {
    var tail := [b, c, d];
    assert tail[0] == b && tail[1] == c && tail[2] == d;
    FilterOnlyHead(a, tail, p);
    assert [a] + tail == [a, b, c, d];
  }

  /** `f` of each element of `s` that satisfies `p`, in order. */
  function Collect<T, U>(s: seq<T>, p: T -> bool, f: T -> U): seq<U> {
    if |s| == 0 then []
    else
      var n := |s| - 1;
      var init := Collect(s[..n], p, f);
      if p(s[n]) then init + [f(s[n])] else init
  }

  /** Collecting over one more element. */
  lemma CollectSnoc<T, U>(s: seq<T>, x: T, p: T -> bool, f: T -> U)
    ensures Collect(s + [x], p, f) == Collect(s, p, f) + if p(x) then [f(x)] else []
  {
    assert (s + [x])[..|s|] == s;
  }

  /** An element that fails `p` can be dropped anywhere without changing the result. */
  lemma {:induction false} CollectSkip<T, U>(a: seq<T>, r: T, b: seq<T>, p: T -> bool, f: T -> U)
    requires !p(r)
    ensures Collect(a + [r] + b, p, f) == Collect(a + b, p, f)
    decreases |b|
  {
    if |b| == 0 {
      assert a + [r] + b == a + [r] && a + b == a;
      CollectSnoc(a, r, p, f);
    } else {
      var init, x := b[..|b| - 1], b[|b| - 1];
      assert a + [r] + b == (a + [r] + init) + [x];
      assert a + b == (a + init) + [x];
      CollectSkip(a, r, init, p, f);
      CollectSnoc(a + [r] + init, x, p, f);
      CollectSnoc(a + init, x, p, f);
    }
  }
}

=== FILE: site_rows.dfy ===
/** How the web page's stats section sorts the parsed rows
    (script.js:366-432): career rows found by their `Season` label,
    season-aggregate rows picked out by two regular expressions, and the
    per-(season, category) list of levels built from the remaining season rows. */
module SiteRows {
  import opened Wrappers
  import opened Text
  import opened Csv
  import opened Seqs

  /** A field of a row as JavaScript reads it: absent is `undefined`. */
  function Get(row: Row, key: string): Option<string> {
    if key in row then Some(row[key]) else None
  }

  /** JavaScript's string conversion of a field value (regex tests, template
      strings, object keys): `undefined` becomes "undefined". */
  function JsStr(v: Option<string>): string {
    match v
    case Some(s) => s
    case None => "undefined"
  }

  /** `/^\d{4}$/.test(s)`. */
  predicate IsFourDigitYear(s: string) {
    |s| == 4 && AllDigits(s)
  }

  // ------------------------------------------------ `/\d+\s*teams?$/i.test(s)`

  /** Case folding of the `i` flag without the `u` flag: only ASCII letters fold
      to the letters of "team"/"teams". */
  function LowerAscii(c: char): char {
    if 'A' <= c <= 'Z' then (c as int + 32) as char else c
  }

  predicate EqualsIgnoreCase(s: string, lower: string) {
    |s| == |lower| && forall i :: 0 <= i < |s| ==> LowerAscii(s[i]) == lower[i]
  }

  predicate IsTeamWord(s: string) {
    EqualsIgnoreCase(s, "team") || EqualsIgnoreCase(s, "teams")
  }

  /** A way the regular expression matches: `s[i..j]` are the digits of `\d+`,
      `s[j..k]` the whitespace of `\s*`, and `s[k..]` the word, ending the string. */
  predicate TeamCountMatchAt(s: string, i: int, j: int, k: int) {
    && 0 <= i < j <= k <= |s|
    && AllDigits(s[i..j])
    && AllSpaces(JsSpaces, s[j..k])
    && IsTeamWord(s[k..])
  }

  /** The regular expression's meaning: some split of `s` matches. */
  ghost predicate MatchesTeamCount(s: string) {
    exists i, j, k :: TeamCountMatchAt(s, i, j, k)
  }

  /** Length of the "team"/"teams" word `s` ends with, or 0. */
  function TeamWordLength(s: string): (n: nat)
    ensures n <= |s|
  {
    if |s| >= 5 && EqualsIgnoreCase(s[|s| - 5..], "teams") then 5
    else if |s| >= 4 && EqualsIgnoreCase(s[|s| - 4..], "team") then 4
    else 0
  }

  /** The regular expression as a computation: the word at the end, and a digit
      as the last character before the whitespace in front of it. */
  predicate IsTeamCount(s: string) {
    var n := TeamWordLength(s);
    n > 0 && var p := TrimEnd(JsSpaces, s[..|s| - n]); |p| > 0 && IsDigit(p[|p| - 1])
  }

  /** The computation decides exactly the regular expression. */
  lemma TeamCountIsRegex(s: string)
    ensures IsTeamCount(s) <==> MatchesTeamCount(s)
  {
    if IsTeamCount(s) {
      TeamCountHasMatch(s);
    }
    if MatchesTeamCount(s) {
      var i, j, k :| TeamCountMatchAt(s, i, j, k);
      MatchIsTeamCount(s, i, j, k);
    }
  }

  lemma TeamCountHasMatch(s: string)
    requires IsTeamCount(s)
    ensures MatchesTeamCount(s)
  {
    var n := TeamWordLength(s);
    var p := TrimEnd(JsSpaces, s[..|s| - n]);
    assert s[|p| - 1..|p|] == [p[|p| - 1]];
    assert s[|p|..|s| - n] == s[..|s| - n][|p|..];
    assert TeamCountMatchAt(s, |p| - 1, |p|, |s| - n);
  }

  lemma MatchIsTeamCount(s: string, i: int, j: int, k: int)
    requires TeamCountMatchAt(s, i, j, k)
    ensures IsTeamCount(s)
  {
    WordLengthAt(s, k);
    assert IsDigit(s[j - 1]) by {
      assert s[i..j][j - 1 - i] == s[j - 1];
    }
    assert s[j..k] == s[..k][j..];
    TrimEndAt(s[..k], j);
  }

  /** The word found at the end is the one the match ends with. */
  lemma WordLengthAt(s: string, k: int)
    requires 0 <= k <= |s| && IsTeamWord(s[k..])
    ensures TeamWordLength(s) == |s| - k
  {
    if |s| - k == 4 && |s| >= 5 {
      assert s[|s| - 5..][4] == s[k..][3];
      assert !EqualsIgnoreCase(s[|s| - 5..], "teams");
    }
    if |s| - k == 5 {
      assert s[|s| - 5..] == s[k..];
    }
  }

  /** Trimming stops at the last non-whitespace character. */
  lemma TrimEndAt(t: string, j: int)
    requires 0 < j <= |t| && !IsSpace(JsSpaces, t[j - 1]) && AllSpaces(JsSpaces, t[j..])
    ensures |TrimEnd(JsSpaces, t)| == j
  {
  }

  // ----------------------------------------------------- season-aggregate rows

  /** `/^\d{4}$/.test(row.Season) && /\d+\s*teams?$/i.test(row.Team)`. */
  predicate IsSeasonAggregate(row: Row) {
    IsFourDigitYear(JsStr(Get(row, "Season"))) && IsTeamCount(JsStr(Get(row, "Team")))
  }

  /** A season-aggregate row has a four-digit `Season` and a `Team` matching the
      team-count expression; a missing field never qualifies. */
  lemma SeasonAggregateShape(row: Row)
    ensures IsSeasonAggregate(row) <==>
              && "Season" in row && IsFourDigitYear(row["Season"])
              && "Team" in row && MatchesTeamCount(row["Team"])
  {
    TeamCountIsRegex(JsStr(Get(row, "Team")));
    assert TeamWordLength("undefined") == 0 by {
      assert !EqualsIgnoreCase("undefined"[4..], "teams") by {
        assert LowerAscii("undefined"[4]) != 't';
      }
      assert !EqualsIgnoreCase("undefined"[5..], "team") by {
        assert LowerAscii("undefined"[5]) != 't';
      }
    }
  }

  /** `statsData.filter(isSeasonAggregate)`. */
  function SeasonRows(rows: seq<Row>): (r: seq<Row>)
    ensures |r| <= |rows|
    ensures forall x :: x in r <==> x in rows && IsSeasonAggregate(x)
  {
    Filter(rows, IsSeasonAggregate)
  }

  /** The filter keeps the input order: it distributes over concatenation. */
  lemma SeasonRowsAppend(a: seq<Row>, b: seq<Row>)
    ensures SeasonRows(a + b) == SeasonRows(a) + SeasonRows(b)
  {
    FilterAppend(a, b, IsSeasonAggregate);
  }

  /** The filter on one more row. */
  lemma SeasonRowsSnoc(rows: seq<Row>, r: Row)
    ensures SeasonRows(rows + [r]) == SeasonRows(rows) + if IsSeasonAggregate(r) then [r] else []
  {
    FilterSnoc(rows, r, IsSeasonAggregate);
  }

  /** A list with no season row has an empty filter. */
  lemma NoSeasonRows(out: seq<Row>)
    requires forall k :: 0 <= k < |out| ==> !IsSeasonAggregate(out[k])
    ensures SeasonRows(out) == []
  {
    FilterNone(out, IsSeasonAggregate);
  }

  /** A season row followed by rows that are not. */
  lemma OnlyHeadIsSeasonRow(head: Row, tail: seq<Row>)
    requires IsSeasonAggregate(head)
    requires forall k :: 0 <= k < |tail| ==> !IsSeasonAggregate(tail[k])
    ensures SeasonRows([head] + tail) == [head]
  {
    FilterOnlyHead(head, tail, IsSeasonAggregate);
  }

  // ------------------------------------------------------------- career rows

  datatype Category = College | Summer | Independent | Minors {
    function Name(): string {
      match this
      case College => "College"
      case Summer => "Summer"
      case Independent => "Independent"
      case Minors => "Minors"
    }

    /** Position in the selector and footer order. */
    function Index(): nat {
      match this
      case College => 0
      case Summer => 1
      case Independent => 2
      case Minors => 3
    }
  }

  /** The selector's button order, which is also the footer's row order. */
  const Categories: seq<Category> := [College, Summer, Independent, Minors]

  /** The `Season` label of a category's career row. */
  function CareerSeason(c: Category): string {
    c.Name() + " Career"
  }

  /** Row `i` is the first row whose `Season` is exactly `season`. */
  predicate IsFirstWithSeason(rows: seq<Row>, i: int, season: string) {
    && 0 <= i < |rows|
    && Get(rows[i], "Season") == Some(season)
    && forall j :: 0 <= j < i ==> Get(rows[j], "Season") != Some(season)
  }

  /** `statsData.findIndex((row) => row.Season === season)`. */
  function FirstWithSeason(rows: seq<Row>, season: string): (r: Option<nat>)
    ensures r.Some? ==> IsFirstWithSeason(rows, r.value, season)
    ensures r.None? ==> forall j :: 0 <= j < |rows| ==> Get(rows[j], "Season") != Some(season)
  {
    if |rows| == 0 then None
    else if Get(rows[0], "Season") == Some(season) then Some(0)
    else
      match FirstWithSeason(rows[1..], season)
      case None => None
      case Some(i) => Some(i + 1)
  }

  /** `careerRows[c]`: the first row labelled "<c> Career", if any. */
  function CareerRow(rows: seq<Row>, c: Category): (r: Option<Row>)
    ensures r.Some? <==> exists j :: 0 <= j < |rows| && Get(rows[j], "Season") == Some(CareerSeason(c))
    ensures r.Some? ==> exists i :: IsFirstWithSeason(rows, i, CareerSeason(c)) && rows[i] == r.value
  {
    match FirstWithSeason(rows, CareerSeason(c))
    case None => None
    case Some(i) => Some(rows[i])
  }

  // ------------------------------------------------------ season-category levels

  /** `levelToCategory`: the category each level belongs to. */
  const LevelToCategory: map<string, string> := map[
    "NCAA" := "College", "Summer" := "Summer", "Independent" := "Independent",
    "Rk+" := "Minors", "A-" := "Minors", "A+" := "Minors", "AA" := "Minors", "AAA" := "Minors"]

  /** `levelToCategory[row.Level] || row.Level`. */
  function CategoryOfLevel(level: Option<string>): Option<string> {
    if level.Some? && level.value in LevelToCategory then Some(LevelToCategory[level.value])
    else level
  }

  /** A row that records a level: a four-digit season and no team-count label. */
  predicate ContributesLevel(row: Row) {
    IsFourDigitYear(JsStr(Get(row, "Season"))) && !IsTeamCount(JsStr(Get(row, "Team")))
  }

  /** The `${row.Season}-${category}` key a contributing row files its level under. */
  function LevelKey(row: Row): string {
    JsStr(Get(row, "Season")) + "-" + JsStr(CategoryOfLevel(Get(row, "Level")))
  }

  /** Key -> levels in first-seen order; a level is a JavaScript value, so a
      missing `Level` is stored as `undefined` (None). */
  type LevelsMap = map<string, seq<Option<string>>>

  /** Push `level` onto the list under `key` unless the list already includes it. */
  function AddLevel(m: LevelsMap, key: string, level: Option<string>): LevelsMap {
    if key !in m then m[key := [level]]
    else if level in m[key] then m
    else m[key := m[key] + [level]]
  }

  /** `seasonCategoryLevels`, built by one pass over the rows: every list is
      non-empty and free of repeats. */
  function SeasonCategoryLevels(rows: seq<Row>): (m: LevelsMap)
    ensures forall key :: key in m ==> |m[key]| > 0 && NoDup(m[key])
  {
    if |rows| == 0 then map[]
    else
      var n := |rows| - 1;
      var m := SeasonCategoryLevels(rows[..n]);
      if ContributesLevel(rows[n]) then AddLevel(m, LevelKey(rows[n]), Get(rows[n], "Level"))
      else m
  }

  /** A contributing row that files its level under `key`. */
  predicate Files(row: Row, key: string) {
    ContributesLevel(row) && LevelKey(row) == key
  }

  function FilesUnder(key: string): Row -> bool {
    row => Files(row, key)
  }

  function RowLevel(row: Row): Option<string> {
    Get(row, "Level")
  }

  /** Reference: the levels of the contributing rows filed under `key`, in row
      order, repeats included. */
  function LevelsFor(rows: seq<Row>, key: string): seq<Option<string>> {
    Collect(rows, FilesUnder(key), RowLevel)
  }

  /** The map holds a key exactly when some contributing row files a level under
      it, and its list is those rows' levels, de-duplicated in first-seen order. */
  lemma SeasonCategoryLevelsSpec(rows: seq<Row>)
    ensures forall key :: key in SeasonCategoryLevels(rows) <==> |LevelsFor(rows, key)| > 0
    ensures forall key :: key in SeasonCategoryLevels(rows) ==>
              SeasonCategoryLevels(rows)[key] == Dedup(LevelsFor(rows, key))
  {
    forall key
      ensures key in SeasonCategoryLevels(rows) <==> |LevelsFor(rows, key)| > 0
      ensures key in SeasonCategoryLevels(rows) ==>
                SeasonCategoryLevels(rows)[key] == Dedup(LevelsFor(rows, key))
    {
      SeasonCategoryLevelsAt(rows, key);
    }
  }

  lemma {:induction false} SeasonCategoryLevelsAt(rows: seq<Row>, key: string)
    ensures key in SeasonCategoryLevels(rows) <==> |LevelsFor(rows, key)| > 0
    ensures key in SeasonCategoryLevels(rows) ==>
              SeasonCategoryLevels(rows)[key] == Dedup(LevelsFor(rows, key))
    decreases |rows|
  {
    if |rows| > 0 {
      var n := |rows| - 1;
      var init := rows[..n];
      SeasonCategoryLevelsAt(init, key);
      var r := rows[n];
      assert rows == init + [r];
      LevelsForSnoc(init, r, key);
      if Files(r, key) {
        var lv := Get(r, "Level");
        var before := LevelsFor(init, key);
        DedupSnoc(before, lv);
        if key in SeasonCategoryLevels(init) {
          assert lv in Dedup(before) <==> lv in before;
        } else {
          assert before == [];
          assert Dedup(before + [lv]) == [lv];
        }
      }
    }
  }

  /** The reference lists on one more row. */
  lemma LevelsForSnoc(rows: seq<Row>, r: Row, key: string)
    ensures LevelsFor(rows + [r], key) == LevelsFor(rows, key) + if Files(r, key) then [Get(r, "Level")] else []
  {
    CollectSnoc(rows, r, FilesUnder(key), RowLevel);
    assert FilesUnder(key)(r) == Files(r, key);
  }

  /** Dropping one row that files no level leaves the reference lists unchanged. */
  lemma LevelsForSkip(a: seq<Row>, r: Row, b: seq<Row>, key: string)
    requires !ContributesLevel(r)
    ensures LevelsFor(a + [r] + b, key) == LevelsFor(a + b, key)
  {
    assert !FilesUnder(key)(r);
    CollectSkip(a, r, b, FilesUnder(key), RowLevel);
  }

  /** A row that files no level never touches the level map: removing it
      anywhere from the input gives the same map. */
  lemma RowWithoutLevelIgnored(a: seq<Row>, r: Row, b: seq<Row>)
    requires !ContributesLevel(r)
    ensures SeasonCategoryLevels(a + [r] + b) == SeasonCategoryLevels(a + b)
  {
    var m1 := SeasonCategoryLevels(a + [r] + b);
    var m2 := SeasonCategoryLevels(a + b);
    SeasonCategoryLevelsSpec(a + [r] + b);
    SeasonCategoryLevelsSpec(a + b);
    forall key
      ensures LevelsFor(a + [r] + b, key) == LevelsFor(a + b, key)
    {
      LevelsForSkip(a, r, b, key);
    }
    assert m1.Keys == m2.Keys;
  }

  /** In particular a season-aggregate row never touches it. */
  lemma AggregateRowIgnored(a: seq<Row>, r: Row, b: seq<Row>)
    requires IsSeasonAggregate(r)
    ensures SeasonCategoryLevels(a + [r] + b) == SeasonCategoryLevels(a + b)
  {
    RowWithoutLevelIgnored(a, r, b);
  }
}

=== FILE: site_view.dfy ===
/** What the web page's stats section shows (script.js:494-729): highlight
    values, the year range on each category button, the cells of the table,
    and the category filter as a pure function from the chosen category to the
    view. DOM construction itself is not modelled; a view records the text and
    visibility the DOM would end up with. */
module SiteView {
  import opened Wrappers
  import opened Text
  import opened Csv
  import opened Seqs
  import opened SiteRows

  // ---------------------------------------------------------------- highlights

  datatype Highlights = Highlights(
    era: string, winLoss: string, games: string, innings: string, strikeouts: string, whip: string)

  /** `value || "-"`: missing and empty fields show a dash. */
  function OrDash(v: Option<string>): string {
    if v.None? || v.value == "" then "-" else v.value
  }

  /** `getHighlightValues(c)`: the six headline values of a category, all taken
      from its career row; without a career row every value is a dash. */
  function HighlightValues(rows: seq<Row>, c: Category): (h: Highlights)
    ensures h.era != "" && h.winLoss != "" && h.games != ""
    ensures h.innings != "" && h.strikeouts != "" && h.whip != ""
    ensures CareerRow(rows, c).None? ==> h == Highlights("-", "-", "-", "-", "-", "-")
    ensures forall i :: IsFirstWithSeason(rows, i, CareerSeason(c)) ==>
              && h.era == OrDash(Get(rows[i], "ERA"))
              && h.winLoss == JsStr(Get(rows[i], "W")) + "-" + JsStr(Get(rows[i], "L"))
              && h.games == OrDash(Get(rows[i], "G"))
              && h.innings == OrDash(Get(rows[i], "IP"))
              && h.strikeouts == OrDash(Get(rows[i], "SO"))
              && h.whip == OrDash(Get(rows[i], "WHIP"))
  {
    match CareerRow(rows, c)
    case None => Highlights("-", "-", "-", "-", "-", "-")
    case Some(r) =>
      Highlights(OrDash(Get(r, "ERA")), JsStr(Get(r, "W")) + "-" + JsStr(Get(r, "L")),
                 OrDash(Get(r, "G")), OrDash(Get(r, "IP")), OrDash(Get(r, "SO")),
                 OrDash(Get(r, "WHIP")))
  }

  /** `highlights[stat]` for one overview card; an unknown key is `undefined`. */
  function HighlightCard(h: Highlights, stat: string): Option<string> {
    if stat == "ERA" then Some(h.era)
    else if stat == "W-L" then Some(h.winLoss)
    else if stat == "G" then Some(h.games)
    else if stat == "IP" then Some(h.innings)
    else if stat == "SO" then Some(h.strikeouts)
    else if stat == "WHIP" then Some(h.whip)
    else None
  }

  // ---------------------------------------------------------------- year range

  predicate AllFourDigitSeasons(rows: seq<Row>) {
    forall i :: 0 <= i < |rows| ==> IsFourDigitYear(JsStr(Get(rows[i], "Season")))
  }

  /** `parseInt(row.Season, 10)` of a four-digit season. */
  function SeasonYear(row: Row): nat
    requires IsFourDigitYear(JsStr(Get(row, "Season")))
  {
    DigitsValue(JsStr(Get(row, "Season")))
  }

  /** `categoryYears[category]`: the years of the season rows whose `Level`
      (the category of an aggregate row) converts to `category`, in row order. */
  function YearsOf(seasonRows: seq<Row>, category: string): (ys: seq<nat>)
    requires AllFourDigitSeasons(seasonRows)
    ensures forall y :: y in ys <==>
              exists i :: 0 <= i < |seasonRows| && JsStr(Get(seasonRows[i], "Level")) == category
                          && y == SeasonYear(seasonRows[i])
  {
    if |seasonRows| == 0 then []
    else
      var n := |seasonRows| - 1;
      var init := YearsOf(seasonRows[..n], category);
      assert forall i :: 0 <= i < n ==> seasonRows[..n][i] == seasonRows[i];
      if JsStr(Get(seasonRows[n], "Level")) == category then init + [SeasonYear(seasonRows[n])]
      else init
  }

  function Min(s: seq<int>): (m: int)
    requires |s| > 0
    ensures m in s && forall x :: x in s ==> m <= x
  {
    if |s| == 1 then s[0]
    else
      var m := Min(s[1..]);
      assert forall x :: x in s ==> x == s[0] || x in s[1..];
      if s[0] <= m then s[0] else m
  }

  function Max(s: seq<int>): (m: int)
    requires |s| > 0
    ensures m in s && forall x :: x in s ==> x <= m
  {
    if |s| == 1 then s[0]
    else
      var m := Max(s[1..]);
      assert forall x :: x in s ==> x == s[0] || x in s[1..];
      if s[0] >= m then s[0] else m
  }

  /** `String(x).slice(-2)`. */
  function LastTwo(s: string): string {
    if |s| <= 2 then s else s[|s| - 2..]
  }

  /** `getCategoryYearRange`'s formatting: nothing for no years, the year for a
      single distinct year, else "first-yy". */
  function YearRange(years: seq<nat>): (r: string)
    ensures r == "" <==> |years| == 0
  {
    if |years| == 0 then ""
    else
      var lo := Min(years);
      var hi := Max(years);
      if lo == hi then NatToString(lo) else NatToString(lo) + "-" + LastTwo(NatToString(hi))
  }

  /** The range is fixed by the smallest and largest year alone: any list with
      bounds `lo` and `hi` shows `lo` alone when they agree, else `lo-yy` with
      `yy` the last two digits of `hi`. */
  lemma YearRangeOfBounds(years: seq<nat>, lo: nat, hi: nat)
    requires lo in years && hi in years
    requires forall y :: y in years ==> lo <= y <= hi
    ensures YearRange(years) ==
              if lo == hi then NatToString(lo) else NatToString(lo) + "-" + LastTwo(NatToString(hi))
  {
    assert Min(years) == lo && Max(years) == hi;
  }

  lemma YearRangeExamples()
    ensures YearRange([]) == ""
    ensures YearRange([2021]) == "2021"
    ensures YearRange([2019, 2023]) == "2019-23"
    ensures YearRange([2023, 2019, 2021]) == "2019-23"
  {
    YearTexts();
    SpanExample([2019, 2023]);
    SpanExample([2023, 2019, 2021]);
  }

  /** Years from 2019 to 2023 read "2019-23". */
  lemma SpanExample(years: seq<nat>)
    requires 2019 in years && 2023 in years
    requires forall y :: y in years ==> 2019 <= y <= 2023
    ensures YearRange(years) == "2019-23"
  {
    YearRangeOfBounds(years, 2019, 2023);
    YearTexts();
    assert LastTwo("2023") == "23";
  }

  /** The texts of the years the examples use. */
  lemma YearTexts()
    ensures NatToString(2019) == "2019"
    ensures NatToString(2021) == "2021"
    ensures NatToString(2023) == "2023"
  {
    assert NatToString(20) == "20";
    assert NatToString(201) == "201";
    assert NatToString(202) == "202";
  }

  /** The text under a category's button. */
  function CategoryYearRange(rows: seq<Row>, c: Category): string {
    var seasonRows := SeasonRows(rows);
    assert AllFourDigitSeasons(seasonRows) by {
      forall i | 0 <= i < |seasonRows|
        ensures IsFourDigitYear(JsStr(Get(seasonRows[i], "Season")))
      {
        assert seasonRows[i] in seasonRows;
      }
    }
    YearRange(YearsOf(seasonRows, c.Name()))
  }

  // --------------------------------------------------------------------- cells

  /** The ten stat columns of the table, body and footer alike. */
  const StatColumns: seq<string> := ["W", "L", "ERA", "G", "SV", "IP", "H", "SO", "BB", "WHIP"]

  /** A body cell's value: saves recorded as "-" or "" show as "0", every
      other value (including a missing one) is shown as it is. */
  function BodyCell(row: Row, col: string): (v: Option<string>)
    ensures col == "SV" ==> v != Some("-") && v != Some("")
    ensures col != "SV" || v != Some("0") ==> v == Get(row, col)
  {
    var value := Get(row, col);
    if col == "SV" && (value == Some("-") || value == Some("")) then Some("0") else value
  }

  /** A footer cell: `careerRow[col] || "-"`, then the saves rule. Never empty;
      saves never show a dash. */
  function FooterCell(career: Row, col: string): (v: string)
    ensures v != ""
    ensures col == "SV" ==> v != "-"
    ensures v == "-" || v == "0" || Get(career, col) == Some(v)
    ensures Get(career, col).Some? && Get(career, col) != Some("") && Get(career, col) != Some("-") ==>
              Some(v) == Get(career, col)
    ensures col != "SV" && (Get(career, col).None? || Get(career, col) == Some("") || Get(career, col) == Some("-")) ==>
              v == "-"
    ensures col == "SV" && (Get(career, col).None? || Get(career, col) == Some("") || Get(career, col) == Some("-")) ==>
              v == "0"
  {
    var value := OrDash(Get(career, col));
    if col == "SV" && (value == "-" || value == "") then "0" else value
  }

  /** What the DOM shows for a cell's value: `textContent = undefined` shows nothing. */
  function Shown(v: Option<string>): string {
    v.GetOr("")
  }

  const OrgDisplayNames: map<string, string> := map[
    "Mets" := "New York Mets", "Phillies" := "Philadelphia Phillies",
    "Johns Hopkins" := "Johns Hopkins Blue Jays", "Westside" := "Westside Woolly Mammoths",
    "Baltimore" := "Baltimore Dodgers"]

  /** The organisation badge's text, or no badge when `Org` is missing, empty
      or "-"; known organisations show their full name. */
  function OrgBadge(row: Row): (badge: Option<string>)
    ensures badge.None? <==> Get(row, "Org") in {None, Some(""), Some("-")}
    ensures badge.Some? && row["Org"] in OrgDisplayNames ==> badge.value == OrgDisplayNames[row["Org"]]
    ensures badge.Some? && row["Org"] !in OrgDisplayNames ==> badge.value == row["Org"]
  {
    match Get(row, "Org")
    case Some(org) =>
      if org == "" || org == "-" then None
      else if org in OrgDisplayNames then Some(OrgDisplayNames[org]) else Some(org)
    case None => None
  }

  /** `categoryLeagues`: the single league shown for a non-Minors category. */
  const CategoryLeagues: map<string, string> := map[
    "College" := "NCAA D3", "Summer" := "Cal Ripken", "Independent" := "USPBL"]

  datatype LevelsCell =
    | LevelBadges(levels: seq<Option<string>>)
    | LeagueBadge(league: string)
    | NoBadge

  /** The levels/league cell of a season row: a Minors row lists the levels
      recorded under "<season>-Minors" in stored order; any other row shows at
      most the one league of its category. */
  function LevelsCellOf(row: Row, levels: LevelsMap): (cell: LevelsCell)
    ensures Get(row, "Level") == Some("Minors") <==> cell.LevelBadges?
    ensures cell.LevelBadges? ==>
              var key := JsStr(Get(row, "Season")) + "-Minors";
              cell.levels == if key in levels then levels[key] else []
    ensures cell.LeagueBadge? <==>
              Get(row, "Level").Some? && row["Level"] != "Minors" && row["Level"] in CategoryLeagues
    ensures cell.LeagueBadge? ==> cell.league == CategoryLeagues[row["Level"]]
  {
    var category := Get(row, "Level");
    if category == Some("Minors") then
      var key := JsStr(Get(row, "Season")) + "-" + category.value;
      assert key == JsStr(Get(row, "Season")) + "-Minors";
      LevelBadges(if key in levels then levels[key] else [])
    else if category.Some? && category.value in CategoryLeagues then
      LeagueBadge(CategoryLeagues[category.value])
    else NoBadge
  }

  /** A Minors row's badges are the levels of that season's Minors rows, each
      once, in the order they first appear in the data. */
  lemma MinorsBadgesAreSeasonLevels(rows: seq<Row>, row: Row)
    requires Get(row, "Level") == Some("Minors")
    ensures LevelsCellOf(row, SeasonCategoryLevels(rows)).levels ==
              Dedup(LevelsFor(rows, JsStr(Get(row, "Season")) + "-Minors"))
    ensures NoDup(LevelsCellOf(row, SeasonCategoryLevels(rows)).levels)
  {
    SeasonCategoryLevelsSpec(rows);
    var key := JsStr(Get(row, "Season")) + "-Minors";
    if key !in SeasonCategoryLevels(rows) {
      assert LevelsFor(rows, key) == [];
      assert Dedup(LevelsFor(rows, key)) == [];
    }
  }

  // --------------------------------------------------------------------- table

  datatype BodyRow = BodyRow(
    category: string, year: Option<string>, org: Option<string>, levels: LevelsCell,
    cells: seq<Option<string>>)

  datatype FooterRow = FooterRow(category: Category, cells: seq<string>)

  datatype Table = Table(body: seq<BodyRow>, footer: seq<FooterRow>)

  /** Category indices strictly increase along `cs`. */
  predicate InSelectorOrder(cs: seq<Category>) {
    forall i, j :: 0 <= i < j < |cs| ==> cs[i].Index() < cs[j].Index()
  }

  /** The categories of `cats` that have a career row, in the order of `cats`. */
  function WithCareer(rows: seq<Row>, cats: seq<Category>): (cs: seq<Category>)
    requires InSelectorOrder(cats)
    ensures forall c :: c in cs <==> c in cats && CareerRow(rows, c).Some?
    ensures InSelectorOrder(cs)
    ensures forall i :: 0 <= i < |cs| ==> cs[i] in cats
  {
    if |cats| == 0 then []
    else
      var rest := WithCareer(rows, cats[1..]);
      var cs := if CareerRow(rows, cats[0]).Some? then [cats[0]] + rest else rest;
      WithCareerStep(rows, cats, rest, cs);
      cs
  }

  /** One step of WithCareer: the head of `cats` goes in front when it has a
      career row. */
  lemma WithCareerStep(rows: seq<Row>, cats: seq<Category>, rest: seq<Category>, cs: seq<Category>)
    requires |cats| > 0 && InSelectorOrder(cats)
    requires forall c :: c in rest <==> c in cats[1..] && CareerRow(rows, c).Some?
    requires InSelectorOrder(rest)
    requires forall i :: 0 <= i < |rest| ==> rest[i] in cats[1..]
    requires cs == if CareerRow(rows, cats[0]).Some? then [cats[0]] + rest else rest
    ensures forall c :: c in cs <==> c in cats && CareerRow(rows, c).Some?
    ensures InSelectorOrder(cs)
    ensures forall i :: 0 <= i < |cs| ==> cs[i] in cats
  {
    assert cats == [cats[0]] + cats[1..];
    forall i | 0 <= i < |rest|
      ensures cats[0].Index() < rest[i].Index()
    {
      var j :| 0 <= j < |cats[1..]| && cats[1..][j] == rest[i];
      assert cats[j + 1] == rest[i];
    }
  }

  /** `footerCategoryOrder` filtered by `careerRows`: the categories that get a
      footer row, each once, in selector order. */
  function FooterCategories(rows: seq<Row>): (cs: seq<Category>)
    ensures forall c :: c in cs <==> CareerRow(rows, c).Some?
    ensures InSelectorOrder(cs)
  {
    assert forall c: Category :: c in Categories by {
      forall c: Category
        ensures c in Categories
      {
        assert Categories[c.Index()] == c;
      }
    }
    WithCareer(rows, Categories)
  }

  function RenderBodyRow(row: Row, levels: LevelsMap): BodyRow {
    BodyRow(JsStr(Get(row, "Level")), Get(row, "Season"), OrgBadge(row), LevelsCellOf(row, levels),
            seq(|StatColumns|, k requires 0 <= k < |StatColumns| => BodyCell(row, StatColumns[k])))
  }

  /** The table: one body row per season row, tagged with its `Level`, and one
      footer row per category with a career row, holding its ten totals. */
  function RenderTable(rows: seq<Row>): (t: Table)
    ensures |t.body| == |SeasonRows(rows)|
    ensures forall i :: 0 <= i < |t.body| ==>
              && t.body[i].category == JsStr(Get(SeasonRows(rows)[i], "Level"))
              && t.body[i].year == Get(SeasonRows(rows)[i], "Season")
              && t.body[i].org == OrgBadge(SeasonRows(rows)[i])
              && t.body[i].levels == LevelsCellOf(SeasonRows(rows)[i], SeasonCategoryLevels(rows))
              && |t.body[i].cells| == |StatColumns|
              && forall k :: 0 <= k < |StatColumns| ==>
                   t.body[i].cells[k] == BodyCell(SeasonRows(rows)[i], StatColumns[k])
    ensures |t.footer| == |FooterCategories(rows)|
    ensures forall i :: 0 <= i < |t.footer| ==>
              t.footer[i].category == FooterCategories(rows)[i]
              && |t.footer[i].cells| == |StatColumns|
              && forall k :: 0 <= k < |StatColumns| ==>
                   t.footer[i].cells[k] == FooterCell(CareerRow(rows, t.footer[i].category).value, StatColumns[k])
  {
    var seasonRows := SeasonRows(rows);
    var levels := SeasonCategoryLevels(rows);
    var cats := FooterCategories(rows);
    Table(
      seq(|seasonRows|, i requires 0 <= i < |seasonRows| => RenderBodyRow(seasonRows[i], levels)),
      seq(|cats|, i requires 0 <= i < |cats| =>
        FooterRow(cats[i], seq(|StatColumns|, k requires 0 <= k < |StatColumns| =>
          FooterCell(CareerRow(rows, cats[i]).value, StatColumns[k])))))
  }

  /** A Minors row of the table lists the levels of that season's Minors team
      rows, each once, in first-seen order. */
  lemma TableMinorsBadges(rows: seq<Row>, i: nat)
    requires i < |SeasonRows(rows)| && Get(SeasonRows(rows)[i], "Level") == Some("Minors")
    ensures i < |RenderTable(rows).body|
    ensures RenderTable(rows).body[i].levels.LevelBadges?
    ensures RenderTable(rows).body[i].levels.levels ==
              Dedup(LevelsFor(rows, JsStr(Get(SeasonRows(rows)[i], "Season")) + "-Minors"))
  {
    MinorsBadgesAreSeasonLevels(rows, SeasonRows(rows)[i]);
  }
}

=== FILE: text.dfy ===
/** Character classes, trimming, splitting, substring search and decimal
    conversion, each following the exact rule of the language that uses it:
    JavaScript for the web page, Python for the stats tool. */
module Text {
  import opened Wrappers

  /** Whose notion of whitespace: JavaScript's `\s` and `String.prototype.trim`;
      Python's `str.isspace` (used by `str.strip`); or what Python's `int` skips
      around a numeral. `int` first turns every non-ASCII `isspace` character
      into a space and then skips only ASCII `\t`..`\r` and space, so the
      ASCII separators U+001C..U+001F, which `isspace` accepts, stop it. */
  datatype Spaces = JsSpaces | PySpaces | PyIntSpaces

  predicate IsSpace(ws: Spaces, c: char) {
    match ws
    case JsSpaces =>
      ('\t' <= c <= '\r') || c == ' ' || c == '\U{00A0}' || c == '\U{1680}'
      || ('\U{2000}' <= c <= '\U{200A}') || c == '\U{2028}' || c == '\U{2029}'
      || c == '\U{202F}' || c == '\U{205F}' || c == '\U{3000}' || c == '\U{FEFF}'
    case PySpaces =>
      ('\t' <= c <= '\r') || ('\U{001C}' <= c <= ' ') || c == '\U{0085}' || c == '\U{00A0}'
      || c == '\U{1680}' || ('\U{2000}' <= c <= '\U{200A}') || c == '\U{2028}'
      || c == '\U{2029}' || c == '\U{202F}' || c == '\U{205F}' || c == '\U{3000}'
    case PyIntSpaces =>
      ('\t' <= c <= '\r') || c == ' ' || c == '\U{0085}' || c == '\U{00A0}'
      || c == '\U{1680}' || ('\U{2000}' <= c <= '\U{200A}') || c == '\U{2028}'
      || c == '\U{2029}' || c == '\U{202F}' || c == '\U{205F}' || c == '\U{3000}'
  }

  predicate AllSpaces(ws: Spaces, s: string) {
    forall i :: 0 <= i < |s| ==> IsSpace(ws, s[i])
  }

  /** Number of whitespace characters at the start of `s`. */
  function LeadingSpaces(ws: Spaces, s: string): (n: nat)
    ensures n <= |s|
    ensures AllSpaces(ws, s[..n])
    ensures n < |s| ==> !IsSpace(ws, s[n])
  {
    if |s| == 0 || !IsSpace(ws, s[0]) then 0
    else
      var n := 1 + LeadingSpaces(ws, s[1..]);
      assert s[..n] == [s[0]] + s[1..][..n - 1];
      n
  }

  /** Number of whitespace characters at the end of `s`. */
  function TrailingSpaces(ws: Spaces, s: string): (n: nat)
    ensures n <= |s|
    ensures AllSpaces(ws, s[|s| - n..])
    ensures n < |s| ==> !IsSpace(ws, s[|s| - n - 1])
  {
    if |s| == 0 || !IsSpace(ws, s[|s| - 1]) then 0
    else
      var init := s[..|s| - 1];
      var m := TrailingSpaces(ws, init);
      assert s[|s| - (m + 1)..] == init[|init| - m..] + [s[|s| - 1]];
      m + 1
  }

  /** `s` without its trailing whitespace. */
  function TrimEnd(ws: Spaces, s: string): (r: string)
    ensures |r| <= |s| && r == s[..|r|]
    ensures AllSpaces(ws, s[|r|..])
    ensures |r| > 0 ==> !IsSpace(ws, r[|r| - 1])
  {
    s[..|s| - TrailingSpaces(ws, s)]
  }

  /** `s` without leading and trailing whitespace (JavaScript `trim`, Python `strip`):
      the longest middle slice that neither starts nor ends with whitespace,
      everything cut off on either side being whitespace. */
  function Trim(ws: Spaces, s: string): (r: string)
    ensures LeadingSpaces(ws, s) + |r| <= |s|
    ensures r == s[LeadingSpaces(ws, s)..LeadingSpaces(ws, s) + |r|]
    ensures AllSpaces(ws, s[LeadingSpaces(ws, s) + |r|..])
    ensures |r| > 0 ==> !IsSpace(ws, r[0]) && !IsSpace(ws, r[|r| - 1])
  {
    var i := LeadingSpaces(ws, s);
    TrimEnd(ws, s[i..])
  }

  /** A string with no whitespace at either end is its own trim. */
  lemma TrimNoSpaces(ws: Spaces, s: string)
    requires |s| > 0 ==> !IsSpace(ws, s[0]) && !IsSpace(ws, s[|s| - 1])
    ensures Trim(ws, s) == s
  {
    assert LeadingSpaces(ws, s) == 0;
    assert TrailingSpaces(ws, s) == 0;
  }

  /** `s` cut at every `sep` (JavaScript `split` and Python `split` with a
      one-character separator): always at least one piece, none containing `sep`,
      and joining the pieces back gives `s`. */
  function Split(s: string, sep: char): (parts: seq<string>)
    ensures |parts| > 0
    ensures forall i :: 0 <= i < |parts| ==> sep !in parts[i]
    ensures Join(parts, sep) == s
  {
    if |s| == 0 then [""]
    else
      var rest := Split(s[1..], sep);
      if s[0] == sep then
        assert ([""] + rest)[1..] == rest;
        [""] + rest
      else
        var parts := [[s[0]] + rest[0]] + rest[1..];
        assert |rest| > 1 ==> parts[1..] == rest[1..];
        assert |rest| > 1 ==> Join(rest, sep) == rest[0] + [sep] + Join(rest[1..], sep);
        assert [s[0]] + s[1..] == s;
        parts
  }

  /** The pieces separated by `sep` (JavaScript `join`). */
  function Join(parts: seq<string>, sep: char): string
    requires |parts| > 0
  {
    if |parts| == 1 then parts[0] else parts[0] + [sep] + Join(parts[1..], sep)
  }

  /** Whitespace appended to a string that ends in a non-space is all its
      trailing whitespace. */
  lemma {:induction false} TrailingSpacesAfter(ws: Spaces, w: string, t: string)
    requires |w| > 0 && !IsSpace(ws, w[|w| - 1]) && AllSpaces(ws, t)
    ensures TrailingSpaces(ws, w + t) == |t|
    decreases |t|
  {
    if |t| == 0 {
      assert w + t == w;
    } else {
      var s := w + t;
      var u := t[..|t| - 1];
      assert s[..|s| - 1] == w + u;
      assert s[|s| - 1] == t[|t| - 1];
      TrailingSpacesAfter(ws, w, u);
    }
  }

  /** Trimming a string with no whitespace at either end, followed by whitespace. */
  lemma TrimSpacesAfter(ws: Spaces, w: string, t: string)
    requires |w| > 0 && !IsSpace(ws, w[0]) && !IsSpace(ws, w[|w| - 1]) && AllSpaces(ws, t)
    ensures Trim(ws, w + t) == w
  {
    var s := w + t;
    assert s[0] == w[0];
    assert LeadingSpaces(ws, s) == 0;
    assert s[0..] == s;
    TrailingSpacesAfter(ws, w, t);
    assert s[..|s| - |t|] == w;
  }

  /** Text appended to the last piece lands at the end of the join. */
  lemma {:induction false} JoinAppendLast(p: seq<string>, a: string, b: string, sep: char)
    ensures Join(p + [a + b], sep) == Join(p + [a], sep) + b
    decreases |p|
  {
    if |p| > 0 {
      assert (p + [a + b])[1..] == p[1..] + [a + b];
      assert (p + [a])[1..] == p[1..] + [a];
      JoinAppendLast(p[1..], a, b, sep);
    }
  }

  /** A join starts with the first character of its first piece. */
  lemma JoinFirstChar(parts: seq<string>, sep: char)
    requires |parts| > 0 && |parts[0]| > 0
    ensures |Join(parts, sep)| > 0 && Join(parts, sep)[0] == parts[0][0]
  {
  }

  /** A join ends with the last character of its last piece. */
  lemma {:induction false} JoinLastChar(parts: seq<string>, sep: char)
    requires |parts| > 0 && |parts[|parts| - 1]| > 0
    ensures var j := Join(parts, sep); |j| > 0 && j[|j| - 1] == parts[|parts| - 1][|parts[|parts| - 1]| - 1]
    decreases |parts|
  {
    if |parts| > 1 {
      assert parts[1..][|parts| - 2] == parts[|parts| - 1];
      JoinLastChar(parts[1..], sep);
    }
  }

  /** Splitting a string that starts with a separator-free `a`. */
  lemma {:induction false} SplitPrefix(a: string, b: string, sep: char)
    requires sep !in a
    ensures Split(a + b, sep) == [a + Split(b, sep)[0]] + Split(b, sep)[1..]
    decreases |a|
  {
    var sb := Split(b, sep);
    if |a| > 0 {
      assert (a + b)[0] == a[0] && a[0] != sep;
      assert (a + b)[1..] == a[1..] + b;
      SplitPrefix(a[1..], b, sep);
      assert [a[0]] + (a[1..] + sb[0]) == a + sb[0];
    } else {
      assert a + b == b;
      assert sb == [sb[0]] + sb[1..];
      assert a + sb[0] == sb[0];
    }
  }

  /** Split undoes Join when no piece contains the separator. */
  lemma {:induction false} SplitJoin(parts: seq<string>, sep: char)
    requires |parts| > 0
    requires forall i :: 0 <= i < |parts| ==> sep !in parts[i]
    ensures Split(Join(parts, sep), sep) == parts
    decreases |parts|
  {
    if |parts| == 1 {
      SplitPrefix(parts[0], "", sep);
      assert parts[0] + "" == parts[0];
    } else {
      var tail := Join(parts[1..], sep);
      SplitJoin(parts[1..], sep);
      assert Split([sep] + tail, sep) == [""] + parts[1..];
      assert parts[0] + [sep] + tail == parts[0] + ([sep] + tail);
      SplitPrefix(parts[0], [sep] + tail, sep);
      assert parts[0] + "" == parts[0];
    }
  }

  /** `sub` occurs in `s` starting at index `i`. */
  predicate OccursAt(s: string, sub: string, i: int) {
    0 <= i && i + |sub| <= |s| && s[i..i + |sub|] == sub
  }

  /** Python's `sub in s`. */
  function Contains(s: string, sub: string): (b: bool)
    ensures b <==> exists i :: OccursAt(s, sub, i)
    decreases |s|
  {
    if |sub| > |s| then false
    else if s[..|sub|] == sub then
      assert OccursAt(s, sub, 0);
      true
    else
      var b := Contains(s[1..], sub);
      forall i
        ensures OccursAt(s[1..], sub, i) <==> OccursAt(s, sub, i + 1)
      {
        if 0 <= i && i + |sub| <= |s| - 1 {
          assert s[1..][i..i + |sub|] == s[i + 1..i + 1 + |sub|];
        }
      }
      assert b ==> exists i :: OccursAt(s, sub, i);
      assert (exists i :: OccursAt(s, sub, i)) ==> b by {
        if i :| OccursAt(s, sub, i) {
          assert i != 0;
          assert OccursAt(s[1..], sub, i - 1);
        }
      }
      b
  }

  // ---------------------------------------------------------------- decimals

  predicate IsDigit(c: char) {
    '0' <= c <= '9'
  }

  predicate AllDigits(s: string) {
    forall i :: 0 <= i < |s| ==> IsDigit(s[i])
  }

  function DigitValue(c: char): (d: nat)
    requires IsDigit(c)
    ensures d < 10
  {
    c as int - '0' as int
  }

  function DigitChar(d: nat): (c: char)
    requires d < 10
    ensures IsDigit(c) && DigitValue(c) == d
  {
    ('0' as int + d) as char
  }

  /** The value of a string of decimal digits ("" counts as 0). */
  function DigitsValue(s: string): nat
    requires AllDigits(s)
  {
    if |s| == 0 then 0 else 10 * DigitsValue(s[..|s| - 1]) + DigitValue(s[|s| - 1])
  }

  /** How both languages print a non-negative integer: digits, no leading zero. */
  predicate IsCanonicalNumeral(s: string) {
    |s| > 0 && AllDigits(s) && (s[0] == '0' ==> |s| == 1)
  }

  /** Decimal text of `n` (`String(n)` in JavaScript, `str(n)` in Python). */
  function NatToString(n: nat): (r: string)
    ensures IsCanonicalNumeral(r)
    ensures DigitsValue(r) == n
  {
    if n < 10 then [DigitChar(n)]
    else
      var t := NatToString(n / 10);
      var r := t + [DigitChar(n % 10)];
      assert r[..|r| - 1] == t;
      assert t[0] == '0' ==> t == "0";
      r
  }

  /** A numeral whose first digit is not zero has a value of at least one. */
  lemma {:induction false} LeadingDigitBound(s: string)
    requires |s| > 0 && AllDigits(s)
    ensures DigitsValue(s) >= DigitValue(s[0])
    decreases |s|
  {
    if |s| > 1 {
      LeadingDigitBound(s[..|s| - 1]);
    }
  }

  /** NatToString is the inverse of DigitsValue on canonical numerals. */
  lemma {:induction false} NatToStringOfValue(s: string)
    requires IsCanonicalNumeral(s)
    ensures NatToString(DigitsValue(s)) == s
    decreases |s|
  {
    var v := DigitsValue(s);
    if |s| == 1 {
      assert DigitsValue(s[..0]) == 0;
      assert v == DigitValue(s[0]);
      assert DigitChar(v) == s[0];
      assert [DigitChar(v)] == s;
    } else {
      var p := s[..|s| - 1];
      assert p[0] == s[0];
      LeadingDigitBound(p);
      assert IsCanonicalNumeral(p);
      NatToStringOfValue(p);
      assert v / 10 == DigitsValue(p) && v % 10 == DigitValue(s[|s| - 1]);
      assert p + [s[|s| - 1]] == s;
    }
  }

  /** Decimal text of an integer, with a leading '-' when negative (`str(n)`). */
  function IntToString(n: int): (r: string)
    ensures |r| > 0 && IsDigit(r[|r| - 1])
    ensures n >= 0 ==> r == NatToString(n)
    ensures n < 0 ==> r == "-" + NatToString(-n)
  {
    if n < 0 then "-" + NatToString(-n) else NatToString(n)
  }

  // ------------------------------------------------------- Python's int(str)

  /** Digits with single underscores between them, the body Python's `int`
      accepts after an optional sign. */
  predicate IsUnderscoredDigits(s: string) {
    && |s| > 0 && IsDigit(s[0]) && IsDigit(s[|s| - 1])
    && (forall i :: 0 <= i < |s| ==> IsDigit(s[i]) || s[i] == '_')
    && (forall i :: 0 < i < |s| && s[i] == '_' ==> s[i - 1] != '_')
  }

  /** `s` with every underscore dropped: the digits Python's `int` reads. */
  function RemoveUnderscores(s: string): (r: string)
    ensures (forall i :: 0 <= i < |s| ==> IsDigit(s[i]) || s[i] == '_') ==> AllDigits(r)
    ensures AllDigits(s) ==> r == s
    ensures |r| <= |s|
  {
    if |s| == 0 then ""
    else
      var rest := RemoveUnderscores(s[1..]);
      assert AllDigits(s) ==> [s[0]] + s[1..] == s;
      if s[0] == '_' then rest else [s[0]] + rest
  }

  /** Python's `int(s)` for a string: surrounding whitespace, an optional sign and
      ASCII digits with single underscores; None where Python raises ValueError. */
  function PyInt(s: string): Option<int> {
    SignedDigits(Trim(PyIntSpaces, s))
  }

  /** The part of `int` after stripping: an optional sign, then the digits. */
  function SignedDigits(t: string): Option<int> {
    var signed := |t| > 0 && (t[0] == '+' || t[0] == '-');
    var body := if signed then t[1..] else t;
    if IsUnderscoredDigits(body) then
      var v: int := DigitsValue(RemoveUnderscores(body));
      Some(if signed && t[0] == '-' then -v else v)
    else None
  }

  /** A canonical numeral is its own `int` body: it is trimmed, unsigned, and
      has no underscore. */
  lemma CanonicalIsIntBody(d: string)
    requires IsCanonicalNumeral(d)
    ensures IsUnderscoredDigits(d) && RemoveUnderscores(d) == d
    ensures Trim(PyIntSpaces, d) == d && Trim(PyIntSpaces, "-" + d) == "-" + d
  {
    TrimNoSpaces(PyIntSpaces, d);
    TrimNoSpaces(PyIntSpaces, "-" + d);
  }

  lemma PyIntOfNumeral(d: string)
    requires IsCanonicalNumeral(d)
    ensures PyInt(d) == Some(DigitsValue(d))
  {
    CanonicalIsIntBody(d);
    assert IsDigit(d[0]);
    UnsignedDigits(d);
  }

  lemma UnsignedDigits(d: string)
    requires |d| > 0 && d[0] != '+' && d[0] != '-'
    requires IsUnderscoredDigits(d) && RemoveUnderscores(d) == d
    ensures SignedDigits(d) == Some(DigitsValue(d))
  {
  }

  lemma PyIntOfNegated(d: string)
    requires IsCanonicalNumeral(d)
    ensures PyInt("-" + d) == Some(-(DigitsValue(d) as int))
  {
    CanonicalIsIntBody(d);
    var t := "-" + d;
    assert t[0] == '-' && t[1..] == d;
    NegativeDigits(t, d);
  }

  lemma NegativeDigits(t: string, d: string)
    requires |t| > 0 && t[0] == '-' && t[1..] == d
    requires IsUnderscoredDigits(d) && RemoveUnderscores(d) == d
    ensures SignedDigits(t) == Some(-(DigitsValue(d) as int))
  {
  }

  /** `int` skips a next-line character (U+0085) before a numeral, as
      `str.isspace` does. */
  lemma PyIntSkipsNextLine()
    ensures PyInt("\U{0085}5") == Some(5)
  {
    var t := "\U{0085}5";
    assert t[1..] == "5";
    assert LeadingSpaces(PyIntSpaces, "5") == 0;
    assert LeadingSpaces(PyIntSpaces, t) == 1;
    assert TrailingSpaces(PyIntSpaces, "5") == 0;
    assert Trim(PyIntSpaces, t) == "5";
    assert DigitsValue("5") == 5;
    UnsignedDigits("5");
  }

  /** `int` stops at a file separator (U+001C), though `str.isspace` accepts it. */
  lemma PyIntStopsAtSeparator()
    ensures PyInt("\U{001C}5") == None
    ensures IsSpace(PySpaces, '\U{001C}')
  {
    var t := "\U{001C}5";
    TrimNoSpaces(PyIntSpaces, t);
    assert !IsUnderscoredDigits(t) by {
      assert !IsDigit(t[0]) && t[0] != '_';
    }
  }

  /** Python reads back every integer it prints. */
  lemma PyIntOfIntToString(n: int)
    ensures PyInt(IntToString(n)) == Some(n)
  {
    if n < 0 {
      PyIntOfNegated(NatToString(-n));
    } else {
      PyIntOfNumeral(NatToString(n));
    }
  }


}

=== FILE: wrappers.dfy ===
/** Failure-compatible option and result types shared by every module. */
module Wrappers {

  datatype Option<+T> = None | Some(value: T) {
    /** The wrapped value, or `default` when there is none. */
    function GetOr(default: T): T {
      match this
      case Some(v) => v
      case None => default
    }
  }

  /** The values of the `Some`s of `s`, in order and with repeats. */
  function Somes<T>(s: seq<Option<T>>): (r: seq<T>)
    ensures |r| <= |s|
  {
    if |s| == 0 then []
    else Somes(s[..|s| - 1]) + (if s[|s| - 1].Some? then [s[|s| - 1].value] else [])
  }

  datatype Result<+R, +E> = Success(value: R) | Failure(error: E) {
    predicate IsFailure() {
      Failure?
    }

    function PropagateFailure<U>(): Result<U, E>
      requires Failure?
    {
      Failure(this.error)
    }

    function Extract(): R
      requires Success?
    {
      value
    }
  }
}
